=== FILE: README.md ===
# Internship portal: a verified model of its core

This project models the core of a Django internship portal for a university
programme. The portal has these parts:

- **Students** register with a university e-mail address and an eight-digit
  NIM (student number). They apply to job postings, confirm an internship
  placement and write one monthly report per placement and month.
- **Supervisors** fill in a 23-criterion evaluation of each placement.
- **Admins** move applications, placements, reports and evaluations through
  their statuses with bulk actions, and send notifications.

The model is written in Dafny, one module per source file of the core:

| module | source file | form |
|---|---|---|
| `AccountsModels` | accounts/models.py | functions and lemmas |
| `AccountsForms` | accounts/forms.py | functions and lemmas |
| `AccountsViews` | accounts/views_student.py | methods on the database |
| `AccountsAdmin` | accounts/admin.py | bulk-update function and method |
| `InternshipsModels` | internships/models.py | datatypes and functions |
| `InternshipsAdmin` | internships/admin.py | bulk updates; a loop method for the placement actions |
| `ReportsModels` | reports/models.py | functions and lemmas |
| `ReportsForms` | reports/forms.py | a loop method and functions |
| `ReportsViews` | reports/views.py | methods on the database; the read-only view as a function |
| `ReportsAdmin` | reports/admin.py | a loop method and a bulk update |
| `EvaluationsModels` | evaluations/models.py | functions, a loop method, lemmas |
| `EvaluationsForms` | evaluations/forms.py | functions and a save method |
| `EvaluationsViews` | evaluations/views.py | methods on the database; the read-only views as functions |
| `EvaluationsAdmin` | evaluations/admin.py | loop methods and a bulk update |
| `NotificationsModels` | notifications/models.py | functions |
| `NotificationsAdmin` | notifications/admin.py | bulk-update functions and methods |

The remaining modules support these:

- `Portal` holds the persistent state. A `Database` object has one map per
  table, keyed by primary key. Its invariant `Valid()` states the unique and
  foreign-key constraints the models declare. Its methods are the
  model-layer operations that insert, update and save rows: `create_user`,
  `User.save`, `check_at_risk_status`, `calculate_overall_rating`,
  `check_late_submission`, `mark_as_read`, `send_to_user` and
  `send_to_multiple`.
- `Text` models Python's `str.split`, `str.strip`, `str.join` and `str()` of
  an integer over `seq<char>`.
- `Calendar` models `datetime` dates, instants and `timedelta.days`.
- `Selections` models a queryset as the sequence of selected ids, each at most once (`Distinct`); the admin actions take such a selection.
- `Http` models a view's response: render, redirect, 404 or server error.

The following choices cut across the modules:

- **Views return values.** A view returns a response datatype. A view that
  writes is a method that `modifies` the database. An uncaught exception
  is `ServerError`, for example a user whose role says STUDENT but who has
  no student profile.
- **Time is a parameter.** `timezone.now()` and `date.today()` are passed in
  as `now` and `today`.
- **Nullable columns are `Option`s.**
- **The overall rating is an exact `real`.** Its value is
  `sum / count`.
- **`.first()` picks the greatest id.** Under the default `-created_at`
  ordering, `.first()` returns the newest row, modelled as the row with the
  greatest id.

## Model

| member | source | states |
|---|---|---|
| AccountsModels.ValidateFileSize | accounts/models.py:8-13 | a file is accepted exactly when its size is at most 5 MiB (5 242 880 bytes) |
| AccountsModels.StudentEmailAccepted | accounts/models.py:162-167 | an empty e-mail passes; any other passes exactly when it ends with the 29-character student domain |
| AccountsModels.NimIsEightDigits | accounts/models.py:109-115 | the NIM column's pattern plus `max_length=8` accept exactly the strings of eight ASCII digits (other Unicode decimal digits are left out); the pattern alone also accepts eight digits followed by one newline |
| AccountsModels.NamePartsRoundTrip | accounts/models.py:70-75 | deriving first/last name fails exactly on a non-empty all-whitespace full name (the `IndexError`); otherwise the first name is the first word (empty only for an empty name), the last name is the remaining words joined by single spaces (empty for one word), and the words of "first last" are exactly the words of the full name |
| AccountsModels.SkillsAreClean | accounts/models.py:186-188 | every skill `get_skills_list` yields is non-empty, has no surrounding whitespace and contains no comma |
| AccountsModels.SkillsRoundTrip | accounts/models.py:186-188 | joining a list of clean skills with commas and reading it back yields the same list in the same order |
| AccountsModels.AtRiskCheck | accounts/models.py:169-184 | a profile is flagged AT_RISK exactly when it is APPROVED, has an approval time, has no ACTIVE placement and more than 60 whole days have passed; otherwise it is unchanged |
| AccountsForms.CleanChar | accounts/forms.py:16-29 | a char field keeps the stripped value; an empty one is refused exactly when required; a non-empty one is accepted exactly when it respects its length bounds and holds no NUL character |
| AccountsForms.CleanEmail | accounts/forms.py:49-55 | an address is accepted exactly when it has the student domain and no user has it yet; an accepted one passes the profile's own domain check |
| AccountsForms.CleanNim | accounts/forms.py:57-61 | a NIM is accepted exactly when no profile has it yet |
| AccountsForms.ShortPasswordRejected | accounts/forms.py:16-22 | a form whose stripped password is shorter than 8 characters never validates |
| AccountsForms.RegistrationFormGuarantees | accounts/forms.py:49-71 | a valid registration form has a new student-domain e-mail, a new eight-digit NIM and two equal passwords of at least 8 characters |
| AccountsViews.RegistrationFailure | accounts/views_student.py:35-58 | the refusal reason is the first failing check in the view's order (password mismatch, domain, duplicate e-mail, duplicate NIM, missing documents), each stated as an if-and-only-if |
| AccountsViews.RegisteringTwiceRefused | accounts/views_student.py:35-85 | after a successful registration the e-mail and NIM are both taken, and posting the same data again is refused as a duplicate e-mail |
| AccountsViews.Register | accounts/views_student.py:13-90 | an authenticated user is sent home, a GET shows the form; a refused post changes nothing; an accepted one inserts a STUDENT user and an APPROVED profile approved at `now`, keeping every table constraint |
| AccountsViews.JobDetail | accounts/views_student.py:169-202 | non-students are sent home, an unknown posting is a 404; a SENT application is created exactly for a valid post by a student who has not applied yet; any other request from a student with a profile renders the page, and nothing changes otherwise |
| AccountsViews.ConfirmInternship | accounts/views_student.py:226-261 | a student with a pending or active placement is sent to the dashboard; a valid post creates an ACTIVE placement confirmed at `now` and makes the student ACTIVE; a GET or invalid post renders the form; nothing changes otherwise |
| AccountsAdmin.MarkedAtRiskSpec | accounts/admin.py:74-76 | every selected profile becomes AT_RISK whatever its status, only the status changes, and unselected profiles are untouched |
| AccountsAdmin.MarkedAtRiskIdempotent | accounts/admin.py:74-76 | marking the same selection AT_RISK twice is the same as marking it once |
| AccountsAdmin.MarkAtRisk | accounts/admin.py:74-76 | the action applies that update to the database and reports the number of selected rows |
| InternshipsModels.DurationMonths | internships/models.py:172-175 | the result is the placement's length in days floor-divided by 30, and is negative exactly when the end date is before the start date |
| InternshipsAdmin.MarkedApplicationsSpec | internships/admin.py:96-109 | every selected application takes the new status whatever its current one; nothing else changes |
| InternshipsAdmin.LastMarkWins | internships/admin.py:96-109 | there is no transition graph: two successive marks of a selection equal the last mark alone |
| InternshipsAdmin.MarkApplications | internships/admin.py:96-109 | `mark_under_review` / `mark_accepted` / `mark_rejected` apply that update and report the number of selected rows |
| InternshipsAdmin.RunRowsPlacements | internships/admin.py:159-190 | after the loop each placement among the handled rows is transitioned once (ACTIVE confirmed by the admin at `now`, or COMPLETED), every other one is unchanged |
| InternshipsAdmin.RunRowsStudents | internships/admin.py:159-190 | after the loop exactly the students owning a handled placement take the action's status (ACTIVE or COMPLETED) |
| InternshipsAdmin.RunRowsFrame | internships/admin.py:159-190 | the placement actions touch only the placement and student tables |
| InternshipsAdmin.RunPlacementAction | internships/admin.py:159-190 | `confirm_placement` / `complete_placement` run the loop over the selected placements in the starting status and report how many were handled |
| InternshipsAdmin.RunAll | internships/admin.py:164-173 | the `for` loop saves each row's placement and then its student, and leaves the state the row-by-row fold describes |
| InternshipsAdmin.PlacementActionPlacements | internships/admin.py:159-190 | exactly the selected placements in the starting status are transitioned; other placements and all other tables are unchanged |
| InternshipsAdmin.PlacementActionStudents | internships/admin.py:159-190 | exactly the students owning a selected placement in the starting status take the action's status |
| ReportsModels.GetDeadline | reports/models.py:88-91 | the deadline is the 30th of the report's month; it exists exactly for years 1..9999, months 1..12 other than February |
| ReportsModels.CheckLateSubmission | reports/models.py:93-101 | with no submission time the report is unchanged and not late; it raises exactly for a submitted February report; otherwise the late flag is raised (never cleared) exactly when the submission date is after the deadline |
| ReportsModels.LateExactlyAfterDayThirty | reports/models.py:93-101 | a report submitted in its own month is found late exactly when submitted on a day after the 30th, and a raised flag stays raised |
| ReportsModels.LateMeansDaysPastDeadline | reports/models.py:93-101 | on real dates, "late" means a positive number of days from the deadline to the submission date |
| ReportsModels.GetWordCount | reports/models.py:103-114 | the word count of the seven sections joined by spaces is the sum of their own word counts |
| ReportsForms.TotalWords | reports/forms.py:78-87 | the loop's total is the sum of the word counts of the counted fields, a missing field counting zero |
| ReportsForms.FormTotalIsWordCount | reports/forms.py:78-87 | for fields that all passed their own checks the form's total equals the saved report's `get_word_count` |
| ReportsForms.CleanSectionsSpec | reports/models.py:34-60 | the sections are cleaned exactly when each passes its required / NUL / minimum-length checks, and then all are stripped |
| ReportsForms.ValidateReportFormSpec | reports/forms.py:74-92 | a report form is accepted exactly when every section passes its checks, the company profile passes its own, and the sections hold at least 500 words; the saved content is the stripped text |
| ReportsForms.CleanedReportRevalidates | reports/forms.py:74-92 | posting a report's saved content again is accepted and leaves it unchanged |
| ReportsViews.LatestActivePlacementExists | reports/views.py:50-53 | a student with an ACTIVE placement has a newest one |
| ReportsViews.LatestActivePlacementUnique | reports/views.py:50-53 | the newest ACTIVE placement is unique |
| ReportsViews.PostedSpec | reports/views.py:83-90 | a draft keeps the submission time and late flag; a submission stamps `now` and raises the flag exactly when `now` is after the 30th, failing only when that deadline cannot be built |
| ReportsViews.CreatedReportLateOnlyOnThe31st | reports/views.py:60-86 | a report created and submitted in its own month is late exactly when submitted on the 31st |
| ReportsViews.LateFlagSurvivesEdits | reports/views.py:125-141 | a raised late flag survives every later post, and a draft save never clears the submission time |
| ReportsViews.CreateReportRouteSpec | reports/views.py:46-71 | each guard of `create_report` and where it leads, as if-and-only-ifs; a new report is only made for the newest ACTIVE placement when it has none for the current month |
| ReportsViews.CreateReport | reports/views.py:44-103 | stops, opens the existing report, or handles the form as the route says; only a valid post can insert a report, a GET or refused form renders, a February submission raises, and the table constraints hold after |
| ReportsViews.SaveNewReport | reports/views.py:73-103 | a valid post inserts exactly the new report (the current month and year, submitted or draft); a GET or refused form renders; a February submission raises; nothing changes unless inserted |
| ReportsViews.EditReportView | reports/views.py:107-151 | non-students, unknown reports, other students' reports and REVIEWED reports are refused unchanged; for the owner on any other status, a GET or refused form renders, a valid post is saved exactly when the lateness check succeeds and raises exactly when it fails, and the saved report keeps its key |
| ReportsViews.ViewReport | reports/views.py:155-179 | an unknown report is a 404; the report is shown exactly to its student, its placement's supervisor and admins; everyone else is redirected |
| ReportsAdmin.AcceptedContentShowsGreen | reports/admin.py:43-50 | content the report form accepts always shows a green word count |
| ReportsAdmin.ColourThreshold | reports/admin.py:43-50 | the word count shows green exactly at 500 words and above |
| ReportsAdmin.ReviewRowsSpec | reports/admin.py:70-79 | after the loop each report among the rows is REVIEWED by the admin at `now`, every other report unchanged |
| ReportsAdmin.MarkReviewed | reports/admin.py:70-79 | `mark_reviewed` reviews the selected SUBMITTED reports and reports how many |
| ReportsAdmin.ReviewAll | reports/admin.py:74-78 | the loop saves each row REVIEWED and counts the rows |
| ReportsAdmin.MarkReviewedEffect | reports/admin.py:70-79 | exactly the selected SUBMITTED reports become REVIEWED with reviewer fields set; all others are untouched |
| ReportsAdmin.RevisionRequestedSpec | reports/admin.py:82-84 | only selected SUBMITTED reports change, and only their status |
| ReportsAdmin.RequestRevision | reports/admin.py:82-84 | `request_revision` applies that update and reports the number of selected SUBMITTED reports |
| ReportsAdmin.ActionsDiverge | reports/admin.py:70-84 | from the same SUBMITTED report the two actions lead to REVISION_REQUESTED and REVIEWED respectively |
| EvaluationsModels.CategoriesPartitionCriteria | evaluations/models.py:242-252 | the seven categories are consecutive slices of the 23 criteria in `calculate_overall_rating`'s order, so each criterion lies in exactly one category |
| EvaluationsModels.CategoryOfUnique | evaluations/models.py:242-252 | no rating index lies in two categories |
| EvaluationsModels.Mean | evaluations/models.py:227-234 | the mean of the non-null ratings is undefined exactly when every rating is null |
| EvaluationsModels.MeanTimesCount | evaluations/models.py:227-234 | a defined mean times the count of non-null ratings is their sum |
| EvaluationsModels.MeanWithinScale | evaluations/models.py:26-153 | with every rating within the validators' 1..5, a defined mean lies in [1, 5] |
| EvaluationsModels.GetCategoryAverages | evaluations/models.py:242-262 | one entry per category in declaration order, each the category's name and the mean of its non-null ratings (undefined exactly when all are null) |
| EvaluationsModels.OverallIsWeightedCategoryMean | evaluations/models.py:208-262 | the overall rating equals the mean of the category averages weighted by their number of non-null ratings |
| EvaluationsModels.Recalculated | evaluations/models.py:208-234 | recalculation sets the overall rating to the mean when some rating is set, keeps the old rating when none is, and changes nothing else |
| EvaluationsModels.RecalculatedIdempotent | evaluations/models.py:208-234 | recalculating twice equals recalculating once |
| EvaluationsModels.IsPassing | evaluations/models.py:236-240 | an evaluation passes exactly when its overall rating is set and at least 3.0 |
| EvaluationsModels.PassingAfterRecalculation | evaluations/models.py:208-240 | after a recalculation over at least one rating, passing means the ratings sum to at least three times their count |
| EvaluationsForms.FormFieldsSpec | evaluations/forms.py:10-29 | the form has 29 fields whose first 23 are exactly the criteria the overall rating aggregates, in the same order |
| EvaluationsForms.FormExcludesComputedFields | evaluations/forms.py:10-29 | overall rating, status, submission time and deadline are not form fields |
| EvaluationsForms.RatingChoicesSpec | evaluations/forms.py:32-35 | the widget offers exactly the values 1..5 the validators accept, each labelled by its own numeral |
| EvaluationsForms.CleanEvaluationFormSpec | evaluations/models.py:26-153 | a post is accepted exactly when every rating is null or in 1..5 and no description holds a NUL character; the accepted data keeps ratings and flags and strips the four descriptions |
| EvaluationsForms.CleanedEvaluationRevalidates | evaluations/models.py:26-153 | cleaning accepted data again gives it back unchanged |
| EvaluationsForms.FormSavedSpec | evaluations/forms.py:119-125 | a save carries the posted assessment and recomputes the overall rating (kept when no rating is set); every other field is the evaluation's own |
| EvaluationsForms.FormSavedIdempotent | evaluations/forms.py:119-125 | saving the same post twice equals saving it once |
| EvaluationsForms.SaveEvaluationForm | evaluations/forms.py:119-125 | returns that saved evaluation; the row is written when `commit` is set or some rating is set (the recalculation saves it), and otherwise the database is unchanged |
| EvaluationsViews.SupervisorEvaluationsView | evaluations/views.py:10-23 | a non-supervisor is sent home, one without a profile makes the view raise, and a supervisor with a profile gets the page listing exactly the evaluations assigned to them |
| EvaluationsViews.FormGuardSpec | evaluations/views.py:29-42 | only the evaluation's own supervisor reaches the form and only while it is not SUBMITTED; a submitted one sends its owner to the preview |
| EvaluationsViews.AfterPostSpec | evaluations/views.py:48-59 | a submit ends SUBMITTED at `now`, a draft ends DRAFT keeping `submitted_at`; both carry the posted assessment and recomputed rating, and keep placement, supervisor, type and deadline |
| EvaluationsViews.AfterPostOk | evaluations/views.py:48-59 | the evaluation a valid post leaves meets the table's constraints and keeps its unique key |
| EvaluationsViews.EvaluationFormView | evaluations/views.py:27-74 | guards change nothing; a GET or invalid post (a rating outside 1..5, a NUL in a description) renders the form and changes nothing; a valid post writes exactly the evaluation `AfterPost` describes; a SUBMITTED evaluation is never changed |
| EvaluationsViews.SavePosted | evaluations/views.py:48-60 | the valid-post branch (`save(commit=False)`, status change, `save()`) leaves exactly the `AfterPost` row and redirects to the list |
| EvaluationsViews.EvaluationPreviewView | evaluations/views.py:78-103 | an unknown evaluation is a 404; the preview is shown exactly to its supervisor, its placement's student and admins |
| EvaluationsAdmin.BadgeColoursDistinct | evaluations/admin.py:66-77 | every status has its own badge colour |
| EvaluationsAdmin.DaysRemainingSpec | evaluations/admin.py:80-96 | a submitted evaluation is complete; an open one is overdue exactly when the deadline is before today (by the days between), due today exactly on the deadline, otherwise urgent up to 3 days left |
| EvaluationsAdmin.RecalcRowsSpec | evaluations/admin.py:101-106 | after the loop each selected evaluation is recalculated, every other unchanged |
| EvaluationsAdmin.RecalcRowsRatings | evaluations/admin.py:101-106 | a selected evaluation ends with the mean of its ratings, or its old rating when all are null |
| EvaluationsAdmin.CalculateRatings | evaluations/admin.py:101-106 | `calculate_ratings` recalculates and saves each selected evaluation in turn and counts the selection |
| EvaluationsAdmin.DraftsSubmittedSpec | evaluations/admin.py:109-115 | exactly the selected DRAFTs become SUBMITTED at `now` with every other field untouched; PENDING ones stay pending |
| EvaluationsAdmin.MarkSubmitted | evaluations/admin.py:109-115 | `mark_submitted` applies that update and reports the number of selected drafts |
| EvaluationsAdmin.ReminderSpec | evaluations/admin.py:123-130 | a reminder goes unread to the evaluation's supervisor as an EVALUATION warning naming the evaluation type, student and deadline, linking to the evaluation's page |
| EvaluationsAdmin.ReminderLinksDistinct | evaluations/admin.py:129 | reminders about different evaluations link to different pages |
| EvaluationsAdmin.SendReminder | evaluations/admin.py:118-132 | one reminder per selected PENDING or DRAFT evaluation is appended in selection order; the count is the number sent; nothing else changes |
| EvaluationsAdmin.RemindAll | evaluations/admin.py:122-131 | the loop appends the reminders of the rows in order and counts them |
| EvaluationsAdmin.RemindersOnlyOpen | evaluations/admin.py:122 | every reminder concerns a selected evaluation that is not SUBMITTED |
| EvaluationsAdmin.RemindersCoverOpen | evaluations/admin.py:122 | every selected evaluation still open gets a reminder linking to its page |
| NotificationsModels.NewNotification | notifications/models.py:26-27 | a new notification is unread, never read, with the given content |
| NotificationsModels.MarkedRead | notifications/models.py:45-51 | afterwards the notification is read; an unread one is stamped `now`, an already-read one keeps its reading time; nothing else changes |
| NotificationsModels.MarkedReadIdempotent | notifications/models.py:45-51 | marking read twice keeps the first reading time |
| NotificationsModels.UnreadThenRead | notifications/admin.py:53-55 | reading after unreading stamps the new time; unreading a never-read notification changes nothing |
| NotificationsAdmin.ReadMarkedSpec | notifications/admin.py:44-50 | each selected notification ends read (stamped `now` only when it was unread); unselected ones are untouched |
| NotificationsAdmin.ReadMarkedIdempotent | notifications/admin.py:44-50 | marking the same selection read again at any time changes nothing |
| NotificationsAdmin.MarkAsRead | notifications/admin.py:44-50 | the action applies that update and counts the selected notifications that were unread |
| NotificationsAdmin.UnreadMarkedSpec | notifications/admin.py:53-55 | each selected notification ends unread with no reading time; unselected ones are untouched |
| NotificationsAdmin.MarkAsUnread | notifications/admin.py:53-55 | the action applies that update and counts the selected rows |
| Portal.Database.CreateUser | accounts/models.py:19-26 | an empty e-mail and a taken one are refused with nothing changed; otherwise exactly one user with empty names is inserted under a fresh id |
| Portal.Database.CreateSuperuser | accounts/models.py:28-38 | an explicit false `is_staff` or `is_superuser` is refused first; otherwise a staff superuser (role ADMIN by default) is created as `create_user` does |
| Portal.Database.SaveUser | accounts/models.py:70-75 | a student's user takes the first and remaining names of the profile's full name; saving fails exactly when that raises, and then nothing is saved |
| Portal.Database.CheckAtRiskStatus | accounts/models.py:169-184 | applies `AtRiskCheck` to the stored profile, with the ACTIVE-placement test read from the database |
| Portal.Database.CalculateOverallRating | evaluations/models.py:208-234 | returns the mean of the ratings and stores the recalculated evaluation |
| Portal.Database.CheckLate | reports/models.py:93-101 | reports whether the stored report was found late, raising the flag in the table; nothing changes when the deadline cannot be built |
| Portal.Database.MarkAsRead | notifications/models.py:45-51 | replaces exactly notification i by its read form |
| Portal.Database.SendToUser | notifications/models.py:53-63 | appends exactly one new unread notification and returns its id |
| Portal.Database.SendToMultiple | notifications/models.py:65-79 | appends one notification per recipient, in order, with the same content, and returns their ids |
| Portal.ApplicationAdded | internships/models.py:101-103 | inserting an application for a new (student, posting) pair keeps every table constraint |
| Portal.ReportAdded | reports/models.py:79-81 | inserting a report for a new (placement, month, year) keeps every table constraint |
| Portal.EvaluationReplaced | evaluations/models.py:199-201 | replacing an evaluation by one with the same (placement, type) keeps every table constraint |
| Text.WordCountOfJoin | reports/models.py:103-114 | the word count of a space-join is the sum of the parts' word counts |
| Text.SplitOfStrip | reports/forms.py:84-87 | stripping never changes the words of a string |
| Text.DecimalRoundTrip | evaluations/forms.py:32-35 | reading back the numeral of n gives n |
| Calendar.OrdinalOrdersDates | reports/models.py:97 | on real dates the day ordinal orders dates exactly as the `date` comparison does |
| Calendar.WholeDaysBetween | accounts/models.py:179 | the whole days between two instants are rounded down, as `timedelta.days` does |
| Selections.FilterDistinct | evaluations/admin.py:122 | filtering a queryset keeps every row at most once |

## Left out

- Anonymous requests: every view under `@login_required` takes an actor who is a known user, so the redirect to the login page that an anonymous request gets (with nothing changed) is not modelled.
- The ORM itself, template rendering, `messages`, `format_html` and the HTML of the admin columns are left out. Views return a response kind, not a page.
- The colour maps of the student, application, placement and notification-type badges are left out (accounts/admin.py, internships/admin.py and notifications/admin.py:27-39). They are presentation only. The evaluation badge is modelled.
- Password hashing, `set_password` and `normalize_email` are left out. E-mails are compared as given.
- File storage and the upload extension validators are left out. Only the size check and the presence of the two registration documents are modelled.
- Form validation of `JobApplicationForm` and `InternshipConfirmationForm` is left out. These forms are not part of this model. Their outcome is an input: a GET, an invalid post, or a valid post with its cleaned data.
- AccountsModels.NimIsEightDigits: the pattern `\d` of a Python `str` regular expression accepts every Unicode decimal digit; the model accepts only the ASCII digits 0-9, so a NIM of other decimal digits that the validator lets through is refused here.
- AccountsForms.RegistrationFormGuarantees: the `EmailField` format check is not modelled. Neither are the choice, whatsapp and document fields of `StudentRegistrationForm`, which `register` does not use. The guarantees cover the e-mail, NIM, password and full-name fields only. As written, `is_valid()` on a bound form never returns true: the ModelForm's post-clean step runs `StudentProfile.clean` (accounts/models.py:162-164), which reads `self.user` on a profile that has no user yet and raises. The predicate models only the field checks and the form's own `clean_*` and `clean` methods; `register` does not call `is_valid()`.
- Ratings arrive as parsed integers. The parsing of the raw POST strings is not modelled.
- EvaluationsModels.Mean: the `DecimalField` rounding of `overall_rating` to two decimals on save is not modelled. The rating is the exact quotient.
- Ordering by `-created_at` is not modelled, except where `.first()` picks a row, which is modelled as the greatest id. `get_queryset`'s `select_related` is left out: it does not change results.
- `EvaluationReminder` and its admin, `ReportFeedback` and its admin, and the read-only views are left out. The read-only views are the student dashboard, profile, job list, application list and report list. None of these changes or decides anything the modelled operations depend on.
- ReportsModels.GetDeadline: for February, `date(year, 2, 30)` raises `ValueError`. The model returns `None`, and the views turn it into `ServerError`. It is not a precondition, because the code does not exclude February.
- AccountsViews.Register: the NIM is not checked against the eight-digit pattern. The view creates the profile without `full_clean`, as the code does.
- AccountsViews.Register: a POST field that is missing is not modelled; every posted value is a string. In the view a missing field reads as `None`: a post without `email` whose passwords agree (or are both missing) makes `email.endswith` raise, a server error with nothing saved.
- AccountsViews.Register: the `except Exception` branch is not modelled. With the checks above, the model's `create_user` cannot fail.
- Time zones are not modelled. `now` is one instant, and its calendar date is the date the code compares.
- Concurrent requests and transactions are not modelled. `transaction.atomic` is reflected only in that registration creates the user and the profile together or not at all.
- The `'gray'` fallback of the evaluation badge is not modelled: it matches no status value.
- The final `else` of the access checks, for a role other than the three, is not modelled. `Role` has only STUDENT, SUPERVISOR and ADMIN.

=== FILE: accounts_admin.dfy ===
/**
 * The student-profile admin action (accounts/admin.py): marking the selected
 * students as at risk with one bulk update.
 */
module AccountsAdmin {
  import opened AccountsModels
  import opened Portal
  import opened Selections

  /** The student profiles after `queryset.update(status='AT_RISK')` on the selection. */
  function MarkedAtRisk(students: map<UserId, StudentProfile>, selection: seq<UserId>): map<UserId, StudentProfile> {
    map id | id in students :: if id in selection then students[id].(status := AtRisk) else students[id]
  }

  /**
   * Every selected student ends AT_RISK whatever their status was; only the
   * status field changes, and no profile outside the selection changes.
   */
  lemma MarkedAtRiskSpec(students: map<UserId, StudentProfile>, selection: seq<UserId>)
    ensures MarkedAtRisk(students, selection).Keys == students.Keys
    ensures forall id :: id in students && id in selection ==>
      MarkedAtRisk(students, selection)[id] == students[id].(status := AtRisk)
    ensures forall id :: id in students && id !in selection ==> MarkedAtRisk(students, selection)[id] == students[id]
  {
  }

  /** Marking the same students again changes nothing. */
  lemma MarkedAtRiskIdempotent(students: map<UserId, StudentProfile>, selection: seq<UserId>)
    ensures MarkedAtRisk(MarkedAtRisk(students, selection), selection) == MarkedAtRisk(students, selection)
  {
  }

  /**
   * `mark_at_risk`: one bulk update of the selected profiles; the count it
   * reports is the number of selected rows.
   */
  method MarkAtRisk(db: Database, selection: seq<UserId>) returns (updated: nat)
    requires db.Valid() && Distinct(selection) && forall id :: id in selection ==> id in db.t.students
    modifies db
    ensures db.Valid()
    ensures updated == |selection|
    ensures db.t == old(db.t).(students := MarkedAtRisk(old(db.t).students, selection))
  {
    db.ReplaceStudents(MarkedAtRisk(db.t.students, selection));
    updated := |selection|;
  }
}

=== FILE: accounts_forms.dfy ===
/**
 * The student registration form (accounts/forms.py): the e-mail must carry
 * the student domain and be new, the NIM must be new (and match the model's
 * eight-digit pattern), the password must be at least 8 characters, and two
 * passwords that are both given must agree.
 */
module AccountsForms {
  import opened Wrappers
  import opened Text
  import opened AccountsModels
  import opened Portal

  /** The text fields of a registration post, as typed. */
  datatype RegistrationData = RegistrationData(
    fullName: string,
    nim: string,
    email: string,
    password: string,
    passwordConfirm: string)

  const PASSWORD_MIN_LENGTH: nat := 8
  const NIM_MAX_LENGTH: nat := 8
  const FULL_NAME_MAX_LENGTH: nat := 255

  /**
   * A form `CharField`: the value is stripped; an empty result is refused
   * when the field is required and otherwise kept; a non-empty one must
   * respect the length bounds and hold no NUL character.
   */
  function CleanChar(raw: string, required: bool, minLength: nat, maxLength: Option<nat>): (cleaned: Option<string>)
    ensures cleaned.Some? ==> cleaned.value == Strip(raw)
    ensures cleaned.Some? && cleaned.value != [] ==>
      minLength <= |cleaned.value| && (maxLength.Some? ==> |cleaned.value| <= maxLength.value)
    ensures Strip(raw) == [] ==> (cleaned.Some? <==> !required)
    ensures Strip(raw) != [] ==>
      (cleaned.Some? <==>
         minLength <= |Strip(raw)| && (maxLength.Some? ==> |Strip(raw)| <= maxLength.value) && '\0' !in Strip(raw))
  {
    var s := Strip(raw);
    if s == [] then (if required then None else Some(s))
    else if |s| < minLength || (maxLength.Some? && |s| > maxLength.value) || '\0' in s then None
    else Some(s)
  }

  /** `clean_email`: the student domain, then no account with that address yet. */
  function CleanEmail(t: Tables, email: string): (cleaned: Option<string>)
    ensures cleaned.Some? <==> EndsWith(email, STUDENT_EMAIL_DOMAIN) && !EmailRegistered(t, email)
    ensures cleaned.Some? ==> cleaned.value == email && StudentEmailAccepted(email)
  {
    if !EndsWith(email, STUDENT_EMAIL_DOMAIN) then None
    else if EmailRegistered(t, email) then None
    else Some(email)
  }

  /** `clean_nim`: no profile with that NIM yet. */
  function CleanNim(t: Tables, nim: string): (cleaned: Option<string>)
    ensures cleaned.Some? <==> !NimRegistered(t, nim)
    ensures cleaned.Some? ==> cleaned.value == nim
  {
    if NimRegistered(t, nim) then None else Some(nim)
  }

  /**
   * `clean`: a mismatch is reported only when both passwords survived their
   * own checks, both are non-empty, and they differ.
   */
  predicate PasswordsMismatch(password: Option<string>, confirm: Option<string>) {
    password.Some? && password.value != [] && confirm.Some? && confirm.value != []
    && password.value != confirm.value
  }

  /**
   * `is_valid()` for the fields above: every field check, `clean_email`,
   * `clean_nim`, `clean`, and the model's NIM pattern run on the stripped value.
   * The profile's own `clean`, which raises on a profile without a user, is
   * not part of it.
   */
  predicate RegistrationFormValid(t: Tables, d: RegistrationData) {
    var email := CleanChar(d.email, true, 0, None);
    var password := CleanChar(d.password, true, PASSWORD_MIN_LENGTH, None);
    var confirm := CleanChar(d.passwordConfirm, true, 0, None);
    var nim := CleanChar(d.nim, true, 0, Some(NIM_MAX_LENGTH));
    var fullName := CleanChar(d.fullName, true, 0, Some(FULL_NAME_MAX_LENGTH));
    email.Some? && CleanEmail(t, email.value).Some?
    && password.Some? && confirm.Some? && !PasswordsMismatch(password, confirm)
    && nim.Some? && CleanNim(t, nim.value).Some? && NimPatternMatches(nim.value)
    && fullName.Some?
  }

  /** A password of fewer than 8 characters, once stripped, is refused. */
  lemma ShortPasswordRejected(t: Tables, d: RegistrationData)
    requires |Strip(d.password)| < PASSWORD_MIN_LENGTH
    ensures !RegistrationFormValid(t, d)
  {
  }

  /**
   * What an accepted form guarantees: a new e-mail with the student domain,
   * a new NIM of exactly eight digits, and two equal passwords of at least 8
   * characters (all after stripping).
   */
  lemma RegistrationFormGuarantees(t: Tables, d: RegistrationData)
    requires RegistrationFormValid(t, d)
    ensures EndsWith(Strip(d.email), STUDENT_EMAIL_DOMAIN) && !EmailRegistered(t, Strip(d.email))
    ensures |Strip(d.nim)| == 8 && (forall i :: 0 <= i < 8 ==> IsAsciiDigit(Strip(d.nim)[i]))
    ensures !NimRegistered(t, Strip(d.nim))
    ensures |Strip(d.password)| >= PASSWORD_MIN_LENGTH && Strip(d.password) == Strip(d.passwordConfirm)
  {
    NimIsEightDigits(Strip(d.nim));
  }
}

=== FILE: accounts_models.dfy ===
/**
 * Accounts: users, their roles and the student and supervisor profiles
 * (accounts/models.py), with the rules the model layer states about them:
 * the upload size limit, the NIM format, the student e-mail domain, the
 * first/last name split done on save, the at-risk rule and the skills list.
 */
module AccountsModels {
  import opened Wrappers
  import opened Calendar
  import opened Text

  type UserId = nat

  datatype Role = Student | Supervisor | Admin

  datatype StudentStatus = Approved | Active | AtRisk | Completed

  /** A login account. Passwords and their hashing are not part of this model. */
  datatype User = User(
    email: string,
    role: Role,
    firstName: string,
    lastName: string,
    isStaff: bool,
    isSuperuser: bool)

  /** The student profile; a profile is identified by the id of its user (one-to-one). */
  datatype StudentProfile = StudentProfile(
    fullName: string,
    nim: string,
    skills: string,
    status: StudentStatus,
    approvedAt: Option<DateTime>)

  /** The supervisor profile, also identified by the id of its user. */
  datatype SupervisorProfile = SupervisorProfile(fullName: string, companyName: string)

  // ---- uploads --------------------------------------------------------------

  const MAX_UPLOAD_BYTES: nat := 5 * 1024 * 1024

  /** `validate_file_size`: a file is accepted unless it is larger than 5 MiB. */
  function ValidateFileSize(size: nat): (accepted: bool)
    ensures accepted <==> size <= 5_242_880
  {
    !(size > MAX_UPLOAD_BYTES)
  }

  // ---- e-mail domain --------------------------------------------------------

  const STUDENT_EMAIL_DOMAIN: string := "@student.prasetiyamulya.ac.id"

  /**
   * `StudentProfile.clean`: an empty e-mail is let through; any other must end
   * with the student domain.
   */
  function StudentEmailAccepted(email: string): (accepted: bool)
    ensures email == [] ==> accepted
    ensures email != [] ==> (accepted <==> |email| >= 29 && email[|email| - 29..] == STUDENT_EMAIL_DOMAIN)
  {
    !(email != [] && !EndsWith(email, STUDENT_EMAIL_DOMAIN))
  }

  // ---- NIM --------------------------------------------------------------------

  /**
   * `re.search(r'^\d{8}$', nim)`: eight digits at the start, then the end of the
   * string or a single final newline (Python's `$` also matches before one).
   * `\d` is taken as the ASCII digits only.
   */
  predicate NimPatternMatches(nim: string) {
    |nim| >= 8
    && (forall i :: 0 <= i < 8 ==> IsAsciiDigit(nim[i]))
    && (|nim| == 8 || (|nim| == 9 && nim[8] == '\n'))
  }

  /** The NIM column's validators: the pattern and `max_length=8`. */
  predicate NimFieldValid(nim: string) {
    NimPatternMatches(nim) && |nim| <= 8
  }

  /**
   * Together, the pattern and the length limit accept exactly the strings of
   * eight digits; the pattern alone would also take a trailing newline.
   */
  lemma NimIsEightDigits(nim: string)
    ensures NimFieldValid(nim) <==> |nim| == 8 && forall i :: 0 <= i < |nim| ==> IsAsciiDigit(nim[i])
    ensures NimPatternMatches(nim + "\n") <==> NimFieldValid(nim)
  {
    var t := nim + "\n";
    assert forall i :: 0 <= i < |nim| ==> t[i] == nim[i];
    assert t[|nim|] == '\n';
  }

  // ---- first and last name ------------------------------------------------

  /**
   * `User.save` for a student's user: the first word of the full name and the
   * remaining words joined by single spaces. A non-empty full name with no
   * word at all makes `split()[0]` raise `IndexError`: `None`.
   */
  function NameParts(fullName: string): (parts: Option<(string, string)>)
  {
    if fullName == [] then Some(([], []))
    else
      var words := Split(fullName);
      if words == [] then None
      else Some((words[0], if |words| > 1 then Join(words[1..], " ") else []))
  }

  /**
   * The split loses nothing: the first name is a single word, and the words of
   * "first last" are exactly the words of the full name. The first name is
   * empty only for an empty full name, the last name is its own words joined
   * by single spaces, and a one-word name has an empty last name. It fails
   * exactly on a non-empty name made only of whitespace.
   */
  lemma {:induction false} NamePartsRoundTrip(fullName: string)
    ensures NameParts(fullName).None? <==> fullName != [] && WordCount(fullName) == 0
    ensures NameParts(fullName).Some? ==>
      var (first, last) := NameParts(fullName).value;
      NoSpace(first) && Split(first + " " + last) == Split(fullName)
      && (first == [] <==> fullName == [])
      && Join(Split(last), " ") == last
      && (WordCount(fullName) <= 1 ==> last == [])
  {
    var words := Split(fullName);
    if fullName != [] && words != [] {
      var (first, last) := NameParts(fullName).value;
      SplitAtSpace(first, ' ', last);
      SplitOfWord(first);
      if |words| > 1 {
        SplitJoinOfWords(words[1..]);
      }
      assert words == [words[0]] + words[1..];
    }
  }

  // ---- skills -------------------------------------------------------------------

  /** Stripped pieces, keeping only the non-empty ones, in order. */
  function NonEmptyStripped(pieces: seq<string>): (items: seq<string>)
    ensures |items| <= |pieces|
  {
    if pieces == [] then []
    else
      var item := Strip(pieces[0]);
      (if item != [] then [item] else []) + NonEmptyStripped(pieces[1..])
  }

  /** `get_skills_list`: the comma-separated items, stripped, empty ones dropped. */
  function SkillsList(skills: string): seq<string> {
    NonEmptyStripped(SplitOn(skills, ','))
  }

  /** A skill as `get_skills_list` yields it. */
  predicate CleanItem(item: string) {
    item != [] && IsStripped(item) && ',' !in item
  }

  lemma {:induction false} NonEmptyStrippedItems(pieces: seq<string>)
    requires forall k :: 0 <= k < |pieces| ==> ',' !in pieces[k]
    ensures forall item :: item in NonEmptyStripped(pieces) ==> CleanItem(item)
  {
    if pieces != [] {
      NonEmptyStrippedItems(pieces[1..]);
      StripResult(pieces[0]);
      StripIsSlice(pieces[0]);
    }
  }

  lemma StripIsSlice(s: string)
    ensures forall c :: c in Strip(s) ==> c in s
  {
    var l := StripLeft(s);
    StripLeftSpec(s);
    StripRightSpec(l);
    assert forall c :: c in StripRight(l) ==> c in l;
    assert forall c :: c in l ==> c in s;
  }

  /** Every skill is non-empty, carries no surrounding whitespace and no comma. */
  lemma SkillsAreClean(skills: string)
    ensures forall item :: item in SkillsList(skills) ==> CleanItem(item)
  {
    NonEmptyStrippedItems(SplitOn(skills, ','));
  }

  lemma {:induction false} NonEmptyStrippedKeepsClean(items: seq<string>)
    requires forall k :: 0 <= k < |items| ==> items[k] != [] && IsStripped(items[k])
    ensures NonEmptyStripped(items) == items
  {
    if items != [] {
      StripResult(items[0]);
      NonEmptyStrippedKeepsClean(items[1..]);
    }
  }

  /**
   * Writing a list of clean skills comma-separated and reading it back gives
   * the same list, in the same order.
   */
  lemma SkillsRoundTrip(items: seq<string>)
    requires forall k :: 0 <= k < |items| ==> CleanItem(items[k])
    ensures SkillsList(Join(items, ",")) == items
  {
    if items == [] {
      assert SplitOn([], ',') == [[]];
    } else {
      SplitOnJoin(items, ',');
      NonEmptyStrippedKeepsClean(items);
    }
  }

  // ---- at-risk rule ------------------------------------------------------------

  /** More than this many whole days since approval without an active placement is "at risk". */
  const AT_RISK_AFTER_DAYS: int := 60

  /**
   * `check_at_risk_status` on one profile, given whether the student has an
   * ACTIVE placement: the updated profile and whether it was flagged.
   */
  function AtRiskCheck(p: StudentProfile, hasActivePlacement: bool, now: DateTime): (r: (StudentProfile, bool))
    requires p.approvedAt.Some? ==> 1 <= p.approvedAt.value.date.month <= 12
    requires 1 <= now.date.month <= 12
    ensures r.1 <==> p.status == Approved && p.approvedAt.Some? && !hasActivePlacement
                     && Micros(now) - Micros(p.approvedAt.value) >= 61 * MICROS_PER_DAY
    ensures r.0 == if r.1 then p.(status := AtRisk) else p
  {
    if p.status == Approved && p.approvedAt.Some? && !hasActivePlacement
       && WholeDaysBetween(p.approvedAt.value, now) > AT_RISK_AFTER_DAYS
    then (p.(status := AtRisk), true)
    else (p, false)
  }
}

=== FILE: accounts_views.dfy ===
/**
 * The student views (accounts/views_student.py) that change the database:
 * registration, applying to a job posting, and confirming an internship.
 */
module AccountsViews {
  import opened Wrappers
  import opened Calendar
  import opened Text
  import opened AccountsModels
  import opened InternshipsModels
  import opened Portal
  import opened AccountsForms
  import opened Http

  // ---- register ----------------------------------------------------------------

  /** A registration post: the text fields, and whether each required document was uploaded. */
  datatype RegistrationPost = RegistrationPost(fields: RegistrationData, hasMentorDoc: bool, hasSptjmDoc: bool)

  datatype RegistrationError =
    | PasswordMismatch
    | WrongEmailDomain
    | DuplicateEmail
    | DuplicateNim
    | MentorDocMissing
    | SptjmDocMissing

  datatype RegisterOutcome =
    | AlreadyLoggedIn             // redirect home
    | ShowForm                    // render the empty form
    | Refused(reason: RegistrationError)  // render the form with the error
    | Registered(user: UserId)    // redirect to login

  /**
   * The first check `register` finds failing, in the order the view runs
   * them; the raw posted values are compared, nothing is stripped.
   */
  function RegistrationFailure(t: Tables, p: RegistrationPost): (failure: Option<RegistrationError>)
    ensures failure == Some(PasswordMismatch) <==> p.fields.password != p.fields.passwordConfirm
    ensures failure == Some(WrongEmailDomain) <==>
      p.fields.password == p.fields.passwordConfirm && !EndsWith(p.fields.email, STUDENT_EMAIL_DOMAIN)
    ensures failure == Some(DuplicateEmail) <==>
      p.fields.password == p.fields.passwordConfirm && EndsWith(p.fields.email, STUDENT_EMAIL_DOMAIN)
      && EmailRegistered(t, p.fields.email)
    ensures failure == Some(DuplicateNim) <==>
      p.fields.password == p.fields.passwordConfirm && EndsWith(p.fields.email, STUDENT_EMAIL_DOMAIN)
      && !EmailRegistered(t, p.fields.email) && NimRegistered(t, p.fields.nim)
    ensures failure == Some(MentorDocMissing) <==>
      p.fields.password == p.fields.passwordConfirm && EndsWith(p.fields.email, STUDENT_EMAIL_DOMAIN)
      && !EmailRegistered(t, p.fields.email) && !NimRegistered(t, p.fields.nim)
      && !p.hasMentorDoc
    ensures failure == Some(SptjmDocMissing) <==>
      p.fields.password == p.fields.passwordConfirm && EndsWith(p.fields.email, STUDENT_EMAIL_DOMAIN)
      && !EmailRegistered(t, p.fields.email) && !NimRegistered(t, p.fields.nim)
      && p.hasMentorDoc && !p.hasSptjmDoc
    ensures failure.None? <==>
      p.fields.password == p.fields.passwordConfirm && EndsWith(p.fields.email, STUDENT_EMAIL_DOMAIN)
      && !EmailRegistered(t, p.fields.email) && !NimRegistered(t, p.fields.nim)
      && p.hasMentorDoc && p.hasSptjmDoc
  {
    var f := p.fields;
    if f.password != f.passwordConfirm then Some(PasswordMismatch)
    else if !EndsWith(f.email, STUDENT_EMAIL_DOMAIN) then Some(WrongEmailDomain)
    else if EmailRegistered(t, f.email) then Some(DuplicateEmail)
    else if NimRegistered(t, f.nim) then Some(DuplicateNim)
    else if !p.hasMentorDoc then Some(MentorDocMissing)
    else if !p.hasSptjmDoc then Some(SptjmDocMissing)
    else None
  }

  /**
   * The tables after a successful registration: a STUDENT user with the
   * posted e-mail (its names stay empty: `create_user` saves it before the
   * profile exists) and an APPROVED profile approved at `now`.
   */
  function RegisteredTables(t: Tables, p: RegistrationPost, now: DateTime): Tables {
    var id := t.nextUserId;
    t.(users := t.users[id := User(p.fields.email, Student, [], [], false, false)],
       students := t.students[id := StudentProfile(p.fields.fullName, p.fields.nim, [], Approved, Some(now))],
       nextUserId := id + 1)
  }

  /**
   * After a registration succeeds, posting the same data again is refused as
   * a duplicate e-mail, and the new student is at once known by e-mail and NIM.
   */
  lemma RegisteringTwiceRefused(t: Tables, p: RegistrationPost, now: DateTime)
    requires RegistrationFailure(t, p).None?
    ensures EmailRegistered(RegisteredTables(t, p, now), p.fields.email)
    ensures NimRegistered(RegisteredTables(t, p, now), p.fields.nim)
    ensures RegistrationFailure(RegisteredTables(t, p, now), p) == Some(DuplicateEmail)
  {
    var id := t.nextUserId;
    var t' := RegisteredTables(t, p, now);
    assert id in t'.users && t'.users[id].email == p.fields.email;
    assert id in t'.students && t'.students[id].nim == p.fields.nim;
  }

  /**
   * `register`: an authenticated user is sent home; a GET shows the form; a
   * POST runs the checks in order and stops at the first failure with
   * nothing created; otherwise the user and the profile are created together.
   */
  method Register(db: Database, authenticated: bool, request: Request<RegistrationPost>, now: DateTime)
    returns (outcome: RegisterOutcome)
    requires db.Valid() && ValidDateTime(now)
    modifies db
    ensures db.Valid()
    ensures authenticated ==> outcome == AlreadyLoggedIn
    ensures !authenticated && request.GetRequest? ==> outcome == ShowForm
    ensures !authenticated && request.PostRequest? ==>
      match RegistrationFailure(old(db.t), request.data)
      case Some(reason) => outcome == Refused(reason)
      case None => outcome == Registered(old(db.t).nextUserId)
    ensures outcome.Registered? ==>
      outcome.user !in old(db.t).users && db.t == RegisteredTables(old(db.t), request.data, now)
    ensures !outcome.Registered? ==> unchanged(db)
  {
    if authenticated {
      return AlreadyLoggedIn;
    }
    if request.GetRequest? {
      return ShowForm;
    }
    var p := request.data;
    var failure := RegistrationFailure(db.t, p);
    if failure.Some? {
      return Refused(failure.value);
    }
    var created := db.CreateUser(p.fields.email, Student, false, false);
    if !created.Created? {
      // the domain suffix makes the e-mail non-empty, and it was found free above
      assert false;
      return ShowForm;
    }
    var id := created.id;
    var profile := StudentProfile(p.fields.fullName, p.fields.nim, [], Approved, Some(now));
    StudentAdded(db.t, id, profile);
    db.t := db.t.(students := db.t.students[id := profile]);
    outcome := Registered(id);
  }

  // ---- job_detail ----------------------------------------------------------------

  /** The application a valid post creates: the student's, for this posting, with status SENT. */
  function NewApplication(student: UserId, job: JobId, coverLetter: string): Application {
    Application(student, job, coverLetter, DEFAULT_APPLICATION_STATUS, [])
  }

  /**
   * `job_detail`: a non-student is sent home; an unknown posting is a 404; a
   * user without a student profile makes the view raise. A valid post from a
   * student who has not applied yet creates one SENT application; any other
   * request renders the page and changes nothing. The posting's status is
   * not checked.
   */
  method JobDetail(db: Database, actor: UserId, job: JobId, request: Submission<string>) returns (response: Response)
    requires db.Valid() && actor in db.t.users
    modifies db
    ensures db.Valid()
    ensures old(db.t).users[actor].role != Student ==> response == Redirect(Home)
    ensures old(db.t).users[actor].role == Student && job !in db.t.jobs ==> response == NotFound
    ensures old(db.t).users[actor].role == Student && job in db.t.jobs && actor !in db.t.students ==> response == ServerError
    ensures response == Redirect(StudentApplications) <==>
      old(db.t).users[actor].role == Student && job in old(db.t).jobs && actor in old(db.t).students
      && request.PostValid? && !HasApplied(old(db.t), actor, job)
    ensures response == Redirect(StudentApplications) ==>
      db.t == old(db.t).(applications := old(db.t).applications[old(db.t).nextApplicationId := NewApplication(actor, job, request.data)],
                         nextApplicationId := old(db.t).nextApplicationId + 1)
    ensures response != Redirect(StudentApplications) ==> unchanged(db)
    ensures old(db.t).users[actor].role == Student && job in old(db.t).jobs && actor in old(db.t).students ==>
      (response == Render <==> !request.PostValid? || HasApplied(old(db.t), actor, job))
  {
    if db.t.users[actor].role != Student {
      return Redirect(Home);
    }
    if job !in db.t.jobs {
      return NotFound;
    }
    if actor !in db.t.students {
      return ServerError;
    }
    if request.PostValid? && !HasApplied(db.t, actor, job) {
      var id := db.InsertApplication(NewApplication(actor, job, request.data));
      return Redirect(StudentApplications);
    }
    response := Render;
  }

  // ---- confirm_internship ---------------------------------------------------------

  /** Whether the student has a placement that is PENDING_CONFIRMATION or ACTIVE. */
  predicate HasOpenPlacement(t: Tables, student: UserId) {
    exists id :: id in t.placements && t.placements[id].student == student
                 && t.placements[id].status in {PendingConfirmation, PlacementStatus.Active}
  }

  /** The placement a valid confirmation creates: ACTIVE at once, confirmed at `now`, by nobody, without a supervisor. */
  function ConfirmedPlacement(student: UserId, details: PlacementDetails, now: DateTime): Placement {
    Placement(student, None, details, PlacementStatus.Active, None, Some(now))
  }

  /**
   * `confirm_internship`: a non-student is sent home, a user without a
   * profile makes the view raise, and a student who already has a pending or
   * active placement is sent to the dashboard. A valid post creates the
   * placement as ACTIVE and makes the student ACTIVE; the form's date fields
   * only ever yield real dates.
   */
  method ConfirmInternship(db: Database, actor: UserId, request: Submission<PlacementDetails>, now: DateTime)
    returns (response: Response)
    requires db.Valid() && actor in db.t.users && ValidDateTime(now)
    requires request.PostValid? ==> ValidDate(request.data.startDate) && ValidDate(request.data.endDate)
    modifies db
    ensures db.Valid()
    ensures old(db.t).users[actor].role != Student ==> response == Redirect(Home)
    ensures old(db.t).users[actor].role == Student && actor !in db.t.students ==> response == ServerError
    ensures old(db.t).users[actor].role == Student && actor in old(db.t).students && HasOpenPlacement(old(db.t), actor) ==>
      response == Redirect(StudentDashboard) && unchanged(db)
    ensures var confirmed := old(db.t).users[actor].role == Student && actor in old(db.t).students
                             && !HasOpenPlacement(old(db.t), actor) && request.PostValid?;
      (confirmed ==>
        response == Redirect(StudentDashboard)
        && db.t == old(db.t).(placements := old(db.t).placements[old(db.t).nextPlacementId := ConfirmedPlacement(actor, request.data, now)],
                              nextPlacementId := old(db.t).nextPlacementId + 1,
                              students := old(db.t).students[actor := old(db.t).students[actor].(status := StudentStatus.Active)]))
      && (!confirmed ==> unchanged(db))
    ensures old(db.t).users[actor].role == Student && actor in old(db.t).students && !HasOpenPlacement(old(db.t), actor) ==>
      (response == Render <==> !request.PostValid?)
  {
    if db.t.users[actor].role != Student {
      return Redirect(Home);
    }
    if actor !in db.t.students {
      return ServerError;
    }
    if HasOpenPlacement(db.t, actor) {
      return Redirect(StudentDashboard);
    }
    if !request.PostValid? {
      return Render;
    }
    var id := db.InsertPlacement(ConfirmedPlacement(actor, request.data, now));
    db.UpdateStudent(actor, db.t.students[actor].(status := StudentStatus.Active));
    response := Redirect(StudentDashboard);
  }
}

=== FILE: calendar.dfy ===
/**
 * Calendar dates and instants as Python's `datetime` module sees them.
 *
 * `Date` compares as the tuple (year, month, day), as `date.__lt__` does, and
 * `Ordinal` is `date.toordinal()`, so that `(b - a).days == Ordinal(b) - Ordinal(a)`.
 * A `DateTime` is a date and the microsecond of that day; the difference of two
 * instants in whole days is `timedelta.days`, which rounds towards minus infinity.
 */
module Calendar {

  datatype Date = Date(year: int, month: int, day: int)

  /** An instant: a calendar date and the microsecond within that day. */
  datatype DateTime = DateTime(date: Date, micros: int)

  const MICROS_PER_DAY: int := 86_400_000_000

  predicate IsLeap(year: int) {
    year % 4 == 0 && (year % 100 != 0 || year % 400 == 0)
  }

  function DaysInMonth(year: int, month: int): (n: int)
    requires 1 <= month <= 12
    ensures 28 <= n <= 31
    ensures n < 30 <==> month == 2
  {
    if month == 2 then (if IsLeap(year) then 29 else 28)
    else if month == 4 || month == 6 || month == 9 || month == 11 then 30
    else 31
  }

  /** The dates `datetime.date` can build: years 1..9999 and real days of the month. */
  predicate ValidDate(d: Date) {
    1 <= d.year <= 9999 && 1 <= d.month <= 12 && 1 <= d.day <= DaysInMonth(d.year, d.month)
  }

  predicate ValidDateTime(t: DateTime) {
    ValidDate(t.date) && 0 <= t.micros < MICROS_PER_DAY
  }

  /** `a < b` on dates: lexicographic on (year, month, day). */
  predicate Before(a: Date, b: Date) {
    a.year < b.year
    || (a.year == b.year && a.month < b.month)
    || (a.year == b.year && a.month == b.month && a.day < b.day)
  }

  /** Days in the years before `year` (Python's `_days_before_year`). */
  function DaysBeforeYear(year: int): int {
    var y := year - 1;
    y * 365 + y / 4 - y / 100 + y / 400
  }

  /** Days in the months of `year` before `month` (Python's `_days_before_month`). */
  function DaysBeforeMonth(year: int, month: int): int
    requires 1 <= month <= 12
  {
    var table := [0, 31, 59, 90, 120, 151, 181, 212, 243, 273, 304, 334];
    table[month - 1] + if month > 2 && IsLeap(year) then 1 else 0
  }

  /** `date.toordinal()`: 1 January of year 1 is day 1. */
  function Ordinal(d: Date): int
    requires 1 <= d.month <= 12
  {
    DaysBeforeYear(d.year) + DaysBeforeMonth(d.year, d.month) + d.day
  }

  /** `(b - a).days` for two dates. */
  function DaysBetween(a: Date, b: Date): int
    requires 1 <= a.month <= 12 && 1 <= b.month <= 12
  {
    Ordinal(b) - Ordinal(a)
  }

  /** Microseconds since the start of the proleptic Gregorian calendar. */
  function Micros(t: DateTime): int
    requires 1 <= t.date.month <= 12
  {
    Ordinal(t.date) * MICROS_PER_DAY + t.micros
  }

  /** `(later - earlier).days`: whole days elapsed, rounded down as `timedelta` does. */
  function WholeDaysBetween(earlier: DateTime, later: DateTime): (days: int)
    requires 1 <= earlier.date.month <= 12 && 1 <= later.date.month <= 12
    ensures days * MICROS_PER_DAY <= Micros(later) - Micros(earlier) < (days + 1) * MICROS_PER_DAY
  {
    (Micros(later) - Micros(earlier)) / MICROS_PER_DAY
  }

  /** Within one month, the ordinal advances exactly with the day. */
  lemma OrdinalWithinMonth(a: Date, b: Date)
    requires 1 <= a.month <= 12 && a.year == b.year && a.month == b.month
    ensures Ordinal(b) - Ordinal(a) == b.day - a.day
  {
  }

  /** The ordinal counts every day of a month before the next month begins. */
  lemma {:induction false} MonthAdvance(year: int, month: int)
    requires 1 <= month < 12
    ensures DaysBeforeMonth(year, month + 1) == DaysBeforeMonth(year, month) + DaysInMonth(year, month)
  {
  }

  /** A year contributes 365 or 366 days to the ordinal. */
  lemma YearAdvance(year: int)
    ensures DaysBeforeYear(year + 1) == DaysBeforeYear(year) + (if IsLeap(year) then 366 else 365)
  {
    var y := year - 1;
    Step4(y);
    Step100(y);
    Step400(y);
    DivisibilityChain(year);
  }

  /** Every multiple of 400 is one of 100, and every multiple of 100 one of 4. */
  lemma DivisibilityChain(year: int)
    ensures year % 400 == 0 ==> year % 100 == 0
    ensures year % 100 == 0 ==> year % 4 == 0
  {
    if year % 100 == 0 {
      var q := year / 100;
      assert year == 4 * (25 * q);
    }
    if year % 400 == 0 {
      var q := year / 400;
      assert year == 100 * (4 * q);
    }
  }

  /** Floor division by a constant steps up by one exactly at its multiples. */
  lemma Step4(x: int)
    ensures (x + 1) / 4 - x / 4 == if (x + 1) % 4 == 0 then 1 else 0
  {
  }

  lemma Step100(x: int)
    ensures (x + 1) / 100 - x / 100 == if (x + 1) % 100 == 0 then 1 else 0
  {
  }

  lemma Step400(x: int)
    ensures (x + 1) / 400 - x / 400 == if (x + 1) % 400 == 0 then 1 else 0
  {
  }

  /**
   * On real dates the ordinal orders dates exactly as the tuple comparison does,
   * so `(b - a).days > 0` and `a < b` agree.
   */
  lemma {:induction false} OrdinalOrdersDates(a: Date, b: Date)
    requires ValidDate(a) && ValidDate(b)
    ensures Before(a, b) <==> Ordinal(a) < Ordinal(b)
  {
    OrdinalBelowNextMonthStart(a);
    OrdinalBelowNextMonthStart(b);
    if a.year < b.year {
      YearStartsAfter(a.year, b.year);
    } else if b.year < a.year {
      YearStartsAfter(b.year, a.year);
    } else if a.month < b.month {
      MonthStartsAfter(a.year, a.month, b.month);
    } else if b.month < a.month {
      MonthStartsAfter(a.year, b.month, a.month);
    }
  }

  /** Every day of `d`'s year lies before the first day of the next year. */
  lemma OrdinalBelowNextMonthStart(d: Date)
    requires ValidDate(d)
    ensures Ordinal(d) <= DaysBeforeYear(d.year) + DaysBeforeMonth(d.year, d.month) + DaysInMonth(d.year, d.month)
    ensures DaysBeforeMonth(d.year, d.month) + DaysInMonth(d.year, d.month) <= DaysBeforeYear(d.year + 1) - DaysBeforeYear(d.year)
    ensures Ordinal(d) > DaysBeforeYear(d.year)
  {
    YearAdvance(d.year);
  }

  lemma {:induction false} YearStartsAfter(y1: int, y2: int)
    requires y1 < y2
    ensures DaysBeforeYear(y1 + 1) <= DaysBeforeYear(y2)
    decreases y2 - y1
  {
    if y1 + 1 < y2 {
      YearStartsAfter(y1 + 1, y2);
      YearAdvance(y1 + 1);
    }
  }

  lemma {:induction false} MonthStartsAfter(year: int, m1: int, m2: int)
    requires 1 <= m1 < m2 <= 12
    ensures DaysBeforeMonth(year, m1) + DaysInMonth(year, m1) <= DaysBeforeMonth(year, m2)
    decreases m2 - m1
  {
    MonthAdvance(year, m1);
    if m1 + 1 < m2 {
      MonthStartsAfter(year, m1 + 1, m2);
    }
  }
}

=== FILE: evaluations_admin.dfy ===
/**
 * The evaluation admin (evaluations/admin.py): the status badge and
 * time-remaining columns, and the three bulk actions `calculate_ratings`,
 * `mark_submitted` and `send_reminder`.
 */
module EvaluationsAdmin {
  import opened Wrappers
  import opened Calendar
  import opened Text
  import opened AccountsModels
  import opened EvaluationsModels
  import opened NotificationsModels
  import opened Portal
  import opened Selections

  // ---- list columns ------------------------------------------------------------------

  /** The badge colour of each status (the `colors` table; its 'gray' fallback matches no status). */
  function BadgeColour(s: EvaluationStatus): string {
    match s
    case Pending => "orange"
    case Draft => "blue"
    case Submitted => "green"
  }

  /** Every status has a colour of its own, so the badge tells the status apart. */
  lemma BadgeColoursDistinct(a: EvaluationStatus, b: EvaluationStatus)
    ensures BadgeColour(a) == BadgeColour(b) <==> a == b
  {
  }

  /** The cases of the time-remaining column. */
  datatype TimeRemaining =
    | Completed
    | Overdue(daysLate: nat)
    | DueToday
    | Urgent(daysLeft: nat)
    | Upcoming(daysLeft: nat)

  /**
   * `days_remaining`: a submitted evaluation is complete; otherwise the days
   * from `today` to the deadline decide: past, today, within three days, later.
   */
  function DaysRemaining(e: Evaluation, today: Date): TimeRemaining
    requires 1 <= e.deadline.month <= 12 && 1 <= today.month <= 12
  {
    if e.status == Submitted then TimeRemaining.Completed
    else
      var delta := DaysBetween(today, e.deadline);
      if delta < 0 then Overdue(-delta)
      else if delta == 0 then DueToday
      else if delta <= 3 then Urgent(delta)
      else Upcoming(delta)
  }

  /**
   * On real dates the column follows the calendar: an open evaluation is
   * overdue exactly when its deadline is before today, due today exactly when
   * the deadline is today, and otherwise counts the days left, urgent up to 3.
   */
  lemma DaysRemainingSpec(e: Evaluation, today: Date)
    requires ValidDate(e.deadline) && ValidDate(today)
    ensures DaysRemaining(e, today).Completed? <==> e.status == Submitted
    ensures DaysRemaining(e, today).Overdue? <==> e.status != Submitted && Before(e.deadline, today)
    ensures DaysRemaining(e, today).Overdue? ==> DaysRemaining(e, today).daysLate == DaysBetween(e.deadline, today) > 0
    ensures DaysRemaining(e, today).DueToday? <==> e.status != Submitted && e.deadline == today
    ensures DaysRemaining(e, today).Urgent? <==>
      e.status != Submitted && Before(today, e.deadline) && DaysBetween(today, e.deadline) <= 3
    ensures DaysRemaining(e, today).Upcoming? <==>
      e.status != Submitted && DaysBetween(today, e.deadline) > 3
    ensures DaysRemaining(e, today).Urgent? || DaysRemaining(e, today).Upcoming? ==>
      DaysRemaining(e, today).daysLeft == DaysBetween(today, e.deadline) > 0
  {
    OrdinalOrdersDates(e.deadline, today);
    OrdinalOrdersDates(today, e.deadline);
  }

  // ---- calculate_ratings -------------------------------------------------------------

  /** The evaluations after `calculate_overall_rating` ran on each of `rows` in turn. */
  function RecalcRows(evaluations: map<EvaluationId, Evaluation>, rows: seq<EvaluationId>)
    : (r: map<EvaluationId, Evaluation>)
    requires forall id :: id in rows ==> id in evaluations
    ensures r.Keys == evaluations.Keys
    decreases |rows|
  {
    if rows == [] then evaluations
    else
      var last := rows[|rows| - 1];
      assert forall id :: id in rows[..|rows| - 1] ==> id in rows;
      var before := RecalcRows(evaluations, rows[..|rows| - 1]);
      before[last := Recalculated(before[last])]
  }

  /**
   * What the loop leaves: each selected evaluation with a non-null rating has
   * the mean of its ratings as overall rating, the rest of it kept (a row met
   * twice is recalculated to the same value); one whose ratings are all null,
   * and every unselected one, is left as it is.
   */
  lemma {:induction false} RecalcRowsSpec(evaluations: map<EvaluationId, Evaluation>, rows: seq<EvaluationId>)
    requires forall id :: id in rows ==> id in evaluations
    ensures forall id :: id in evaluations && id in rows ==>
      RecalcRows(evaluations, rows)[id] == Recalculated(evaluations[id])
    ensures forall id :: id in evaluations && id !in rows ==>
      RecalcRows(evaluations, rows)[id] == evaluations[id]
    decreases |rows|
  {
    if rows != [] {
      var init := rows[..|rows| - 1];
      var last := rows[|rows| - 1];
      assert rows == init + [last];
      assert forall id :: id in init ==> id in rows;
      RecalcRowsSpec(evaluations, init);
      RecalculatedIdempotent(evaluations[last]);
      forall id | id in evaluations
        ensures RecalcRows(evaluations, rows)[id]
          == (if id in rows then Recalculated(evaluations[id]) else evaluations[id])
      {
        if id != last {
          assert id in rows <==> id in init;
        }
      }
    }
  }

  /** The loop step: recalculating row i after the first i rows. */
  lemma RecalcRowsStep(evaluations: map<EvaluationId, Evaluation>, rows: seq<EvaluationId>, i: nat)
    requires i < |rows| && forall id :: id in rows ==> id in evaluations
    ensures forall id :: id in rows[..i] ==> id in evaluations
    ensures rows[i] in RecalcRows(evaluations, rows[..i])
    ensures RecalcRows(evaluations, rows[..i + 1])
      == RecalcRows(evaluations, rows[..i])[rows[i] := Recalculated(RecalcRows(evaluations, rows[..i])[rows[i]])]
  {
    assert rows[..i + 1][..i] == rows[..i];
  }

  /** In terms of the ratings: the mean where one is non-null, the old overall rating otherwise. */
  lemma RecalcRowsRatings(evaluations: map<EvaluationId, Evaluation>, rows: seq<EvaluationId>, id: EvaluationId)
    requires forall x :: x in rows ==> x in evaluations
    requires id in rows
    ensures RecalcRows(evaluations, rows)[id]
      == evaluations[id].(overallRating := if AllNull(evaluations[id].assessment.ratings)
                                           then evaluations[id].overallRating
                                           else Mean(evaluations[id].assessment.ratings))
  {
    RecalcRowsSpec(evaluations, rows);
  }

  /**
   * `calculate_ratings`: every selected evaluation is recalculated and saved
   * in turn; the count is the number of rows in the selection.
   */
  method CalculateRatings(db: Database, selection: seq<EvaluationId>) returns (updated: nat)
    requires db.Valid() && forall id :: id in selection ==> id in db.t.evaluations
    requires Distinct(selection)
    modifies db
    ensures db.Valid()
    ensures updated == |selection|
    ensures db.t == old(db.t).(evaluations := RecalcRows(old(db.t).evaluations, selection))
  {
    ghost var t0 := db.t;
    updated := 0;
    var i := 0;
    while i < |selection|
      invariant 0 <= i <= |selection| && updated == i
      invariant db.Valid()
      invariant db.t == t0.(evaluations := RecalcRows(t0.evaluations, selection[..i]))
    {
      RecalcRowsStep(t0.evaluations, selection, i);
      var _ := db.CalculateOverallRating(selection[i]);
      updated := updated + 1;
      i := i + 1;
    }
    assert selection[..i] == selection;
  }

  // ---- mark_submitted ----------------------------------------------------------------

  /** The selected ids whose evaluation is a DRAFT (`queryset.filter(status='DRAFT')`). */
  function DraftIn(evaluations: map<EvaluationId, Evaluation>): EvaluationId -> bool {
    id => id in evaluations && evaluations[id].status == Draft
  }

  /** The evaluations after `filter(status='DRAFT').update(status='SUBMITTED', submitted_at=now)`. */
  function DraftsSubmitted(evaluations: map<EvaluationId, Evaluation>, selection: seq<EvaluationId>, now: DateTime)
    : map<EvaluationId, Evaluation>
  {
    map id | id in evaluations ::
      if id in selection && evaluations[id].status == Draft
      then evaluations[id].(status := Submitted, submittedAt := Some(now))
      else evaluations[id]
  }

  /**
   * Exactly the selected drafts become SUBMITTED at `now`, their ratings and
   * overall rating untouched (no recalculation happens); selected PENDING
   * evaluations stay pending, and nothing else changes.
   */
  lemma DraftsSubmittedSpec(evaluations: map<EvaluationId, Evaluation>, selection: seq<EvaluationId>, now: DateTime)
    ensures DraftsSubmitted(evaluations, selection, now).Keys == evaluations.Keys
    ensures forall id :: id in evaluations && id in selection && evaluations[id].status == Draft ==>
      DraftsSubmitted(evaluations, selection, now)[id] == evaluations[id].(status := Submitted, submittedAt := Some(now))
      && DraftsSubmitted(evaluations, selection, now)[id].status == Submitted
      && DraftsSubmitted(evaluations, selection, now)[id].submittedAt == Some(now)
      && DraftsSubmitted(evaluations, selection, now)[id].assessment == evaluations[id].assessment
      && DraftsSubmitted(evaluations, selection, now)[id].overallRating == evaluations[id].overallRating
    ensures forall id :: id in evaluations && !(id in selection && evaluations[id].status == Draft) ==>
      DraftsSubmitted(evaluations, selection, now)[id] == evaluations[id]
  {
  }

  /** `mark_submitted`: one bulk update; the count is the number of selected drafts. */
  method MarkSubmitted(db: Database, selection: seq<EvaluationId>, now: DateTime) returns (updated: nat)
    requires db.Valid() && ValidDateTime(now) && forall id :: id in selection ==> id in db.t.evaluations
    requires Distinct(selection)
    modifies db
    ensures db.Valid()
    ensures updated == |Filter(selection, DraftIn(old(db.t).evaluations))|
    ensures db.t == old(db.t).(evaluations := DraftsSubmitted(old(db.t).evaluations, selection, now))
  {
    updated := |Filter(selection, DraftIn(db.t.evaluations))|;
    db.ReplaceEvaluations(DraftsSubmitted(db.t.evaluations, selection, now));
  }

  // ---- send_reminder -----------------------------------------------------------------

  /** The selected ids whose evaluation is still open (`filter(status__in=['PENDING', 'DRAFT'])`). */
  function OpenIn(evaluations: map<EvaluationId, Evaluation>): EvaluationId -> bool {
    id => id in evaluations && evaluations[id].status != Submitted
  }

  const MONTH_NAMES: seq<string> := [
    "January", "February", "March", "April", "May", "June",
    "July", "August", "September", "October", "November", "December"]

  /** `date.strftime("%d %B %Y")`: zero-padded day, full English month name, year. */
  function FormatDate(d: Date): string
    requires ValidDate(d)
  {
    [DigitChar(d.day / 10), DigitChar(d.day % 10)] + " " + MONTH_NAMES[d.month - 1] + " " + DecimalString(d.year)
  }

  /** The title of a reminder: the evaluation's type, spelt out. */
  function ReminderTitle(kind: EvaluationType): string {
    "Reminder: Evaluasi " + TypeDisplay(kind)
  }

  /** The message of a reminder: the student's full name and the deadline. */
  function ReminderMessage(studentName: string, deadline: Date): string
    requires ValidDate(deadline)
  {
    "Anda memiliki evaluasi yang perlu diselesaikan untuk mahasiswa " + studentName
      + ". Deadline: " + FormatDate(deadline)
  }

  /** The link of a reminder: the supervisor's page for the evaluation. */
  function ReminderLink(id: EvaluationId): string {
    "/supervisor/evaluations/" + DecimalString(id) + "/"
  }

  /** Reminders about different evaluations link to different pages. */
  lemma ReminderLinksDistinct(a: EvaluationId, b: EvaluationId)
    ensures ReminderLink(a) == ReminderLink(b) <==> a == b
  {
    if ReminderLink(a) == ReminderLink(b) {
      var prefix := "/supervisor/evaluations/";
      assert DecimalString(a) == ReminderLink(a)[|prefix|..|ReminderLink(a)| - 1];
      assert DecimalString(b) == ReminderLink(b)[|prefix|..|ReminderLink(b)| - 1];
      DecimalInjective(a, b);
    }
  }

  /** The rows a reminder reads exist: the evaluation, its placement and its student; the deadline is a real date. */
  predicate Remindable(t: Tables, id: EvaluationId) {
    id in t.evaluations && t.evaluations[id].placement in t.placements
    && t.placements[t.evaluations[id].placement].student in t.students
    && ValidDate(t.evaluations[id].deadline)
  }

  /** In a consistent database every stored evaluation can be reminded of. */
  lemma StoredRemindable(t: Tables, ids: seq<EvaluationId>)
    requires TablesOk(t) && forall id :: id in ids ==> id in t.evaluations
    ensures forall id :: id in ids ==> Remindable(t, id)
  {
    forall id | id in ids
      ensures Remindable(t, id)
    {
      assert EvaluationOk(t.evaluations[id], t.placements, t.supervisors);
      assert PlacementOk(t.placements[t.evaluations[id].placement], t.students, t.supervisors);
    }
  }

  /** The notification `send_reminder` sends about evaluation `id`. */
  function Reminder(t: Tables, id: EvaluationId): Notification
    requires Remindable(t, id)
  {
    var e := t.evaluations[id];
    var student := t.students[t.placements[e.placement].student];
    NewNotification(e.supervisor, ReminderTitle(e.kind), ReminderMessage(student.fullName, e.deadline),
                    Warning, NotificationCategory.Evaluation, ReminderLink(id))
  }

  /**
   * A reminder goes, unread, to the evaluation's supervisor as an EVALUATION
   * warning, names the evaluation's type and links to its page.
   */
  lemma ReminderSpec(t: Tables, id: EvaluationId)
    requires Remindable(t, id)
    ensures Reminder(t, id).recipient == t.evaluations[id].supervisor
    ensures !Reminder(t, id).isRead && Reminder(t, id).readAt.None?
    ensures Reminder(t, id).kind == Warning && Reminder(t, id).category == NotificationCategory.Evaluation
    ensures Reminder(t, id).title == "Reminder: Evaluasi " + TypeDisplay(t.evaluations[id].kind)
    ensures Reminder(t, id).message == ReminderMessage(
      t.students[t.placements[t.evaluations[id].placement].student].fullName, t.evaluations[id].deadline)
    ensures Reminder(t, id).link == ReminderLink(id)
  {
  }

  /** The reminders about `rows`, in order. */
  function Reminders(t: Tables, rows: seq<EvaluationId>): (sent: seq<Notification>)
    requires forall id :: id in rows ==> Remindable(t, id)
    ensures |sent| == |rows|
    decreases |rows|
  {
    if rows == [] then []
    else
      assert forall id :: id in rows[..|rows| - 1] ==> id in rows;
      Reminders(t, rows[..|rows| - 1]) + [Reminder(t, rows[|rows| - 1])]
  }

  /** Reminder k is the one about row k. */
  lemma {:induction false} RemindersAt(t: Tables, rows: seq<EvaluationId>, k: nat)
    requires forall id :: id in rows ==> Remindable(t, id)
    requires k < |rows|
    ensures Reminders(t, rows)[k] == Reminder(t, rows[k])
    decreases |rows|
  {
    if k < |rows| - 1 {
      assert forall id :: id in rows[..|rows| - 1] ==> id in rows;
      RemindersAt(t, rows[..|rows| - 1], k);
    }
  }

  /** A reminder reads only the evaluations, placements and students. */
  lemma ReminderReadsRows(t: Tables, u: Tables, id: EvaluationId)
    requires Remindable(t, id)
    requires u.evaluations == t.evaluations && u.placements == t.placements && u.students == t.students
    ensures Remindable(u, id) && Reminder(u, id) == Reminder(t, id)
  {
  }

  /**
   * `send_reminder`: one reminder per selected evaluation still PENDING or
   * DRAFT, appended in selection order; submitted ones get none. The count is
   * the number of reminders sent.
   */
  method SendReminder(db: Database, selection: seq<EvaluationId>) returns (count: nat)
    requires db.Valid() && forall id :: id in selection ==> id in db.t.evaluations
    requires Distinct(selection)
    modifies db
    ensures db.Valid()
    ensures forall id :: id in Filter(selection, OpenIn(old(db.t).evaluations)) ==> Remindable(old(db.t), id)
    ensures count == |Filter(selection, OpenIn(old(db.t).evaluations))|
    ensures db.t == old(db.t).(notifications := old(db.t).notifications
                                 + Reminders(old(db.t), Filter(selection, OpenIn(old(db.t).evaluations))))
  {
    var rows := Filter(selection, OpenIn(db.t.evaluations));
    StoredRemindable(db.t, rows);
    count := RemindAll(db, rows);
  }

  /** The `for` loop of `send_reminder` over the open evaluations, counting them. */
  method RemindAll(db: Database, rows: seq<EvaluationId>) returns (count: nat)
    requires db.Valid() && forall id :: id in rows ==> Remindable(db.t, id)
    modifies db
    ensures db.Valid()
    ensures count == |rows|
    ensures db.t == old(db.t).(notifications := old(db.t).notifications + Reminders(old(db.t), rows))
  {
    ghost var t0 := db.t;
    count := 0;
    var i := 0;
    while i < |rows|
      invariant 0 <= i <= |rows| && count == i
      invariant db.Valid()
      invariant db.t == t0.(notifications := t0.notifications + Reminders(t0, rows[..i]))
    {
      RemindersStep(t0, db.t, rows, i);
      RemindOne(db, rows[i]);
      count := count + 1;
      i := i + 1;
    }
    assert rows[..i] == rows;
  }

  /** One iteration: `Notification.send_to_user` with the fields of the reminder about `id`. */
  method RemindOne(db: Database, id: EvaluationId)
    requires db.Valid() && Remindable(db.t, id)
    modifies db
    ensures db.Valid()
    ensures db.t == old(db.t).(notifications := old(db.t).notifications + [Reminder(old(db.t), id)])
  {
    var n := Reminder(db.t, id);
    var _ := db.SendToUser(n.recipient, n.title, n.message, n.kind, n.category, n.link);
  }

  /**
   * The loop step: the reminder sent from any state with the same
   * evaluations, placements and students extends the reminders by row i.
   */
  lemma RemindersStep(t0: Tables, u: Tables, rows: seq<EvaluationId>, i: nat)
    requires i < |rows| && forall id :: id in rows ==> Remindable(t0, id)
    requires u.evaluations == t0.evaluations && u.placements == t0.placements && u.students == t0.students
    ensures Remindable(u, rows[i])
    ensures t0.notifications + Reminders(t0, rows[..i]) + [Reminder(u, rows[i])]
      == t0.notifications + Reminders(t0, rows[..i + 1])
  {
    assert rows[..i + 1][..i] == rows[..i] && rows[..i + 1][i] == rows[i];
    ReminderReadsRows(t0, u, rows[i]);
  }

  /** Reminder k concerns a selected evaluation that is still PENDING or DRAFT. */
  lemma RemindersOnlyOpen(t: Tables, selection: seq<EvaluationId>, k: nat)
    requires forall id :: id in selection ==> Remindable(t, id)
    requires k < |Filter(selection, OpenIn(t.evaluations))|
    ensures Filter(selection, OpenIn(t.evaluations))[k] in selection
    ensures t.evaluations[Filter(selection, OpenIn(t.evaluations))[k]].status != Submitted
  {
    var rows := Filter(selection, OpenIn(t.evaluations));
    assert rows[k] in rows;
    assert OpenIn(t.evaluations)(rows[k]);
  }

  /** Every selected evaluation still open gets a reminder linking to its page. */
  lemma RemindersCoverOpen(t: Tables, selection: seq<EvaluationId>, id: EvaluationId)
    requires forall x :: x in selection ==> Remindable(t, x)
    requires id in selection && id in t.evaluations
    requires t.evaluations[id].status != Submitted
    ensures exists k :: 0 <= k < |Filter(selection, OpenIn(t.evaluations))|
                        && Reminders(t, Filter(selection, OpenIn(t.evaluations)))[k] == Reminder(t, id)
  {
    var rows := Filter(selection, OpenIn(t.evaluations));
    assert OpenIn(t.evaluations)(id);
    assert id in rows;
    var k :| 0 <= k < |rows| && rows[k] == id;
    RemindersAt(t, rows, k);
  }
}

=== FILE: evaluations_forms.dfy ===
/**
 * The supervisor's evaluation form (evaluations/forms.py): the fields it
 * edits, the choices of its rating widgets, its cleaning, and `save`, which
 * always recomputes the overall rating.
 */
module EvaluationsForms {
  import opened Wrappers
  import opened Text
  import opened EvaluationsModels
  import opened Portal

  /** `Meta.fields`: the 23 ratings, the four descriptions and the two final flags. */
  const EVALUATION_FORM_FIELDS: seq<string> := [
    "accuracy", "neatness", "task_completion", "creativity",
    "work_quantity", "work_speed", "consistency",
    "task_understanding", "technical_skills", "theory_application", "learning_willingness",
    "punctuality", "rule_compliance", "responsibility",
    "teamwork", "discussion_contribution", "respect_opinions",
    "verbal_communication", "written_communication", "presentation_skills",
    "appearance", "ethics", "accept_criticism",
    "achievements_description", "strengths", "improvements_needed", "career_recommendation",
    "pass_recommendation", "rehire_willingness"]

  /**
   * The form's rating fields are exactly the 23 criteria the overall rating
   * aggregates, in the same order, followed by the six other fields.
   */
  lemma FormFieldsSpec()
    ensures |EVALUATION_FORM_FIELDS| == 29
    ensures EVALUATION_FORM_FIELDS[..23] == CRITERIA
  {
    assert forall k :: 0 <= k < 23 ==> EVALUATION_FORM_FIELDS[k] == CRITERIA[k];
  }

  /**
   * The overall rating, the status, the submission time and the deadline are
   * not fields of the form, so a post cannot set them.
   */
  lemma FormExcludesComputedFields()
    ensures "overall_rating" !in EVALUATION_FORM_FIELDS
    ensures "status" !in EVALUATION_FORM_FIELDS
    ensures "submitted_at" !in EVALUATION_FORM_FIELDS
    ensures "deadline" !in EVALUATION_FORM_FIELDS
  {
    forall k | 0 <= k < |EVALUATION_FORM_FIELDS|
      ensures EVALUATION_FORM_FIELDS[k][0] != 'o'
      ensures EVALUATION_FORM_FIELDS[k][0] == 's' ==> |EVALUATION_FORM_FIELDS[k]| == 9
      ensures EVALUATION_FORM_FIELDS[k][0] == 'd' ==> |EVALUATION_FORM_FIELDS[k]| == 23
    {
    }
  }

  /** The choices of every rating widget: `[(i, str(i)) for i in range(1, 6)]`. */
  function RatingChoices(): (choices: seq<(int, string)>)
    ensures |choices| == 5
  {
    seq(5, k requires 0 <= k < 5 => (k + 1, DecimalString(k + 1)))
  }

  /**
   * The widget offers exactly the values the rating validators accept, 1 to
   * 5, each labelled with its own numeral.
   */
  lemma RatingChoicesSpec()
    ensures forall v: int :: RatingInRange(Some(v)) <==> exists k :: 0 <= k < 5 && RatingChoices()[k].0 == v
    ensures forall k :: 0 <= k < 5 ==>
      1 <= RatingChoices()[k].0 <= 5 && DecimalValue(RatingChoices()[k].1) == RatingChoices()[k].0
  {
    forall v: int | RatingInRange(Some(v))
      ensures exists k :: 0 <= k < 5 && RatingChoices()[k].0 == v
    {
      assert RatingChoices()[v - 1].0 == v;
    }
    forall k | 0 <= k < 5
      ensures DecimalValue(RatingChoices()[k].1) == RatingChoices()[k].0
    {
      DecimalRoundTrip(k + 1);
    }
  }

  /**
   * The four optional descriptions pass their form `CharField`s: each is
   * stripped, may be empty (the model fields are `blank=True`) and must not
   * hold a NUL character.
   */
  predicate DescriptionsAccepted(raw: Assessment) {
    '\0' !in Strip(raw.achievementsDescription) && '\0' !in Strip(raw.strengths)
    && '\0' !in Strip(raw.improvementsNeeded) && '\0' !in Strip(raw.careerRecommendation)
  }

  /**
   * `is_valid()` and `cleaned_data`: every rating is empty or within 1..5
   * (the model's validators), the descriptions are stripped (text fields
   * strip by default) and hold no NUL character, and the check boxes are
   * taken as ticked or not.
   */
  function CleanEvaluationForm(raw: Assessment): (cleaned: Option<Assessment>)
    requires |raw.ratings| == |CRITERIA|
  {
    if RatingsInRange(raw.ratings) && DescriptionsAccepted(raw)
    then Some(raw.(achievementsDescription := Strip(raw.achievementsDescription),
                   strengths := Strip(raw.strengths),
                   improvementsNeeded := Strip(raw.improvementsNeeded),
                   careerRecommendation := Strip(raw.careerRecommendation)))
    else None
  }

  /**
   * A post is accepted iff no rating lies outside 1..5 and no description
   * holds a NUL character; what is accepted keeps the ratings and the flags
   * and has the four descriptions stripped.
   */
  lemma CleanEvaluationFormSpec(raw: Assessment)
    requires |raw.ratings| == |CRITERIA|
    ensures CleanEvaluationForm(raw).Some? <==>
      (forall i :: 0 <= i < 23 ==> raw.ratings[i].None? || 1 <= raw.ratings[i].value <= 5)
      && '\0' !in raw.achievementsDescription && '\0' !in raw.strengths
      && '\0' !in raw.improvementsNeeded && '\0' !in raw.careerRecommendation
    ensures CleanEvaluationForm(raw).Some? ==>
      var c := CleanEvaluationForm(raw).value;
      c.ratings == raw.ratings
      && c.passRecommendation == raw.passRecommendation && c.rehireWillingness == raw.rehireWillingness
      && c.achievementsDescription == Strip(raw.achievementsDescription) && IsStripped(c.achievementsDescription)
      && c.strengths == Strip(raw.strengths) && IsStripped(c.strengths)
      && c.improvementsNeeded == Strip(raw.improvementsNeeded) && IsStripped(c.improvementsNeeded)
      && c.careerRecommendation == Strip(raw.careerRecommendation) && IsStripped(c.careerRecommendation)
  {
    StripResult(raw.achievementsDescription);
    StripResult(raw.strengths);
    StripResult(raw.improvementsNeeded);
    StripResult(raw.careerRecommendation);
    StripKeepsNonSpace(raw.achievementsDescription, '\0');
    StripKeepsNonSpace(raw.strengths, '\0');
    StripKeepsNonSpace(raw.improvementsNeeded, '\0');
    StripKeepsNonSpace(raw.careerRecommendation, '\0');
  }

  /** Cleaning the cleaned data again accepts it unchanged. */
  lemma CleanedEvaluationRevalidates(raw: Assessment)
    requires |raw.ratings| == |CRITERIA| && CleanEvaluationForm(raw).Some?
    ensures CleanEvaluationForm(CleanEvaluationForm(raw).value) == CleanEvaluationForm(raw)
  {
    CleanEvaluationFormSpec(raw);
    var c := CleanEvaluationForm(raw).value;
    StripResult(c.achievementsDescription);
    StripResult(c.strengths);
    StripResult(c.improvementsNeeded);
    StripResult(c.careerRecommendation);
  }

  /** The instance `save` builds: the cleaned fields on the evaluation, then `calculate_overall_rating`. */
  function FormSaved(e: Evaluation, cleaned: Assessment): Evaluation {
    Recalculated(e.(assessment := cleaned))
  }

  /**
   * A save takes the posted assessment and recomputes the overall rating
   * from it: the mean of the posted ratings, or the previous overall rating
   * when none is set. Status, deadline, submission time and identity are
   * the evaluation's own.
   */
  lemma FormSavedSpec(e: Evaluation, cleaned: Assessment)
    ensures FormSaved(e, cleaned).assessment == cleaned
    ensures FormSaved(e, cleaned).overallRating ==
      (if AllNull(cleaned.ratings) then e.overallRating else Mean(cleaned.ratings))
    ensures FormSaved(e, cleaned) == e.(assessment := cleaned, overallRating := FormSaved(e, cleaned).overallRating)
  {
  }

  /** Saving the same post twice gives the same evaluation as saving it once. */
  lemma FormSavedIdempotent(e: Evaluation, cleaned: Assessment)
    ensures FormSaved(FormSaved(e, cleaned), cleaned) == FormSaved(e, cleaned)
  {
  }

  /**
   * `EvaluationForm.save(commit)` on stored evaluation `id` with a post that
   * validated: it returns the evaluation with the cleaned fields and the
   * overall rating recomputed. `calculate_overall_rating` saves the row
   * itself whenever some rating is set, so even `commit=False` persists it
   * then; with every rating empty only `commit=True` writes it.
   */
  method SaveEvaluationForm(db: Database, id: EvaluationId, raw: Assessment, commit: bool) returns (saved: Evaluation)
    requires db.Valid() && id in db.t.evaluations
    requires |raw.ratings| == |CRITERIA| && CleanEvaluationForm(raw).Some?
    modifies db
    ensures db.Valid()
    ensures saved == FormSaved(old(db.t).evaluations[id], CleanEvaluationForm(raw).value)
    ensures db.t == old(db.t).(evaluations :=
      if commit || !AllNull(raw.ratings) then old(db.t).evaluations[id := saved] else old(db.t).evaluations)
  {
    var cleaned := CleanEvaluationForm(raw).value;
    var instance := db.t.evaluations[id].(assessment := cleaned);
    saved := instance;
    match Mean(cleaned.ratings)
    case Some(m) =>
      saved := instance.(overallRating := Some(m));
      db.UpdateEvaluation(id, saved);
    case None =>
    if commit {
      db.UpdateEvaluation(id, saved);
    }
  }
}

=== FILE: evaluations_models.dfy ===
/**
 * Supervisor evaluations (evaluations/models.py): the 23 nullable ratings,
 * their overall mean and pass threshold, and the seven category averages.
 */
module EvaluationsModels {
  import opened Wrappers
  import opened Calendar
  import opened AccountsModels
  import opened InternshipsModels

  type EvaluationId = nat

  datatype EvaluationType = Uts | Uas

  /** The human-readable label of an evaluation type (its `choices` display value). */
  function TypeDisplay(t: EvaluationType): string {
    match t
    case Uts => "Ujian Tengah Semester"
    case Uas => "Ujian Akhir Semester"
  }

  datatype EvaluationStatus = Pending | Draft | Submitted

  const DEFAULT_EVALUATION_STATUS: EvaluationStatus := Pending

  /** The rating fields, in the order `calculate_overall_rating` lists them. */
  const CRITERIA: seq<string> := [
    "accuracy", "neatness", "task_completion", "creativity",
    "work_quantity", "work_speed", "consistency",
    "task_understanding", "technical_skills", "theory_application", "learning_willingness",
    "punctuality", "rule_compliance", "responsibility",
    "teamwork", "discussion_contribution", "respect_opinions",
    "verbal_communication", "written_communication", "presentation_skills",
    "appearance", "ethics", "accept_criticism"]

  /** The categories of `get_category_averages`, with their rating fields, in insertion order. */
  const CATEGORIES: seq<(string, seq<string>)> := [
    ("Kualitas Kerja", ["accuracy", "neatness", "task_completion", "creativity"]),
    ("Produktivitas", ["work_quantity", "work_speed", "consistency"]),
    ("Pengetahuan", ["task_understanding", "technical_skills", "theory_application", "learning_willingness"]),
    ("Kedisiplinan", ["punctuality", "rule_compliance", "responsibility"]),
    ("Kerjasama", ["teamwork", "discussion_contribution", "respect_opinions"]),
    ("Komunikasi", ["verbal_communication", "written_communication", "presentation_skills"]),
    ("Sikap Profesional", ["appearance", "ethics", "accept_criticism"])]

  /** Category k covers the ratings at indexes [CATEGORY_BOUNDS[k], CATEGORY_BOUNDS[k+1]). */
  const CATEGORY_BOUNDS: seq<nat> := [0, 4, 7, 11, 14, 17, 20, 23]

  /**
   * The seven category lists are exactly consecutive slices of the 23
   * criteria, in order, so that every criterion lies in exactly one category.
   */
  lemma CategoriesPartitionCriteria()
    ensures |CRITERIA| == 23 && |CATEGORIES| == 7 && |CATEGORY_BOUNDS| == 8
    ensures CATEGORY_BOUNDS[0] == 0 && CATEGORY_BOUNDS[7] == |CRITERIA|
    ensures forall k :: 0 <= k < 7 ==> CATEGORY_BOUNDS[k] < CATEGORY_BOUNDS[k + 1]
    ensures forall k :: 0 <= k < 7 ==>
      CRITERIA[CATEGORY_BOUNDS[k]..CATEGORY_BOUNDS[k + 1]] == CATEGORIES[k].1
  {
    forall k | 0 <= k < 7
      ensures CRITERIA[CATEGORY_BOUNDS[k]..CATEGORY_BOUNDS[k + 1]] == CATEGORIES[k].1
    {
      var slice := CRITERIA[CATEGORY_BOUNDS[k]..CATEGORY_BOUNDS[k + 1]];
      assert |slice| == |CATEGORIES[k].1|;
      assert forall i :: 0 <= i < |slice| ==> slice[i] == CATEGORIES[k].1[i];
    }
  }

  /** The category holding the rating at index i. */
  function CategoryOf(i: nat): (k: nat)
    requires i < 23
    ensures k < 7 && CATEGORY_BOUNDS[k] <= i < CATEGORY_BOUNDS[k + 1]
  {
    if i < 4 then 0 else if i < 7 then 1 else if i < 11 then 2 else if i < 14 then 3
    else if i < 17 then 4 else if i < 20 then 5 else 6
  }

  /** No rating index lies in two categories. */
  lemma CategoryOfUnique(i: nat, k: nat)
    requires i < 23 && k < 7 && CATEGORY_BOUNDS[k] <= i < CATEGORY_BOUNDS[k + 1]
    ensures k == CategoryOf(i)
  {
  }

  /** A rating field's validators: null, or an integer from 1 to 5. */
  predicate RatingInRange(r: Option<int>) {
    r.None? || 1 <= r.value <= 5
  }

  predicate RatingsInRange(rs: seq<Option<int>>) {
    forall i :: 0 <= i < |rs| ==> RatingInRange(rs[i])
  }

  predicate AllNull(rs: seq<Option<int>>) {
    forall i :: 0 <= i < |rs| ==> rs[i].None?
  }

  /** `sum(valid_scores)`: the sum of the non-null ratings. */
  function SumPresent(rs: seq<Option<int>>): (s: int)
    ensures AllNull(rs) ==> s == 0
  {
    if rs == [] then 0
    else
      assert forall i :: 0 <= i < |rs[1..]| ==> rs[1..][i] == rs[i + 1];
      rs[0].GetOr(0) + SumPresent(rs[1..])
  }

  /** `len(valid_scores)`: the number of non-null ratings. */
  function CountPresent(rs: seq<Option<int>>): (n: nat)
    ensures n <= |rs|
    ensures n == 0 <==> AllNull(rs)
  {
    if rs == [] then 0
    else
      assert forall i :: 1 <= i < |rs| ==> rs[i] == rs[1..][i - 1];
      (if rs[0].Some? then 1 else 0) + CountPresent(rs[1..])
  }

  lemma {:induction false} PresentOfConcat(a: seq<Option<int>>, b: seq<Option<int>>)
    ensures SumPresent(a + b) == SumPresent(a) + SumPresent(b)
    ensures CountPresent(a + b) == CountPresent(a) + CountPresent(b)
  {
    if a != [] {
      assert (a + b)[1..] == a[1..] + b;
      PresentOfConcat(a[1..], b);
    } else {
      assert a + b == b;
    }
  }

  /** With every rating in 1..5, the sum lies between the count and five times the count. */
  lemma {:induction false} SumWithinScale(rs: seq<Option<int>>)
    requires RatingsInRange(rs)
    ensures CountPresent(rs) <= SumPresent(rs) <= 5 * CountPresent(rs)
  {
    if rs != [] {
      assert RatingInRange(rs[0]);
      assert forall i :: 0 <= i < |rs[1..]| ==> rs[1..][i] == rs[i + 1];
      SumWithinScale(rs[1..]);
    }
  }

  /**
   * The mean of the non-null ratings: `None` when they are all null, otherwise
   * the exact quotient of their sum by their count.
   */
  function Mean(rs: seq<Option<int>>): (m: Option<real>)
    ensures m.None? <==> AllNull(rs)
  {
    if CountPresent(rs) == 0 then None
    else Some((SumPresent(rs) as real) / (CountPresent(rs) as real))
  }

  /** A defined mean times the number of non-null ratings is their sum. */
  lemma MeanTimesCount(rs: seq<Option<int>>)
    ensures Mean(rs).Some? ==> Mean(rs).value * (CountPresent(rs) as real) == SumPresent(rs) as real
  {
    if Mean(rs).Some? {
      DivTimes(SumPresent(rs), CountPresent(rs));
    }
  }

  /** With every rating in 1..5, a defined mean lies in [1, 5]. */
  lemma MeanWithinScale(rs: seq<Option<int>>)
    requires RatingsInRange(rs)
    ensures Mean(rs).Some? ==> 1.0 <= Mean(rs).value <= 5.0
  {
    if Mean(rs).Some? {
      var n := CountPresent(rs);
      var s := SumPresent(rs);
      SumWithinScale(rs);
      QuotientWithin(s, n, 1, 5);
      assert Mean(rs).value == (s as real) / (n as real);
    }
  }

  /** An exact quotient times its divisor gives back the dividend. */
  lemma DivTimes(s: int, n: int)
    requires n > 0
    ensures ((s as real) / (n as real)) * (n as real) == s as real
  {
  }

  /** When s lies between lo * n and hi * n, the quotient s / n lies between lo and hi. */
  lemma QuotientWithin(s: int, n: int, lo: int, hi: int)
    requires n > 0 && lo * n <= s <= hi * n
    ensures lo as real <= (s as real) / (n as real) <= hi as real
  {
    var c := n as real;
    var m := (s as real) / c;
    DivTimes(s, n);
    assert (lo as real) * c == (lo * n) as real && (hi as real) * c == (hi * n) as real;
    assert (lo as real) * c <= m * c <= (hi as real) * c;
    ScaleCancels(m, c, lo as real);
    ScaleCancels(hi as real, c, m);
  }

  /** Multiplying by a positive factor preserves order. */
  lemma ScaleCancels(x: real, c: real, y: real)
    requires c > 0.0
    ensures x * c >= y * c <==> x >= y
  {
    if x < y {
      assert (y - x) * c > 0.0;
    } else {
      assert (x - y) * c >= 0.0;
    }
  }

  /** The ratings of category k. */
  function Category(rs: seq<Option<int>>, k: nat): (slice: seq<Option<int>>)
    requires |rs| == 23 && k < 7
    ensures |slice| == |CATEGORIES[k].1|
    ensures forall i :: 0 <= i < |slice| ==> slice[i] == rs[CATEGORY_BOUNDS[k] + i]
  {
    rs[CATEGORY_BOUNDS[k]..CATEGORY_BOUNDS[k + 1]]
  }

  /** One entry of `get_category_averages`: the category's name and the mean of its ratings. */
  function CategoryAverage(rs: seq<Option<int>>, k: nat): (entry: (string, Option<real>))
    requires |rs| == 23 && k < 7
    ensures entry.0 == CATEGORIES[k].0
    ensures entry.1 == Mean(Category(rs, k))
    ensures entry.1.None? <==> forall i :: CATEGORY_BOUNDS[k] <= i < CATEGORY_BOUNDS[k + 1] ==> rs[i].None?
  {
    var slice := Category(rs, k);
    assert forall i :: CATEGORY_BOUNDS[k] <= i < CATEGORY_BOUNDS[k + 1] ==> rs[i] == slice[i - CATEGORY_BOUNDS[k]];
    (CATEGORIES[k].0, Mean(slice))
  }

  /**
   * `get_category_averages`: one entry per category, in the order the
   * categories are declared.
   */
  method GetCategoryAverages(rs: seq<Option<int>>) returns (averages: seq<(string, Option<real>)>)
    requires |rs| == 23
    ensures |averages| == |CATEGORIES|
    ensures forall k :: 0 <= k < 7 ==> averages[k] == CategoryAverage(rs, k)
  {
    averages := [];
    var k := 0;
    while k < |CATEGORIES|
      invariant 0 <= k <= 7
      invariant |averages| == k
      invariant forall j :: 0 <= j < k ==> averages[j] == CategoryAverage(rs, j)
    {
      var (name, scores) := CATEGORIES[k];
      var slice := rs[CATEGORY_BOUNDS[k]..CATEGORY_BOUNDS[k + 1]];
      var count := CountPresent(slice);
      var avg: Option<real> := None;
      if count > 0 {
        avg := Some((SumPresent(slice) as real) / (count as real));
      }
      averages := averages + [(name, avg)];
      k := k + 1;
    }
  }

  /** Category k's defined average times its number of non-null ratings; 0 when undefined. */
  function WeightedAverage(rs: seq<Option<int>>, k: nat): real
    requires |rs| == 23 && k < 7
  {
    var avg := CategoryAverage(rs, k).1;
    if avg.Some? then avg.value * (CountPresent(Category(rs, k)) as real) else 0.0
  }

  /** The sum of WeightedAverage over the categories j < n. */
  function WeightedSum(rs: seq<Option<int>>, n: nat): real
    requires |rs| == 23 && n <= 7
  {
    if n == 0 then 0.0 else WeightedSum(rs, n - 1) + WeightedAverage(rs, n - 1)
  }

  /** The number of non-null ratings in categories j < n. */
  function TotalWeight(rs: seq<Option<int>>, n: nat): nat
    requires |rs| == 23 && n <= 7
  {
    if n == 0 then 0 else TotalWeight(rs, n - 1) + CountPresent(Category(rs, n - 1))
  }

  lemma {:induction false} WeightedPrefix(rs: seq<Option<int>>, n: nat)
    requires |rs| == 23 && n <= 7
    ensures WeightedSum(rs, n) == SumPresent(rs[..CATEGORY_BOUNDS[n]]) as real
    ensures TotalWeight(rs, n) == CountPresent(rs[..CATEGORY_BOUNDS[n]])
  {
    if n == 0 {
      assert rs[..CATEGORY_BOUNDS[0]] == [];
    } else {
      WeightedPrefix(rs, n - 1);
      WeightedAverageIsSum(rs, n - 1);
      PrefixExtends(rs, n - 1);
    }
  }

  /** A category's weighted average is the sum of its non-null ratings. */
  lemma WeightedAverageIsSum(rs: seq<Option<int>>, k: nat)
    requires |rs| == 23 && k < 7
    ensures WeightedAverage(rs, k) == SumPresent(Category(rs, k)) as real
  {
    var slice := Category(rs, k);
    if Mean(slice).Some? {
      MeanTimesCount(slice);
    } else {
      assert SumPresent(slice) == 0;
    }
  }

  /** The ratings before category k + 1 are those before category k followed by category k. */
  lemma PrefixExtends(rs: seq<Option<int>>, k: nat)
    requires |rs| == 23 && k < 7
    ensures SumPresent(rs[..CATEGORY_BOUNDS[k + 1]])
      == SumPresent(rs[..CATEGORY_BOUNDS[k]]) + SumPresent(Category(rs, k))
    ensures CountPresent(rs[..CATEGORY_BOUNDS[k + 1]])
      == CountPresent(rs[..CATEGORY_BOUNDS[k]]) + CountPresent(Category(rs, k))
  {
    assert rs[..CATEGORY_BOUNDS[k + 1]] == rs[..CATEGORY_BOUNDS[k]] + Category(rs, k);
    PresentOfConcat(rs[..CATEGORY_BOUNDS[k]], Category(rs, k));
  }

  /**
   * The overall rating is the mean of the defined category averages, each
   * weighted by its number of non-null ratings.
   */
  lemma OverallIsWeightedCategoryMean(rs: seq<Option<int>>)
    requires |rs| == 23
    ensures TotalWeight(rs, 7) == CountPresent(rs)
    ensures Mean(rs).Some? ==> Mean(rs).value == WeightedSum(rs, 7) / (TotalWeight(rs, 7) as real)
  {
    WeightedPrefix(rs, 7);
    assert rs[..CATEGORY_BOUNDS[7]] == rs;
  }

  /** The fields the evaluation form edits: the 23 ratings, four descriptions and two flags. */
  datatype Assessment = Assessment(
    ratings: seq<Option<int>>,
    achievementsDescription: string,
    strengths: string,
    improvementsNeeded: string,
    careerRecommendation: string,
    passRecommendation: bool,
    rehireWillingness: bool)

  /** At most one evaluation per (placement, type): an invariant of the store. */
  datatype Evaluation = Evaluation(
    placement: PlacementId,
    supervisor: UserId,
    kind: EvaluationType,
    periodMonth: int,
    assessment: Assessment,
    overallRating: Option<real>,
    status: EvaluationStatus,
    deadline: Date,
    submittedAt: Option<DateTime>)

  /** The fields of the unique constraint on evaluations. */
  function EvaluationKey(e: Evaluation): (PlacementId, EvaluationType) {
    (e.placement, e.kind)
  }

  /**
   * The evaluation as `calculate_overall_rating` leaves it: the overall rating
   * becomes the mean of the non-null ratings; with none it is kept, not cleared.
   */
  function Recalculated(e: Evaluation): (r: Evaluation)
    ensures r == e.(overallRating := r.overallRating)
    ensures !AllNull(e.assessment.ratings) ==> r.overallRating == Mean(e.assessment.ratings)
    ensures AllNull(e.assessment.ratings) ==> r.overallRating == e.overallRating
  {
    match Mean(e.assessment.ratings)
    case None => e
    case Some(m) => e.(overallRating := Some(m))
  }

  /** Recalculating twice with unchanged ratings gives the same evaluation as once. */
  lemma RecalculatedIdempotent(e: Evaluation)
    ensures Recalculated(Recalculated(e)) == Recalculated(e)
  {
  }

  const PASS_THRESHOLD: real := 3.0

  /**
   * `is_passing`: the overall rating is tested for truthiness first, so an
   * unset rating fails; otherwise it passes iff it is at least 3.0.
   */
  function IsPassing(e: Evaluation): (passing: bool)
    ensures passing <==> e.overallRating.Some? && e.overallRating.value >= PASS_THRESHOLD
  {
    if e.overallRating.Some? && e.overallRating.value != 0.0 then e.overallRating.value >= PASS_THRESHOLD
    else false
  }

  /**
   * After a recalculation over at least one non-null rating, the evaluation
   * passes iff the ratings sum to at least three times their count.
   */
  lemma PassingAfterRecalculation(e: Evaluation)
    requires !AllNull(e.assessment.ratings)
    ensures IsPassing(Recalculated(e)) <==>
      SumPresent(e.assessment.ratings) >= 3 * CountPresent(e.assessment.ratings)
  {
    var rs := e.assessment.ratings;
    var n := CountPresent(rs);
    var s := SumPresent(rs);
    assert Recalculated(e).overallRating == Some((s as real) / (n as real));
    QuotientAtLeast(s, n, 3);
  }

  /** A quotient s / n is at least k iff s is at least k * n. */
  lemma QuotientAtLeast(s: int, n: int, k: int)
    requires n > 0
    ensures (s as real) / (n as real) >= k as real <==> s >= k * n
  {
    var m := (s as real) / (n as real);
    DivTimes(s, n);
    assert (k as real) * (n as real) == (k * n) as real;
    ScaleCancels(m, n as real, k as real);
  }
}

=== FILE: evaluations_views.dfy ===
/**
 * The supervisor's evaluation pages (evaluations/views.py): the list of
 * their evaluations, the evaluation form with its submit / draft
 * transition, and the preview with its access rule.
 */
module EvaluationsViews {
  import opened Wrappers
  import opened Calendar
  import opened AccountsModels
  import opened EvaluationsModels
  import opened EvaluationsForms
  import opened Portal
  import opened Http

  // ---- supervisor_evaluations --------------------------------------------------------

  /**
   * `supervisor_evaluations`: a non-supervisor is sent home, a supervisor
   * without a profile makes the view raise, and a supervisor sees exactly the
   * evaluations assigned to them.
   */
  function SupervisorEvaluationsView(t: Tables, actor: UserId): (r: (Response, set<EvaluationId>))
    requires actor in t.users
    ensures t.users[actor].role != Supervisor ==> r == (Redirect(Home), {})
    ensures t.users[actor].role == Supervisor && actor !in t.supervisors ==> r == (ServerError, {})
    ensures t.users[actor].role == Supervisor && actor in t.supervisors ==> r.0 == Render
    ensures r.0 == Render ==>
      t.users[actor].role == Supervisor && actor in t.supervisors
      && forall id :: id in r.1 <==> id in t.evaluations && t.evaluations[id].supervisor == actor
  {
    if t.users[actor].role != Supervisor then (Redirect(Home), {})
    else if actor !in t.supervisors then (ServerError, {})
    else (Render, set id | id in t.evaluations && t.evaluations[id].supervisor == actor)
  }

  // ---- evaluation_form ---------------------------------------------------------------

  /** The `action` value of the submit button; any other value saves a draft. */
  const SUBMIT_ACTION: string := "submit"

  /** A post of the evaluation form: the button pressed and the raw field values. */
  datatype EvaluationPost = EvaluationPost(action: Option<string>, raw: Assessment)

  /**
   * The guards of `evaluation_form`, in their order: the response that ends
   * the view before the form is handled, or `None` when the actor is the
   * evaluation's own supervisor and it is not yet submitted.
   */
  function FormGuard(t: Tables, actor: UserId, id: EvaluationId): (stop: Option<Response>)
    requires actor in t.users
  {
    if t.users[actor].role != Supervisor then Some(Redirect(Home))
    else if id !in t.evaluations then Some(NotFound)
    else if actor !in t.supervisors then Some(ServerError)
    else if t.evaluations[id].supervisor != actor then Some(Redirect(SupervisorDashboard))
    else if t.evaluations[id].status == Submitted then Some(Redirect(EvaluationPreview(id)))
    else None
  }

  /**
   * Only the evaluation's own supervisor reaches the form, and only while it
   * is not submitted; a submitted one sends its owner to the preview.
   */
  lemma FormGuardSpec(t: Tables, actor: UserId, id: EvaluationId)
    requires actor in t.users
    ensures FormGuard(t, actor, id).None? <==>
      t.users[actor].role == Supervisor && id in t.evaluations && actor in t.supervisors
      && t.evaluations[id].supervisor == actor && t.evaluations[id].status != Submitted
    ensures t.users[actor].role != Supervisor ==> FormGuard(t, actor, id) == Some(Redirect(Home))
    ensures t.users[actor].role == Supervisor && id !in t.evaluations ==> FormGuard(t, actor, id) == Some(NotFound)
    ensures t.users[actor].role == Supervisor && id in t.evaluations && actor in t.supervisors
            && t.evaluations[id].supervisor != actor ==>
      FormGuard(t, actor, id) == Some(Redirect(SupervisorDashboard))
    ensures t.users[actor].role == Supervisor && id in t.evaluations && actor in t.supervisors
            && t.evaluations[id].supervisor == actor && t.evaluations[id].status == Submitted ==>
      FormGuard(t, actor, id) == Some(Redirect(EvaluationPreview(id)))
  {
  }

  /**
   * The evaluation a valid post leaves: the form's save (overall rating
   * recomputed), then SUBMITTED at `now` for the submit button, or DRAFT with
   * the submission time untouched for any other action.
   */
  function AfterPost(e: Evaluation, cleaned: Assessment, action: Option<string>, now: DateTime): Evaluation {
    Transition(FormSaved(e, cleaned), action, now)
  }

  /** The view's status change on the saved instance. */
  function Transition(saved: Evaluation, action: Option<string>, now: DateTime): Evaluation {
    if action == Some(SUBMIT_ACTION) then saved.(status := Submitted, submittedAt := Some(now))
    else saved.(status := Draft)
  }

  /**
   * A submit ends SUBMITTED with `submitted_at` now; a draft ends DRAFT and
   * keeps `submitted_at`; both carry the posted assessment and a recomputed
   * overall rating, and keep the placement, supervisor, type and deadline.
   */
  lemma AfterPostSpec(e: Evaluation, cleaned: Assessment, action: Option<string>, now: DateTime)
    ensures action == Some(SUBMIT_ACTION) ==>
      AfterPost(e, cleaned, action, now).status == Submitted && AfterPost(e, cleaned, action, now).submittedAt == Some(now)
    ensures action != Some(SUBMIT_ACTION) ==>
      AfterPost(e, cleaned, action, now).status == Draft && AfterPost(e, cleaned, action, now).submittedAt == e.submittedAt
    ensures AfterPost(e, cleaned, action, now).assessment == cleaned
    ensures AfterPost(e, cleaned, action, now).overallRating == FormSaved(e, cleaned).overallRating
    ensures EvaluationKey(AfterPost(e, cleaned, action, now)) == EvaluationKey(e)
    ensures AfterPost(e, cleaned, action, now).supervisor == e.supervisor
    ensures AfterPost(e, cleaned, action, now).deadline == e.deadline
  {
    FormSavedSpec(e, cleaned);
  }

  /**
   * `evaluation_form`: the guards first, none of which changes anything; a
   * GET or a post that does not validate shows the form and saves nothing;
   * a valid post saves the evaluation as `AfterPost` describes and returns
   * to the list. A submitted evaluation is never changed here.
   */
  method EvaluationFormView(db: Database, actor: UserId, id: EvaluationId, request: Request<EvaluationPost>, now: DateTime)
    returns (response: Response)
    requires db.Valid() && actor in db.t.users && ValidDateTime(now)
    requires request.PostRequest? ==> |request.data.raw.ratings| == |CRITERIA|
    modifies db
    ensures db.Valid()
    ensures FormGuard(old(db.t), actor, id).Some? ==> response == FormGuard(old(db.t), actor, id).value
    ensures id in old(db.t).evaluations && old(db.t).evaluations[id].status == Submitted ==> unchanged(db)
    ensures FormGuard(old(db.t), actor, id).None? ==>
      (response == Redirect(SupervisorEvaluations) <==>
         request.PostRequest? && CleanEvaluationForm(request.data.raw).Some?)
    ensures response == Redirect(SupervisorEvaluations) ==>
      FormGuard(old(db.t), actor, id).None? && request.PostRequest? && CleanEvaluationForm(request.data.raw).Some?
      && db.t == old(db.t).(evaluations := old(db.t).evaluations[id :=
           AfterPost(old(db.t).evaluations[id], CleanEvaluationForm(request.data.raw).value, request.data.action, now)])
    ensures response != Redirect(SupervisorEvaluations) ==> unchanged(db)
    ensures FormGuard(old(db.t), actor, id).None? ==>
      (response == Render <==> request.GetRequest? || CleanEvaluationForm(request.data.raw).None?)
  {
    FormGuardSpec(db.t, actor, id);
    var stop := FormGuard(db.t, actor, id);
    if stop.Some? {
      return stop.value;
    }
    if request.GetRequest? {
      return Render;
    }
    var cleaned := CleanEvaluationForm(request.data.raw);
    if cleaned.None? {
      return Render;
    }
    response := SavePosted(db, id, request.data, now);
  }

  /** The evaluation a valid post leaves meets the table's constraints and keeps its key. */
  lemma AfterPostOk(t: Tables, id: EvaluationId, raw: Assessment, action: Option<string>, now: DateTime)
    requires TablesOk(t) && id in t.evaluations && ValidDateTime(now)
    requires |raw.ratings| == |CRITERIA| && CleanEvaluationForm(raw).Some?
    ensures EvaluationOk(AfterPost(t.evaluations[id], CleanEvaluationForm(raw).value, action, now), t.placements, t.supervisors)
    ensures EvaluationKey(AfterPost(t.evaluations[id], CleanEvaluationForm(raw).value, action, now))
      == EvaluationKey(t.evaluations[id])
  {
    assert EvaluationOk(t.evaluations[id], t.placements, t.supervisors);
    CleanEvaluationFormSpec(raw);
    AfterPostSpec(t.evaluations[id], CleanEvaluationForm(raw).value, action, now);
  }

  /**
   * Whether or not `save(commit=False)` already wrote the row, writing the
   * transitioned instance afterwards leaves the row `AfterPost` describes.
   */
  lemma SavedThenUpdated(t0: Tables, mid: Tables, id: EvaluationId, saved: Evaluation,
                         cleaned: Assessment, action: Option<string>, now: DateTime)
    requires id in t0.evaluations && saved == FormSaved(t0.evaluations[id], cleaned)
    requires mid == t0.(evaluations := t0.evaluations[id := saved]) || mid == t0
    ensures Transition(saved, action, now) == AfterPost(t0.evaluations[id], cleaned, action, now)
    ensures mid.placements == t0.placements && mid.supervisors == t0.supervisors && id in mid.evaluations
    ensures EvaluationKey(mid.evaluations[id]) == EvaluationKey(t0.evaluations[id])
    ensures mid.(evaluations := mid.evaluations[id := Transition(saved, action, now)])
      == t0.(evaluations := t0.evaluations[id := AfterPost(t0.evaluations[id], cleaned, action, now)])
  {
    FormSavedSpec(t0.evaluations[id], cleaned);
    if mid != t0 {
      assert mid.evaluations[id := Transition(saved, action, now)] == t0.evaluations[id := Transition(saved, action, now)];
    }
  }

  /** The valid-post branch: `form.save(commit=False)`, the status transition, `evaluation.save()`. */
  method SavePosted(db: Database, id: EvaluationId, post: EvaluationPost, now: DateTime) returns (response: Response)
    requires db.Valid() && id in db.t.evaluations && ValidDateTime(now)
    requires |post.raw.ratings| == |CRITERIA| && CleanEvaluationForm(post.raw).Some?
    modifies db
    ensures db.Valid()
    ensures response == Redirect(SupervisorEvaluations)
    ensures db.t == old(db.t).(evaluations := old(db.t).evaluations[id :=
      AfterPost(old(db.t).evaluations[id], CleanEvaluationForm(post.raw).value, post.action, now)])
  {
    ghost var t0 := db.t;
    AfterPostOk(t0, id, post.raw, post.action, now);
    var evaluation := SaveEvaluationForm(db, id, post.raw, false);
    SavedThenUpdated(t0, db.t, id, evaluation, CleanEvaluationForm(post.raw).value, post.action, now);
    db.UpdateEvaluation(id, Transition(evaluation, post.action, now));
    response := Redirect(SupervisorEvaluations);
  }

  // ---- evaluation_preview ------------------------------------------------------------

  /** Who may preview an evaluation: its supervisor, the placement's student, or an admin. */
  predicate MayPreview(t: Tables, actor: UserId, e: Evaluation)
    requires actor in t.users && e.placement in t.placements
  {
    match t.users[actor].role
    case Supervisor => e.supervisor == actor
    case Student => t.placements[e.placement].student == actor
    case Admin => true
  }

  /**
   * `evaluation_preview`: an unknown evaluation is a 404; a supervisor or
   * student without a profile makes the view raise; otherwise the preview is
   * shown exactly to those who may see it, and anyone else is sent to their
   * dashboard. Nothing is changed.
   */
  function EvaluationPreviewView(t: Tables, actor: UserId, id: EvaluationId): (response: Response)
    requires TablesOk(t) && actor in t.users
    ensures id !in t.evaluations <==> response == NotFound
    ensures id in t.evaluations ==>
      (response == Render <==>
        MayPreview(t, actor, t.evaluations[id])
        && (t.users[actor].role == Supervisor ==> actor in t.supervisors)
        && (t.users[actor].role == Student ==> actor in t.students))
    ensures response == ServerError ==>
      (t.users[actor].role == Supervisor && actor !in t.supervisors)
      || (t.users[actor].role == Student && actor !in t.students)
    ensures id in t.evaluations && t.users[actor].role == Supervisor && actor in t.supervisors
            && t.evaluations[id].supervisor != actor ==>
      response == Redirect(SupervisorDashboard)
    ensures id in t.evaluations && t.users[actor].role == Student && actor in t.students
            && t.placements[t.evaluations[id].placement].student != actor ==>
      response == Redirect(StudentDashboard)
  {
    if id !in t.evaluations then NotFound
    else
      var e := t.evaluations[id];
      assert EvaluationOk(e, t.placements, t.supervisors);
      match t.users[actor].role
      case Supervisor =>
        if actor !in t.supervisors then ServerError
        else if e.supervisor != actor then Redirect(SupervisorDashboard)
        else Render
      case Student =>
        if actor !in t.students then ServerError
        else if t.placements[e.placement].student != actor then Redirect(StudentDashboard)
        else Render
      case Admin => Render
  }
}

=== FILE: http.dfy ===
/**
 * What a view answers: a rendered page, a redirect to a named page, a 404
 * (`get_object_or_404`) or a server error (an uncaught exception).
 */
module Http {
  datatype Page =
    | Home
    | Login
    | StudentDashboard
    | StudentApplications
    | StudentReports
    | EditReport(reportId: nat)
    | SupervisorDashboard
    | SupervisorEvaluations
    | EvaluationPreview(evaluationId: nat)

  datatype Response = Render | Redirect(page: Page) | NotFound | ServerError

  /** A request whose form this model validates: a GET, or a POST with its raw data. */
  datatype Request<T> = GetRequest | PostRequest(data: T)

  /** A request whose form validation is not modelled: a GET, or a POST whose form did or did not validate. */
  datatype Submission<T> = Get | PostInvalid | PostValid(data: T)
}

=== FILE: internships_admin.dfy ===
/**
 * The internship admin actions (internships/admin.py): bulk status updates of
 * applications, and the confirm / complete loops over placements, which also
 * move each placement's student.
 */
module InternshipsAdmin {
  import opened Wrappers
  import opened Calendar
  import opened AccountsModels
  import opened InternshipsModels
  import opened Portal
  import opened Selections

  // ---- applications ------------------------------------------------------------------

  /** The applications after `queryset.update(status=...)` on the selection. */
  function MarkedApplications(applications: map<ApplicationId, Application>, selection: seq<ApplicationId>,
                              status: ApplicationStatus): map<ApplicationId, Application> {
    map id | id in applications :: if id in selection then applications[id].(status := status) else applications[id]
  }

  /**
   * Every selected application takes the new status whatever its current
   * one; nothing else changes.
   */
  lemma MarkedApplicationsSpec(applications: map<ApplicationId, Application>, selection: seq<ApplicationId>,
                               status: ApplicationStatus)
    ensures MarkedApplications(applications, selection, status).Keys == applications.Keys
    ensures forall id :: id in applications && id in selection ==>
      MarkedApplications(applications, selection, status)[id] == applications[id].(status := status)
    ensures forall id :: id in applications && id !in selection ==>
      MarkedApplications(applications, selection, status)[id] == applications[id]
  {
  }

  /**
   * There is no transition graph: the last action applied to a selection
   * decides its status, whatever was applied before.
   */
  lemma LastMarkWins(applications: map<ApplicationId, Application>, selection: seq<ApplicationId>,
                     first: ApplicationStatus, second: ApplicationStatus)
    ensures MarkedApplications(MarkedApplications(applications, selection, first), selection, second)
         == MarkedApplications(applications, selection, second)
  {
  }

  /**
   * `mark_under_review`, `mark_accepted` and `mark_rejected`: one bulk update
   * of the selected applications to UNDER_REVIEW, ACCEPTED or REJECTED; the
   * count is the number of selected rows.
   */
  method MarkApplications(db: Database, selection: seq<ApplicationId>, status: ApplicationStatus) returns (updated: nat)
    requires db.Valid() && Distinct(selection) && forall id :: id in selection ==> id in db.t.applications
    requires status == UnderReview || status == Accepted || status == Rejected
    modifies db
    ensures db.Valid()
    ensures updated == |selection|
    ensures db.t == old(db.t).(applications := MarkedApplications(old(db.t).applications, selection, status))
  {
    db.ReplaceApplications(MarkedApplications(db.t.applications, selection, status));
    updated := |selection|;
  }

  // ---- placements --------------------------------------------------------------------

  /** The two placement actions: `confirm_placement` by an admin at a time, and `complete_placement`. */
  datatype PlacementAction = Confirm(admin: UserId, now: DateTime) | Complete

  /** The placement status an action starts from (its `queryset.filter(status=...)`). */
  function FromStatus(action: PlacementAction): PlacementStatus {
    match action
    case Confirm(_, _) => PendingConfirmation
    case Complete => PlacementStatus.Active
  }

  /** The status the action gives the placement's student. */
  function StudentStatusAfter(action: PlacementAction): StudentStatus {
    match action
    case Confirm(_, _) => StudentStatus.Active
    case Complete => StudentStatus.Completed
  }

  /**
   * One placement after the loop body: confirmed placements become ACTIVE,
   * confirmed by the admin at `now`; completed ones become COMPLETED.
   */
  function Transitioned(p: Placement, action: PlacementAction): (q: Placement)
    ensures q.student == p.student && q.supervisor == p.supervisor && q.details == p.details
  {
    match action
    case Confirm(admin, now) => p.(status := PlacementStatus.Active, confirmedBy := Some(admin), confirmedAt := Some(now))
    case Complete => p.(status := PlacementStatus.Completed)
  }

  /** The selected ids whose placement is in the action's starting status. */
  function InStatus(placements: map<PlacementId, Placement>, status: PlacementStatus): PlacementId -> bool {
    id => id in placements && placements[id].status == status
  }

  /** Whether the ids rows can be run through the loop body: known placements of known students. */
  predicate Runnable(t: Tables, rows: seq<PlacementId>) {
    forall id :: id in rows ==> id in t.placements && t.placements[id].student in t.students
  }

  /**
   * The loop body on one placement: it is transitioned and saved, then its
   * student's status is set and saved.
   */
  function Step(t: Tables, id: PlacementId, action: PlacementAction): (r: Tables)
    requires id in t.placements && t.placements[id].student in t.students
  {
    var t1 := t.(placements := t.placements[id := Transitioned(t.placements[id], action)]);
    var student := t.placements[id].student;
    t1.(students := t1.students[student := t1.students[student].(status := StudentStatusAfter(action))])
  }

  /** The tables after the loop body ran on each of `rows` in turn. */
  function RunRows(t: Tables, rows: seq<PlacementId>, action: PlacementAction): (r: Tables)
    requires Runnable(t, rows)
    ensures r.placements.Keys == t.placements.Keys && r.students.Keys == t.students.Keys
    ensures forall id :: id in t.placements ==> r.placements[id].student == t.placements[id].student
    decreases |rows|
  {
    if rows == [] then t
    else
      PrefixRunnable(t, rows, |rows| - 1);
      Step(RunRows(t, rows[..|rows| - 1], action), rows[|rows| - 1], action)
  }

  lemma PrefixRunnable(t: Tables, rows: seq<PlacementId>, n: nat)
    requires Runnable(t, rows) && n <= |rows|
    ensures Runnable(t, rows[..n])
  {
    forall id | id in rows[..n]
      ensures id in rows
    {
      var k :| 0 <= k < n && rows[..n][k] == id;
      assert rows[k] == id;
    }
  }

  /** One more turn of the loop is one more `Step`. */
  lemma RunRowsStep(t: Tables, rows: seq<PlacementId>, i: nat, action: PlacementAction)
    requires Runnable(t, rows) && i < |rows|
    ensures Runnable(t, rows[..i]) && Runnable(t, rows[..i + 1])
    ensures RunRows(t, rows[..i + 1], action) == Step(RunRows(t, rows[..i], action), rows[i], action)
  {
    PrefixRunnable(t, rows, i);
    PrefixRunnable(t, rows, i + 1);
    assert rows[..i + 1][..i] == rows[..i];
  }

  /** The loop touches only the placement and student tables. */
  lemma {:induction false} RunRowsFrame(t: Tables, rows: seq<PlacementId>, action: PlacementAction)
    requires Runnable(t, rows)
    ensures RunRows(t, rows, action)
         == t.(placements := RunRows(t, rows, action).placements, students := RunRows(t, rows, action).students)
    decreases |rows|
  {
    if rows != [] {
      PrefixRunnable(t, rows, |rows| - 1);
      RunRowsFrame(t, rows[..|rows| - 1], action);
    }
  }

  /** Whether some of `rows` is a placement of this student. */
  predicate HasRowOf(t: Tables, rows: seq<PlacementId>, student: UserId)
    requires forall id :: id in rows ==> id in t.placements
  {
    exists id :: id in rows && t.placements[id].student == student
  }

  /**
   * What the loop leaves of the placements: each one among `rows`
   * transitioned once (a row met twice gives the same result), every other
   * placement as it was.
   */
  lemma {:induction false} RunRowsPlacements(t: Tables, rows: seq<PlacementId>, action: PlacementAction)
    requires Runnable(t, rows)
    ensures forall id :: id in t.placements ==>
      RunRows(t, rows, action).placements[id]
        == (if id in rows then Transitioned(t.placements[id], action) else t.placements[id])
    decreases |rows|
  {
    if rows != [] {
      var init := rows[..|rows| - 1];
      var last := rows[|rows| - 1];
      assert rows == init + [last];
      PrefixRunnable(t, rows, |rows| - 1);
      RunRowsPlacements(t, init, action);
      var before := RunRows(t, init, action);
      assert RunRows(t, rows, action).placements == before.placements[last := Transitioned(before.placements[last], action)];
      forall id | id in t.placements
        ensures RunRows(t, rows, action).placements[id]
          == (if id in rows then Transitioned(t.placements[id], action) else t.placements[id])
      {
        if id != last {
          assert id in rows <==> id in init;
        }
      }
    }
  }

  /**
   * What the loop leaves of the students: each student with a placement
   * among `rows` takes the action's status, every other one is unchanged.
   */
  lemma {:induction false} RunRowsStudents(t: Tables, rows: seq<PlacementId>, action: PlacementAction)
    requires Runnable(t, rows)
    ensures forall s :: s in t.students ==>
      RunRows(t, rows, action).students[s]
        == (if HasRowOf(t, rows, s) then t.students[s].(status := StudentStatusAfter(action)) else t.students[s])
    decreases |rows|
  {
    if rows != [] {
      var init := rows[..|rows| - 1];
      var last := rows[|rows| - 1];
      assert rows == init + [last];
      PrefixRunnable(t, rows, |rows| - 1);
      RunRowsStudents(t, init, action);
      var before := RunRows(t, init, action);
      var owner := t.placements[last].student;
      assert before.placements[last].student == owner;
      assert RunRows(t, rows, action).students
          == before.students[owner := before.students[owner].(status := StudentStatusAfter(action))];
      forall s | s in t.students
        ensures RunRows(t, rows, action).students[s]
          == (if HasRowOf(t, rows, s) then t.students[s].(status := StudentStatusAfter(action)) else t.students[s])
      {
        if s == owner {
          assert last in rows;
        } else {
          if HasRowOf(t, rows, s) {
            var id :| id in rows && t.placements[id].student == s;
            assert id in init;
          }
          if HasRowOf(t, init, s) {
            var id :| id in init && t.placements[id].student == s;
            assert id in rows;
          }
        }
      }
    }
  }

  /**
   * `confirm_placement` and `complete_placement`: the selected placements in
   * the starting status are fetched once and handled in order, each saved
   * together with its student; the count is the number of placements
   * handled.
   */
  method RunPlacementAction(db: Database, selection: seq<PlacementId>, action: PlacementAction) returns (updated: nat)
    requires db.Valid() && forall id :: id in selection ==> id in db.t.placements
    requires Distinct(selection)
    requires action.Confirm? ==> ValidDateTime(action.now)
    modifies db
    ensures db.Valid()
    ensures Runnable(old(db.t), Handled(old(db.t), selection, action))
    ensures updated == |Handled(old(db.t), selection, action)|
    ensures db.t == RunRows(old(db.t), Handled(old(db.t), selection, action), action)
  {
    var rows := Handled(db.t, selection, action);
    assert Runnable(db.t, rows);
    updated := RunAll(db, rows, action);
  }

  /** The `for` loop over the fetched placements, counting them. */
  method RunAll(db: Database, rows: seq<PlacementId>, action: PlacementAction) returns (updated: nat)
    requires db.Valid() && Runnable(db.t, rows)
    requires action.Confirm? ==> ValidDateTime(action.now)
    modifies db
    ensures db.Valid()
    ensures updated == |rows| && db.t == RunRows(old(db.t), rows, action)
  {
    ghost var t0 := db.t;
    updated := 0;
    var i := 0;
    while i < |rows|
      invariant 0 <= i <= |rows| && updated == i
      invariant db.Valid()
      invariant Runnable(t0, rows[..i]) && db.t == RunRows(t0, rows[..i], action)
    {
      RunRowsStep(t0, rows, i, action);
      RunOne(db, rows[i], action);
      updated := updated + 1;
      i := i + 1;
    }
    assert rows[..i] == rows;
  }

  /** The loop body on one placement, saving the placement and then its student. */
  method RunOne(db: Database, id: PlacementId, action: PlacementAction)
    requires db.Valid() && id in db.t.placements
    requires action.Confirm? ==> ValidDateTime(action.now)
    modifies db
    ensures db.Valid()
    ensures old(db.t).placements[id].student in old(db.t).students
    ensures db.t == Step(old(db.t), id, action)
  {
    var p := db.t.placements[id];
    db.UpdatePlacement(id, Transitioned(p, action));
    db.UpdateStudent(p.student, db.t.students[p.student].(status := StudentStatusAfter(action)));
  }

  /** The placements an action handles: the selected ones in its starting status. */
  function Handled(t: Tables, selection: seq<PlacementId>, action: PlacementAction): seq<PlacementId> {
    Filter(selection, InStatus(t.placements, FromStatus(action)))
  }

  /** Whether the student owns a selected placement in the action's starting status. */
  predicate OwnsHandled(t: Tables, selection: seq<PlacementId>, action: PlacementAction, student: UserId)
    requires forall id :: id in selection ==> id in t.placements
  {
    exists id :: id in selection && t.placements[id].status == FromStatus(action) && t.placements[id].student == student
  }

  /**
   * In terms of the selection: exactly the selected placements in the
   * starting status are transitioned, every other placement is untouched,
   * and no table but placements and students changes.
   */
  lemma PlacementActionPlacements(t: Tables, selection: seq<PlacementId>, action: PlacementAction)
    requires forall id :: id in selection ==> id in t.placements
    requires Runnable(t, Handled(t, selection, action))
    ensures var r := RunRows(t, Handled(t, selection, action), action);
      r == t.(placements := r.placements, students := r.students)
      && forall id :: id in t.placements ==>
           r.placements[id] == (if id in selection && t.placements[id].status == FromStatus(action)
                                then Transitioned(t.placements[id], action) else t.placements[id])
  {
    RunRowsFrame(t, Handled(t, selection, action), action);
    RunRowsPlacements(t, Handled(t, selection, action), action);
  }

  /** Exactly the students owning a handled placement take the action's status. */
  lemma PlacementActionStudents(t: Tables, selection: seq<PlacementId>, action: PlacementAction)
    requires forall id :: id in selection ==> id in t.placements
    requires Runnable(t, Handled(t, selection, action))
    ensures forall s :: s in t.students ==>
      RunRows(t, Handled(t, selection, action), action).students[s]
        == (if OwnsHandled(t, selection, action, s) then t.students[s].(status := StudentStatusAfter(action))
            else t.students[s])
  {
    var rows := Handled(t, selection, action);
    RunRowsStudents(t, rows, action);
    forall s | s in t.students
      ensures HasRowOf(t, rows, s) <==> OwnsHandled(t, selection, action, s)
    {
      if HasRowOf(t, rows, s) {
        var id :| id in rows && t.placements[id].student == s;
        assert id in selection && InStatus(t.placements, FromStatus(action))(id);
      }
      if OwnsHandled(t, selection, action, s) {
        var id :| id in selection && t.placements[id].status == FromStatus(action) && t.placements[id].student == s;
        assert InStatus(t.placements, FromStatus(action))(id);
        assert id in rows;
      }
    }
  }
}

=== FILE: internships_models.dfy ===
/**
 * Internships (internships/models.py): job postings, applications and
 * placements, their status choices and defaults, and the placement's length
 * in months.
 */
module InternshipsModels {
  import opened Wrappers
  import opened Calendar
  import opened AccountsModels

  type JobId = nat
  type ApplicationId = nat
  type PlacementId = nat

  datatype JobStatus = Open | Closed | Draft

  datatype JobPosting = JobPosting(title: string, status: JobStatus)

  /** Any status may follow any other: there is no transition graph for applications. */
  datatype ApplicationStatus = Sent | UnderReview | Accepted | Rejected | Withdrawn

  /** At most one application per (student, job posting): an invariant of the store. */
  datatype Application = Application(
    student: UserId,
    job: JobId,
    coverLetter: string,
    status: ApplicationStatus,
    notes: string)

  /** The fields of the unique constraint on applications. */
  function ApplicationKey(a: Application): (UserId, JobId) {
    (a.student, a.job)
  }

  datatype PlacementStatus = PendingConfirmation | Active | Completed | Terminated

  /** What the student states when confirming an internship (the confirmation form's fields). */
  datatype PlacementDetails = PlacementDetails(
    companyName: string,
    companyAddress: string,
    companyIndustry: string,
    position: string,
    startDate: Date,
    endDate: Date,
    supervisorName: string,
    supervisorEmail: string,
    supervisorWhatsapp: string,
    supervisorPosition: string)

  datatype Placement = Placement(
    student: UserId,
    supervisor: Option<UserId>,
    details: PlacementDetails,
    status: PlacementStatus,
    confirmedBy: Option<UserId>,
    confirmedAt: Option<DateTime>)

  const DEFAULT_JOB_STATUS: JobStatus := Open
  const DEFAULT_APPLICATION_STATUS: ApplicationStatus := Sent
  const DEFAULT_PLACEMENT_STATUS: PlacementStatus := PendingConfirmation

  /**
   * `get_duration_months`: the placement's length in days, floor-divided by 30.
   * It is negative exactly when the end date precedes the start date.
   */
  function DurationMonths(d: PlacementDetails): (months: int)
    requires ValidDate(d.startDate) && ValidDate(d.endDate)
    ensures 30 * months <= DaysBetween(d.startDate, d.endDate) < 30 * months + 30
    ensures months < 0 <==> Before(d.endDate, d.startDate)
  {
    OrdinalOrdersDates(d.endDate, d.startDate);
    DaysBetween(d.startDate, d.endDate) / 30
  }
}

=== FILE: notifications_admin.dfy ===
/**
 * The notification admin (notifications/admin.py): bulk read / unread
 * updates of the selected notifications.
 */
module NotificationsAdmin {
  import opened Wrappers
  import opened Calendar
  import opened NotificationsModels
  import opened Portal
  import opened Selections

  /** The selected ids whose notification is unread (`queryset.filter(is_read=False)`). */
  function UnreadIn(notifications: seq<Notification>): NotificationId -> bool {
    (i: NotificationId) => i < |notifications| && !notifications[i].isRead
  }

  /** The notifications after `filter(is_read=False).update(is_read=True, read_at=now)` on the selection. */
  function ReadMarked(notifications: seq<Notification>, selection: seq<NotificationId>, now: DateTime): (marked: seq<Notification>)
    ensures |marked| == |notifications|
  {
    seq(|notifications|, i requires 0 <= i < |notifications| =>
      if i in selection then MarkedRead(notifications[i], now) else notifications[i])
  }

  /**
   * Afterwards every selected notification is read: an unread one at `now`,
   * an already-read one keeping its original reading time; recipient, title,
   * message and the rest are kept, and unselected notifications are untouched.
   */
  lemma ReadMarkedSpec(notifications: seq<Notification>, selection: seq<NotificationId>, now: DateTime)
    ensures forall i :: 0 <= i < |notifications| && i in selection ==>
      ReadMarked(notifications, selection, now)[i].isRead
      && ReadMarked(notifications, selection, now)[i].readAt == (if notifications[i].isRead then notifications[i].readAt else Some(now))
      && ReadMarked(notifications, selection, now)[i]
           == notifications[i].(isRead := true, readAt := ReadMarked(notifications, selection, now)[i].readAt)
    ensures forall i :: 0 <= i < |notifications| && i !in selection ==>
      ReadMarked(notifications, selection, now)[i] == notifications[i]
  {
  }

  /** Marking the same selection read again, at any later time, changes nothing. */
  lemma ReadMarkedIdempotent(notifications: seq<Notification>, selection: seq<NotificationId>, t1: DateTime, t2: DateTime)
    ensures ReadMarked(ReadMarked(notifications, selection, t1), selection, t2) == ReadMarked(notifications, selection, t1)
  {
    var once := ReadMarked(notifications, selection, t1);
    var twice := ReadMarked(once, selection, t2);
    forall i | 0 <= i < |notifications|
      ensures twice[i] == once[i]
    {
    }
  }

  /**
   * `mark_as_read`: one bulk update; the count is the number of selected
   * notifications that were unread.
   */
  method MarkAsRead(db: Database, selection: seq<NotificationId>, now: DateTime) returns (updated: nat)
    requires db.Valid() && forall i :: i in selection ==> i < |db.t.notifications|
    requires Distinct(selection)
    modifies db
    ensures db.Valid()
    ensures updated == |Filter(selection, UnreadIn(old(db.t).notifications))|
    ensures db.t == old(db.t).(notifications := ReadMarked(old(db.t).notifications, selection, now))
  {
    updated := |Filter(selection, UnreadIn(db.t.notifications))|;
    db.ReplaceNotifications(ReadMarked(db.t.notifications, selection, now));
  }

  /** The notifications after `queryset.update(is_read=False, read_at=None)` on the selection. */
  function UnreadMarked(notifications: seq<Notification>, selection: seq<NotificationId>): (marked: seq<Notification>)
    ensures |marked| == |notifications|
  {
    seq(|notifications|, i requires 0 <= i < |notifications| =>
      if i in selection then MarkedUnread(notifications[i]) else notifications[i])
  }

  /**
   * Every selected notification ends unread with no reading time, whatever
   * its state; the others are kept. Marking read afterwards stamps the new
   * time: unreading erases the first reading.
   */
  lemma UnreadMarkedSpec(notifications: seq<Notification>, selection: seq<NotificationId>, now: DateTime)
    ensures forall i :: 0 <= i < |notifications| && i in selection ==>
      UnreadMarked(notifications, selection)[i] == notifications[i].(isRead := false, readAt := None)
    ensures forall i :: 0 <= i < |notifications| && i !in selection ==>
      UnreadMarked(notifications, selection)[i] == notifications[i]
    ensures forall i :: 0 <= i < |notifications| && i in selection ==>
      ReadMarked(UnreadMarked(notifications, selection), selection, now)[i].readAt == Some(now)
  {
  }

  /** `mark_as_unread`: one bulk update; the count is the number of selected rows. */
  method MarkAsUnread(db: Database, selection: seq<NotificationId>) returns (updated: nat)
    requires db.Valid() && Distinct(selection) && forall i :: i in selection ==> i < |db.t.notifications|
    modifies db
    ensures db.Valid()
    ensures updated == |selection|
    ensures db.t == old(db.t).(notifications := UnreadMarked(old(db.t).notifications, selection))
  {
    db.ReplaceNotifications(UnreadMarked(db.t.notifications, selection));
    updated := |selection|;
  }
}

=== FILE: notifications_models.dfy ===
/**
 * Notifications (notifications/models.py): in-app messages to one user, with
 * a read flag and the time it was first read.
 */
module NotificationsModels {
  import opened Wrappers
  import opened Calendar
  import opened AccountsModels

  type NotificationId = nat

  datatype NotificationType = Info | Warning | Success | Danger

  datatype NotificationCategory = Registration | Application | Report | Evaluation | Placement | AtRisk | System

  datatype Notification = Notification(
    recipient: UserId,
    kind: NotificationType,
    category: NotificationCategory,
    title: string,
    message: string,
    link: string,
    isRead: bool,
    readAt: Option<DateTime>)

  const DEFAULT_NOTIFICATION_TYPE: NotificationType := Info
  const DEFAULT_NOTIFICATION_CATEGORY: NotificationCategory := System

  /** A freshly created notification: unread, never read, with the given content. */
  function NewNotification(recipient: UserId, title: string, message: string,
                           kind: NotificationType, category: NotificationCategory, link: string): (n: Notification)
    ensures !n.isRead && n.readAt.None?
    ensures n.recipient == recipient && n.title == title && n.message == message
    ensures n.kind == kind && n.category == category && n.link == link
  {
    Notification(recipient, kind, category, title, message, link, false, None)
  }

  /**
   * `mark_as_read` on one notification: an unread one becomes read at `now`;
   * an already-read one is returned as it is.
   */
  function MarkedRead(n: Notification, now: DateTime): (m: Notification)
    ensures m.isRead
    ensures m.readAt == if n.isRead then n.readAt else Some(now)
    ensures m == n.(isRead := m.isRead, readAt := m.readAt)
  {
    if n.isRead then n else n.(isRead := true, readAt := Some(now))
  }

  /** Marking read twice keeps the first reading time. */
  lemma MarkedReadIdempotent(n: Notification, t1: DateTime, t2: DateTime)
    ensures MarkedRead(MarkedRead(n, t1), t2) == MarkedRead(n, t1)
  {
  }

  /** `mark_as_unread` (an admin bulk update) on one notification. */
  function MarkedUnread(n: Notification): (m: Notification)
    ensures !m.isRead && m.readAt.None?
    ensures m == n.(isRead := m.isRead, readAt := m.readAt)
  {
    n.(isRead := false, readAt := None)
  }

  /** A notification never read is the same whether marked unread or not, and reading undoes unreading. */
  lemma UnreadThenRead(n: Notification, now: DateTime)
    ensures MarkedRead(MarkedUnread(n), now) == n.(isRead := true, readAt := Some(now))
    ensures !n.isRead && n.readAt.None? ==> MarkedUnread(n) == n
  {
  }
}

=== FILE: portal.dfy ===
/**
 * The portal's persistent state: one table per model, keyed by primary key,
 * with the uniqueness and foreign-key constraints the models declare as an
 * invariant, and the model-layer methods that change rows and save them.
 */
module Portal {
  import opened Wrappers
  import opened Calendar
  import opened AccountsModels
  import opened InternshipsModels
  import opened ReportsModels
  import opened EvaluationsModels
  import opened NotificationsModels

  /** The outcome of `create_user` / `create_superuser`. */
  datatype UserCreation =
    | Created(id: UserId)
    | EmailRequired       // `ValueError('Email is required')`
    | EmailTaken          // the unique constraint on `email`
    | StaffRequired       // `ValueError('Superuser must have is_staff=True')`
    | SuperuserRequired   // `ValueError('Superuser must have is_superuser=True')`

  // ---- table constraints (unique and foreign keys), as predicates on table values ----

  /** Unique e-mail addresses; keys below the counter. */
  ghost predicate UsersOk(users: map<UserId, User>, next: nat) {
    (forall id :: id in users ==> id < next)
    && (forall a, b :: a in users && b in users && a != b ==> users[a].email != users[b].email)
  }

  /** A student profile's own constraint: its approval time, when set, is a real instant. */
  ghost predicate StudentOk(p: StudentProfile) {
    p.approvedAt.Some? ==> ValidDateTime(p.approvedAt.value)
  }

  /** A profile belongs to an existing user; NIMs are unique. */
  ghost predicate StudentsOk(students: map<UserId, StudentProfile>, users: map<UserId, User>) {
    students.Keys <= users.Keys
    && (forall id :: id in students ==> StudentOk(students[id]))
    && (forall a, b :: a in students && b in students && a != b ==> students[a].nim != students[b].nim)
  }

  ghost predicate SupervisorsOk(supervisors: map<UserId, SupervisorProfile>, users: map<UserId, User>) {
    supervisors.Keys <= users.Keys
  }

  /** Applications refer to existing students and postings, at most one per (student, posting). */
  ghost predicate ApplicationsOk(applications: map<ApplicationId, Application>, next: nat,
                                 students: map<UserId, StudentProfile>, jobs: map<JobId, JobPosting>) {
    (forall id :: id in applications ==>
      id < next && applications[id].student in students && applications[id].job in jobs)
    && (forall a, b :: a in applications && b in applications && a != b ==>
          ApplicationKey(applications[a]) != ApplicationKey(applications[b]))
  }

  /** A placement's own constraints: existing profiles, real dates. */
  ghost predicate PlacementOk(p: Placement, students: map<UserId, StudentProfile>,
                              supervisors: map<UserId, SupervisorProfile>) {
    p.student in students
    && (p.supervisor.Some? ==> p.supervisor.value in supervisors)
    && ValidDate(p.details.startDate) && ValidDate(p.details.endDate)
    && (p.confirmedAt.Some? ==> ValidDateTime(p.confirmedAt.value))
  }

  ghost predicate PlacementsOk(placements: map<PlacementId, Placement>, next: nat,
                               students: map<UserId, StudentProfile>, supervisors: map<UserId, SupervisorProfile>) {
    forall id :: id in placements ==> id < next && PlacementOk(placements[id], students, supervisors)
  }

  /** A report's own constraints: an existing placement, a month in 1..12, a real submission time. */
  ghost predicate ReportOk(r: MonthlyReport, placements: map<PlacementId, Placement>) {
    r.placement in placements && 1 <= r.month <= 12
    && (r.submittedAt.Some? ==> ValidDateTime(r.submittedAt.value))
  }

  /** Every report is well formed; at most one exists per (placement, month, year). */
  ghost predicate ReportsOk(reports: map<ReportId, MonthlyReport>, next: nat, placements: map<PlacementId, Placement>) {
    (forall id :: id in reports ==> id < next && ReportOk(reports[id], placements))
    && (forall a, b :: a in reports && b in reports && a != b ==> ReportKey(reports[a]) != ReportKey(reports[b]))
  }

  /** An evaluation's own constraints: existing rows, 23 ratings in 1..5, real dates. */
  ghost predicate EvaluationOk(e: Evaluation, placements: map<PlacementId, Placement>,
                               supervisors: map<UserId, SupervisorProfile>) {
    e.placement in placements && e.supervisor in supervisors
    && |e.assessment.ratings| == 23 && RatingsInRange(e.assessment.ratings)
    && ValidDate(e.deadline)
    && (e.submittedAt.Some? ==> ValidDateTime(e.submittedAt.value))
  }

  /** Every evaluation is well formed; at most one exists per (placement, type). */
  ghost predicate EvaluationsOk(evaluations: map<EvaluationId, Evaluation>, placements: map<PlacementId, Placement>,
                                supervisors: map<UserId, SupervisorProfile>) {
    (forall id :: id in evaluations ==> EvaluationOk(evaluations[id], placements, supervisors))
    && (forall a, b :: a in evaluations && b in evaluations && a != b ==>
          EvaluationKey(evaluations[a]) != EvaluationKey(evaluations[b]))
  }

  ghost predicate NotificationsOk(notifications: seq<Notification>, users: map<UserId, User>) {
    forall i :: 0 <= i < |notifications| ==> notifications[i].recipient in users
  }

  /** The rows of every table, and the auto-increment counters of the tables this model inserts into. */
  datatype Tables = Tables(
    users: map<UserId, User>,
    students: map<UserId, StudentProfile>,
    supervisors: map<UserId, SupervisorProfile>,
    jobs: map<JobId, JobPosting>,
    applications: map<ApplicationId, Application>,
    placements: map<PlacementId, Placement>,
    reports: map<ReportId, MonthlyReport>,
    evaluations: map<EvaluationId, Evaluation>,
    /** Notification i has primary key i. */
    notifications: seq<Notification>,
    nextUserId: nat,
    nextApplicationId: nat,
    nextPlacementId: nat,
    nextReportId: nat)

  /** The unique and foreign-key constraints of every table. */
  ghost predicate TablesOk(t: Tables) {
    UsersOk(t.users, t.nextUserId)
    && StudentsOk(t.students, t.users)
    && SupervisorsOk(t.supervisors, t.users)
    && ApplicationsOk(t.applications, t.nextApplicationId, t.students, t.jobs)
    && PlacementsOk(t.placements, t.nextPlacementId, t.students, t.supervisors)
    && ReportsOk(t.reports, t.nextReportId, t.placements)
    && EvaluationsOk(t.evaluations, t.placements, t.supervisors)
    && NotificationsOk(t.notifications, t.users)
  }

  const EMPTY: Tables := Tables(map[], map[], map[], map[], map[], map[], map[], map[], [], 0, 0, 0, 0)

  lemma EmptyOk()
    ensures TablesOk(EMPTY)
  {
  }

  // ---- queries ----

  /** Whether some user already has this e-mail address (`User.objects.filter(email=...).exists()`). */
  predicate EmailRegistered(t: Tables, email: string) {
    exists id :: id in t.users && t.users[id].email == email
  }

  /** Whether some student profile already has this NIM. */
  predicate NimRegistered(t: Tables, nim: string) {
    exists id :: id in t.students && t.students[id].nim == nim
  }

  /** Whether the student has an ACTIVE placement. */
  predicate HasActivePlacement(t: Tables, student: UserId) {
    exists id :: id in t.placements && t.placements[id].student == student
                 && t.placements[id].status == PlacementStatus.Active
  }

  /** Whether the student already applied to the posting (`Application.objects.filter(student=..., job_posting=...)`). */
  predicate HasApplied(t: Tables, student: UserId, job: JobId) {
    exists id :: id in t.applications && ApplicationKey(t.applications[id]) == (student, job)
  }

  /** Whether a report exists for (placement, month, year). */
  predicate ReportExists(t: Tables, placement: PlacementId, month: int, year: int) {
    exists id :: id in t.reports && ReportKey(t.reports[id]) == (placement, month, year)
  }

  // ---- how the table constraints survive single-row changes ----

  lemma StudentAdded(t: Tables, id: UserId, p: StudentProfile)
    requires TablesOk(t) && id in t.users && id !in t.students && StudentOk(p) && !NimRegistered(t, p.nim)
    ensures TablesOk(t.(students := t.students[id := p]))
  {
    var students := t.students[id := p];
    assert t.students.Keys <= students.Keys;
    ApplicationsOnMoreStudents(t.applications, t.nextApplicationId, t.students, students, t.jobs);
    PlacementsOnMoreStudents(t.placements, t.nextPlacementId, t.students, students, t.supervisors);
  }

  /** The application constraints only look at which students exist. */
  lemma ApplicationsOnMoreStudents(applications: map<ApplicationId, Application>, next: nat,
                                   before: map<UserId, StudentProfile>, after: map<UserId, StudentProfile>,
                                   jobs: map<JobId, JobPosting>)
    requires ApplicationsOk(applications, next, before, jobs) && before.Keys <= after.Keys
    ensures ApplicationsOk(applications, next, after, jobs)
  {
    forall id | id in applications
      ensures applications[id].student in after
    {
      assert applications[id].student in before.Keys;
    }
  }

  /** The placement constraints only look at which students exist. */
  lemma PlacementsOnMoreStudents(placements: map<PlacementId, Placement>, next: nat,
                                 before: map<UserId, StudentProfile>, after: map<UserId, StudentProfile>,
                                 supervisors: map<UserId, SupervisorProfile>)
    requires PlacementsOk(placements, next, before, supervisors) && before.Keys <= after.Keys
    ensures PlacementsOk(placements, next, after, supervisors)
  {
    forall id | id in placements
      ensures PlacementOk(placements[id], after, supervisors)
    {
      assert placements[id].student in before.Keys;
    }
  }

  lemma ApplicationAdded(t: Tables, a: Application)
    requires TablesOk(t) && a.student in t.students && a.job in t.jobs && !HasApplied(t, a.student, a.job)
    ensures t.nextApplicationId !in t.applications
    ensures TablesOk(t.(applications := t.applications[t.nextApplicationId := a],
                        nextApplicationId := t.nextApplicationId + 1))
  {
    ApplicationsInserted(t.applications, t.nextApplicationId, t.students, t.jobs, a);
  }

  lemma ApplicationsInserted(applications: map<ApplicationId, Application>, next: nat,
                             students: map<UserId, StudentProfile>, jobs: map<JobId, JobPosting>, a: Application)
    requires ApplicationsOk(applications, next, students, jobs) && a.student in students && a.job in jobs
    requires forall id :: id in applications ==> ApplicationKey(applications[id]) != (a.student, a.job)
    ensures next !in applications
    ensures ApplicationsOk(applications[next := a], next + 1, students, jobs)
  {
  }

  lemma PlacementAdded(t: Tables, p: Placement)
    requires TablesOk(t) && PlacementOk(p, t.students, t.supervisors)
    ensures t.nextPlacementId !in t.placements
    ensures TablesOk(t.(placements := t.placements[t.nextPlacementId := p], nextPlacementId := t.nextPlacementId + 1))
  {
    var placements := t.placements[t.nextPlacementId := p];
    assert t.placements.Keys <= placements.Keys;
    ReportsOnSameKeys(t.reports, t.nextReportId, t.placements, placements);
    EvaluationsOnSameKeys(t.evaluations, t.placements, placements, t.supervisors);
  }

  lemma PlacementReplaced(t: Tables, id: PlacementId, p: Placement)
    requires TablesOk(t) && id in t.placements && PlacementOk(p, t.students, t.supervisors)
    ensures TablesOk(t.(placements := t.placements[id := p]))
  {
    var placements := t.placements[id := p];
    assert t.placements.Keys <= placements.Keys;
    ReportsOnSameKeys(t.reports, t.nextReportId, t.placements, placements);
    EvaluationsOnSameKeys(t.evaluations, t.placements, placements, t.supervisors);
  }

  /** The report constraints only look at which placements exist. */
  lemma ReportsOnSameKeys(reports: map<ReportId, MonthlyReport>, next: nat,
                          before: map<PlacementId, Placement>, after: map<PlacementId, Placement>)
    requires ReportsOk(reports, next, before) && before.Keys <= after.Keys
    ensures ReportsOk(reports, next, after)
  {
    forall id | id in reports
      ensures ReportOk(reports[id], after)
    {
      assert reports[id].placement in before.Keys;
    }
  }

  /** The evaluation constraints only look at which placements exist. */
  lemma EvaluationsOnSameKeys(evaluations: map<EvaluationId, Evaluation>,
                              before: map<PlacementId, Placement>, after: map<PlacementId, Placement>,
                              supervisors: map<UserId, SupervisorProfile>)
    requires EvaluationsOk(evaluations, before, supervisors) && before.Keys <= after.Keys
    ensures EvaluationsOk(evaluations, after, supervisors)
  {
    forall id | id in evaluations
      ensures EvaluationOk(evaluations[id], after, supervisors)
    {
      assert evaluations[id].placement in before.Keys;
    }
  }

  lemma ReportAdded(t: Tables, r: MonthlyReport)
    requires TablesOk(t) && ReportOk(r, t.placements) && !ReportExists(t, r.placement, r.month, r.year)
    ensures t.nextReportId !in t.reports
    ensures TablesOk(t.(reports := t.reports[t.nextReportId := r], nextReportId := t.nextReportId + 1))
  {
    ReportsInserted(t.reports, t.nextReportId, t.placements, r);
  }

  lemma ReportsInserted(reports: map<ReportId, MonthlyReport>, next: nat,
                        placements: map<PlacementId, Placement>, r: MonthlyReport)
    requires ReportsOk(reports, next, placements) && ReportOk(r, placements)
    requires forall id :: id in reports ==> ReportKey(reports[id]) != ReportKey(r)
    ensures next !in reports
    ensures ReportsOk(reports[next := r], next + 1, placements)
  {
  }


  lemma UserAdded(t: Tables, u: User)
    requires TablesOk(t) && !EmailRegistered(t, u.email)
    ensures t.nextUserId !in t.users
    ensures TablesOk(t.(users := t.users[t.nextUserId := u], nextUserId := t.nextUserId + 1))
  {
  }

  lemma UserRenamed(t: Tables, id: UserId, first: string, last: string)
    requires TablesOk(t) && id in t.users
    ensures TablesOk(t.(users := t.users[id := t.users[id].(firstName := first, lastName := last)]))
  {
  }

  lemma StudentReplaced(t: Tables, id: UserId, p: StudentProfile)
    requires TablesOk(t) && id in t.students && StudentOk(p) && p.nim == t.students[id].nim
    ensures TablesOk(t.(students := t.students[id := p]))
  {
    var students := t.students[id := p];
    assert t.students.Keys <= students.Keys;
    ApplicationsOnMoreStudents(t.applications, t.nextApplicationId, t.students, students, t.jobs);
    PlacementsOnMoreStudents(t.placements, t.nextPlacementId, t.students, students, t.supervisors);
  }

  lemma ReportReplaced(t: Tables, id: ReportId, r: MonthlyReport)
    requires TablesOk(t) && id in t.reports
    requires ReportOk(r, t.placements) && ReportKey(r) == ReportKey(t.reports[id])
    ensures TablesOk(t.(reports := t.reports[id := r]))
  {
    ReportsReplaced(t.reports, t.nextReportId, t.placements, id, r);
  }

  lemma ReportsReplaced(reports: map<ReportId, MonthlyReport>, next: nat,
                        placements: map<PlacementId, Placement>, id: ReportId, r: MonthlyReport)
    requires ReportsOk(reports, next, placements) && id in reports
    requires ReportOk(r, placements) && ReportKey(r) == ReportKey(reports[id])
    ensures ReportsOk(reports[id := r], next, placements)
  {
  }

  lemma EvaluationReplaced(t: Tables, id: EvaluationId, e: Evaluation)
    requires TablesOk(t) && id in t.evaluations
    requires EvaluationOk(e, t.placements, t.supervisors) && EvaluationKey(e) == EvaluationKey(t.evaluations[id])
    ensures TablesOk(t.(evaluations := t.evaluations[id := e]))
  {
    EvaluationsReplaced(t.evaluations, t.placements, t.supervisors, id, e);
  }

  lemma EvaluationsReplaced(evaluations: map<EvaluationId, Evaluation>, placements: map<PlacementId, Placement>,
                            supervisors: map<UserId, SupervisorProfile>, id: EvaluationId, e: Evaluation)
    requires EvaluationsOk(evaluations, placements, supervisors) && id in evaluations
    requires EvaluationOk(e, placements, supervisors) && EvaluationKey(e) == EvaluationKey(evaluations[id])
    ensures EvaluationsOk(evaluations[id := e], placements, supervisors)
  {
  }

  lemma NotificationReplaced(t: Tables, i: NotificationId, n: Notification)
    requires TablesOk(t) && i < |t.notifications| && n.recipient == t.notifications[i].recipient
    ensures TablesOk(t.(notifications := t.notifications[i := n]))
  {
  }

  lemma NotificationsAppended(t: Tables, created: seq<Notification>)
    requires TablesOk(t) && forall k :: 0 <= k < |created| ==> created[k].recipient in t.users
    ensures TablesOk(t.(notifications := t.notifications + created))
  {
  }

  lemma StudentsRewritten(t: Tables, students: map<UserId, StudentProfile>)
    requires TablesOk(t) && students.Keys == t.students.Keys
    requires forall id :: id in students ==> StudentOk(students[id]) && students[id].nim == t.students[id].nim
    ensures TablesOk(t.(students := students))
  {
    assert t.students.Keys <= students.Keys;
    ApplicationsOnMoreStudents(t.applications, t.nextApplicationId, t.students, students, t.jobs);
    PlacementsOnMoreStudents(t.placements, t.nextPlacementId, t.students, students, t.supervisors);
  }

  lemma ApplicationsRewritten(t: Tables, applications: map<ApplicationId, Application>)
    requires TablesOk(t) && applications.Keys == t.applications.Keys
    requires forall id :: id in applications ==> ApplicationKey(applications[id]) == ApplicationKey(t.applications[id])
    ensures TablesOk(t.(applications := applications))
  {
    forall id | id in applications
      ensures id < t.nextApplicationId && applications[id].student in t.students && applications[id].job in t.jobs
    {
      assert id in t.applications;
    }
  }

  lemma ReportsRewritten(t: Tables, reports: map<ReportId, MonthlyReport>)
    requires TablesOk(t) && reports.Keys == t.reports.Keys
    requires forall id :: id in reports ==>
      ReportOk(reports[id], t.placements) && ReportKey(reports[id]) == ReportKey(t.reports[id])
    ensures TablesOk(t.(reports := reports))
  {
    forall id | id in reports
      ensures id < t.nextReportId
    {
      assert id in t.reports;
    }
  }

  lemma EvaluationsRewritten(t: Tables, evaluations: map<EvaluationId, Evaluation>)
    requires TablesOk(t) && evaluations.Keys == t.evaluations.Keys
    requires forall id :: id in evaluations ==>
      EvaluationOk(evaluations[id], t.placements, t.supervisors)
      && EvaluationKey(evaluations[id]) == EvaluationKey(t.evaluations[id])
    ensures TablesOk(t.(evaluations := evaluations))
  {
  }

  /** The database: the current contents of every table. */
  class Database {
    var t: Tables

    ghost predicate Valid()
      reads this
    {
      TablesOk(t)
    }

    /** An empty database. */
    constructor ()
      ensures Valid() && t == EMPTY
    {
      t := EMPTY;
      EmptyOk();
    }

    /**
     * `UserManager.create_user`: an empty e-mail is refused, a registered one
     * violates the unique constraint; otherwise a new user is inserted. Its
     * `save` finds no student profile yet, so both name fields stay empty.
     */
    method CreateUser(email: string, role: Role, isStaff: bool, isSuperuser: bool) returns (r: UserCreation)
      requires Valid()
      modifies this
      ensures Valid()
      ensures r.Created? || r == EmailRequired || r == EmailTaken
      ensures r == EmailRequired <==> email == []
      ensures r == EmailTaken <==> email != [] && EmailRegistered(old(t), email)
      ensures r.Created? ==> r.id == old(t).nextUserId && r.id !in old(t).users
                             && t == old(t).(users := old(t).users[r.id := User(email, role, [], [], isStaff, isSuperuser)],
                                             nextUserId := r.id + 1)
      ensures !r.Created? ==> unchanged(this)
    {
      if email == [] {
        return EmailRequired;
      }
      if EmailRegistered(t, email) {
        return EmailTaken;
      }
      var id := t.nextUserId;
      var u := User(email, role, [], [], isStaff, isSuperuser);
      UserAdded(t, u);
      t := t.(users := t.users[id := u], nextUserId := id + 1);
      r := Created(id);
    }

    /**
     * `UserManager.create_superuser`: `is_staff`, `is_superuser` and `role`
     * default to true, true and ADMIN; an explicit false flag is refused
     * before any insertion.
     */
    method CreateSuperuser(email: string, isStaff: Option<bool>, isSuperuser: Option<bool>, role: Option<Role>)
      returns (r: UserCreation)
      requires Valid()
      modifies this
      ensures Valid()
      ensures r == StaffRequired <==> isStaff == Some(false)
      ensures r == SuperuserRequired <==> isStaff != Some(false) && isSuperuser == Some(false)
      ensures r.Created? <==> isStaff != Some(false) && isSuperuser != Some(false) && email != []
                              && !EmailRegistered(old(t), email)
      ensures r.Created? ==> r.id == old(t).nextUserId && r.id !in old(t).users
                             && t == old(t).(users := old(t).users[r.id := User(email, role.GetOr(Admin), [], [], true, true)],
                                             nextUserId := r.id + 1)
      ensures !r.Created? ==> unchanged(this)
    {
      if isStaff.GetOr(true) != true {
        return StaffRequired;
      }
      if isSuperuser.GetOr(true) != true {
        return SuperuserRequired;
      }
      r := CreateUser(email, role.GetOr(Admin), true, true);
    }

    /**
     * `User.save`: for a user with a student profile, the name fields are
     * derived from the profile's full name. `false` when that raises, and
     * then nothing is saved.
     */
    method SaveUser(id: UserId) returns (saved: bool)
      requires Valid() && id in t.users
      modifies this
      ensures Valid()
      ensures saved <==> !(id in t.students && NameParts(t.students[id].fullName).None?)
      ensures saved && id in t.students ==>
        var (first, last) := NameParts(t.students[id].fullName).value;
        t == old(t).(users := old(t).users[id := old(t).users[id].(firstName := first, lastName := last)])
      ensures !(saved && id in t.students) ==> unchanged(this)
    {
      if id !in t.students {
        return true;
      }
      match NameParts(t.students[id].fullName)
      case None =>
        saved := false;
      case Some((first, last)) =>
        UserRenamed(t, id, first, last);
        t := t.(users := t.users[id := t.users[id].(firstName := first, lastName := last)]);
        saved := true;
    }

    /** `StudentProfile.check_at_risk_status` for the student whose user id is `id`. */
    method CheckAtRiskStatus(id: UserId, now: DateTime) returns (flagged: bool)
      requires Valid() && id in t.students && ValidDateTime(now)
      modifies this
      ensures Valid()
      ensures flagged == AtRiskCheck(old(t).students[id], HasActivePlacement(old(t), id), now).1
      ensures t == old(t).(students := old(t).students[id := AtRiskCheck(old(t).students[id], HasActivePlacement(old(t), id), now).0])
    {
      var (profile, raised) := AtRiskCheck(t.students[id], HasActivePlacement(t, id), now);
      StudentReplaced(t, id, profile);
      t := t.(students := t.students[id := profile]);
      flagged := raised;
    }

    /**
     * `Evaluation.calculate_overall_rating`: the mean of the non-null
     * ratings, stored and saved; `None` when every rating is null, and then
     * the row is left as it is (`Recalculated` is the identity there).
     */
    method CalculateOverallRating(id: EvaluationId) returns (rating: Option<real>)
      requires Valid() && id in t.evaluations
      modifies this
      ensures Valid()
      ensures rating == Mean(old(t).evaluations[id].assessment.ratings)
      ensures t == old(t).(evaluations := old(t).evaluations[id := Recalculated(old(t).evaluations[id])])
    {
      var e := t.evaluations[id];
      rating := Mean(e.assessment.ratings);
      var updated := Recalculated(e);
      EvaluationReplaced(t, id, updated);
      t := t.(evaluations := t.evaluations[id := updated]);
    }

    /**
     * `MonthlyReport.check_late_submission` on a stored report: `None` when
     * the deadline cannot be built (nothing is saved); otherwise whether it
     * was found late, with `is_late` raised and saved in that case.
     */
    method CheckLate(id: ReportId) returns (late: Option<bool>)
      requires Valid() && id in t.reports
      modifies this
      ensures Valid()
      ensures late.None? <==> CheckLateSubmission(old(t).reports[id]).None?
      ensures late.Some? ==> late.value == CheckLateSubmission(old(t).reports[id]).value.1
                             && t == old(t).(reports := old(t).reports[id := CheckLateSubmission(old(t).reports[id]).value.0])
      ensures late.None? ==> unchanged(this)
    {
      match CheckLateSubmission(t.reports[id])
      case None =>
        late := None;
      case Some((r, found)) =>
        ReportReplaced(t, id, r);
        t := t.(reports := t.reports[id := r]);
        late := Some(found);
    }

    /** `Application.objects.create`: the application is inserted under the next id. */
    method InsertApplication(a: Application) returns (id: ApplicationId)
      requires Valid() && a.student in t.students && a.job in t.jobs && !HasApplied(t, a.student, a.job)
      modifies this
      ensures Valid()
      ensures id == old(t).nextApplicationId && id !in old(t).applications
      ensures t == old(t).(applications := old(t).applications[id := a], nextApplicationId := id + 1)
    {
      id := t.nextApplicationId;
      ApplicationAdded(t, a);
      t := t.(applications := t.applications[id := a], nextApplicationId := id + 1);
    }

    /** `Placement.objects.create`: the placement is inserted under the next id. */
    method InsertPlacement(p: Placement) returns (id: PlacementId)
      requires Valid() && PlacementOk(p, t.students, t.supervisors)
      modifies this
      ensures Valid()
      ensures id == old(t).nextPlacementId && id !in old(t).placements
      ensures t == old(t).(placements := old(t).placements[id := p], nextPlacementId := id + 1)
    {
      id := t.nextPlacementId;
      PlacementAdded(t, p);
      t := t.(placements := t.placements[id := p], nextPlacementId := id + 1);
    }

    /** `StudentProfile.save()` of a stored profile: its row is replaced, its NIM kept. */
    method UpdateStudent(id: UserId, p: StudentProfile)
      requires Valid() && id in t.students && StudentOk(p) && p.nim == t.students[id].nim
      modifies this
      ensures Valid()
      ensures t == old(t).(students := old(t).students[id := p])
    {
      StudentReplaced(t, id, p);
      t := t.(students := t.students[id := p]);
    }

    /** `MonthlyReport.save()` of a new report: it is inserted under the next id. */
    method InsertReport(r: MonthlyReport) returns (id: ReportId)
      requires Valid() && ReportOk(r, t.placements) && !ReportExists(t, r.placement, r.month, r.year)
      modifies this
      ensures Valid()
      ensures id == old(t).nextReportId && id !in old(t).reports
      ensures t == old(t).(reports := old(t).reports[id := r], nextReportId := id + 1)
    {
      id := t.nextReportId;
      ReportAdded(t, r);
      t := t.(reports := t.reports[id := r], nextReportId := id + 1);
    }

    /** `MonthlyReport.save()` of a stored report: its row is replaced, its key kept. */
    method UpdateReport(id: ReportId, r: MonthlyReport)
      requires Valid() && id in t.reports && ReportOk(r, t.placements) && ReportKey(r) == ReportKey(t.reports[id])
      modifies this
      ensures Valid()
      ensures t == old(t).(reports := old(t).reports[id := r])
    {
      ReportReplaced(t, id, r);
      t := t.(reports := t.reports[id := r]);
    }

    /** `InternshipPlacement.save()` of a stored placement: its row is replaced. */
    method UpdatePlacement(id: PlacementId, p: Placement)
      requires Valid() && id in t.placements && PlacementOk(p, t.students, t.supervisors)
      modifies this
      ensures Valid()
      ensures t == old(t).(placements := old(t).placements[id := p])
    {
      PlacementReplaced(t, id, p);
      t := t.(placements := t.placements[id := p]);
    }

    /** `Evaluation.save()` of a stored evaluation: its row is replaced, its key kept. */
    method UpdateEvaluation(id: EvaluationId, e: Evaluation)
      requires Valid() && id in t.evaluations
      requires EvaluationOk(e, t.placements, t.supervisors) && EvaluationKey(e) == EvaluationKey(t.evaluations[id])
      modifies this
      ensures Valid()
      ensures t == old(t).(evaluations := old(t).evaluations[id := e])
    {
      EvaluationReplaced(t, id, e);
      t := t.(evaluations := t.evaluations[id := e]);
    }

    /** A bulk `update()` of student profiles: the same rows, NIMs kept. */
    method ReplaceStudents(students: map<UserId, StudentProfile>)
      requires Valid() && students.Keys == t.students.Keys
      requires forall id :: id in students ==> StudentOk(students[id]) && students[id].nim == t.students[id].nim
      modifies this
      ensures Valid()
      ensures t == old(t).(students := students)
    {
      StudentsRewritten(t, students);
      t := t.(students := students);
    }

    /** A bulk `update()` of applications: the same rows, keys kept. */
    method ReplaceApplications(applications: map<ApplicationId, Application>)
      requires Valid() && applications.Keys == t.applications.Keys
      requires forall id :: id in applications ==> ApplicationKey(applications[id]) == ApplicationKey(t.applications[id])
      modifies this
      ensures Valid()
      ensures t == old(t).(applications := applications)
    {
      ApplicationsRewritten(t, applications);
      t := t.(applications := applications);
    }

    /** A bulk `update()` of reports: the same rows, keys kept. */
    method ReplaceReports(reports: map<ReportId, MonthlyReport>)
      requires Valid() && reports.Keys == t.reports.Keys
      requires forall id :: id in reports ==>
        ReportOk(reports[id], t.placements) && ReportKey(reports[id]) == ReportKey(t.reports[id])
      modifies this
      ensures Valid()
      ensures t == old(t).(reports := reports)
    {
      ReportsRewritten(t, reports);
      t := t.(reports := reports);
    }

    /** A bulk `update()` of evaluations: the same rows, keys kept. */
    method ReplaceEvaluations(evaluations: map<EvaluationId, Evaluation>)
      requires Valid() && evaluations.Keys == t.evaluations.Keys
      requires forall id :: id in evaluations ==>
        EvaluationOk(evaluations[id], t.placements, t.supervisors)
        && EvaluationKey(evaluations[id]) == EvaluationKey(t.evaluations[id])
      modifies this
      ensures Valid()
      ensures t == old(t).(evaluations := evaluations)
    {
      EvaluationsRewritten(t, evaluations);
      t := t.(evaluations := evaluations);
    }

    /** A bulk `update()` of notifications: the same rows, recipients kept. */
    method ReplaceNotifications(notifications: seq<Notification>)
      requires Valid() && |notifications| == |t.notifications|
      requires forall i :: 0 <= i < |notifications| ==> notifications[i].recipient == t.notifications[i].recipient
      modifies this
      ensures Valid()
      ensures t == old(t).(notifications := notifications)
    {
      t := t.(notifications := notifications);
    }

    /** `Notification.mark_as_read` on notification i. */
    method MarkAsRead(i: NotificationId, now: DateTime)
      requires Valid() && i < |t.notifications|
      modifies this
      ensures Valid()
      ensures t == old(t).(notifications := old(t).notifications[i := MarkedRead(old(t).notifications[i], now)])
    {
      var n := MarkedRead(t.notifications[i], now);
      NotificationReplaced(t, i, n);
      t := t.(notifications := t.notifications[i := n]);
    }

    /** `Notification.send_to_user`: one new unread notification, appended. */
    method SendToUser(recipient: UserId, title: string, message: string,
                      kind: NotificationType := Info, category: NotificationCategory := System, link: string := [])
      returns (id: NotificationId)
      requires Valid() && recipient in t.users
      modifies this
      ensures Valid()
      ensures id == |old(t).notifications|
      ensures t == old(t).(notifications := old(t).notifications + [NewNotification(recipient, title, message, kind, category, link)])
    {
      id := |t.notifications|;
      var created := [NewNotification(recipient, title, message, kind, category, link)];
      NotificationsAppended(t, created);
      t := t.(notifications := t.notifications + created);
    }

    /** `Notification.send_to_multiple`: one notification per recipient, in order, with the same content. */
    method SendToMultiple(recipients: seq<UserId>, title: string, message: string,
                          kind: NotificationType := Info, category: NotificationCategory := System, link: string := [])
      returns (ids: seq<NotificationId>)
      requires Valid() && forall k :: 0 <= k < |recipients| ==> recipients[k] in t.users
      modifies this
      ensures Valid()
      ensures |ids| == |recipients|
      ensures t == old(t).(notifications := t.notifications)
      ensures |t.notifications| == |old(t).notifications| + |recipients|
      ensures t.notifications[..|old(t).notifications|] == old(t).notifications
      ensures forall k :: 0 <= k < |recipients| ==>
        ids[k] == |old(t).notifications| + k
        && t.notifications[ids[k]] == NewNotification(recipients[k], title, message, kind, category, link)
    {
      var created := seq(|recipients|, k requires 0 <= k < |recipients| =>
                           NewNotification(recipients[k], title, message, kind, category, link));
      var base := |t.notifications|;
      ids := seq(|recipients|, k => base + k);
      NotificationsAppended(t, created);
      t := t.(notifications := t.notifications + created);
    }
  }
}

=== FILE: reports_admin.dfy ===
/**
 * The monthly-report admin (reports/admin.py): the word-count column, the
 * `mark_reviewed` loop and the `request_revision` bulk update.
 */
module ReportsAdmin {
  import opened Wrappers
  import opened Calendar
  import opened AccountsModels
  import opened ReportsModels
  import opened ReportsForms
  import opened Portal
  import opened Selections

  // ---- the word-count column ---------------------------------------------------------

  datatype Colour = Green | Red

  /** The colour of the word-count column: green from 500 words on, red below. */
  function WordCountColour(r: MonthlyReport): Colour {
    if GetWordCount(r.content) >= MIN_WORDS then Green else Red
  }

  /**
   * The column and the form agree: content the report form accepts always
   * shows green, and a red report holds content the form would refuse.
   */
  lemma AcceptedContentShowsGreen(r: MonthlyReport, raw: ReportContent)
    requires ValidateReportForm(raw).Some?
    ensures WordCountColour(r.(content := ValidateReportForm(raw).value)) == Green
  {
    ValidateReportFormSpec(raw);
  }

  /** Green exactly at 500 words and above: 500 is green, 499 is red. */
  lemma ColourThreshold(r: MonthlyReport)
    ensures WordCountColour(r) == Green <==> GetWordCount(r.content) >= 500
  {
  }

  // ---- which reports the actions handle ----------------------------------------------

  /** The selected ids whose report is SUBMITTED (`queryset.filter(status='SUBMITTED')`). */
  function SubmittedIn(reports: map<ReportId, MonthlyReport>): ReportId -> bool {
    id => id in reports && reports[id].status == Submitted
  }

  // ---- mark_reviewed -----------------------------------------------------------------

  /** One report after the loop body: REVIEWED, by the acting admin, at `now`. */
  function Reviewed(r: MonthlyReport, reviewer: UserId, now: DateTime): MonthlyReport {
    r.(status := ReportStatus.Reviewed, reviewedBy := Some(reviewer), reviewedAt := Some(now))
  }

  /** The reports after the loop body ran on each of `rows` in turn. */
  function ReviewRows(reports: map<ReportId, MonthlyReport>, rows: seq<ReportId>, reviewer: UserId, now: DateTime)
    : (r: map<ReportId, MonthlyReport>)
    requires forall id :: id in rows ==> id in reports
    ensures r.Keys == reports.Keys
    decreases |rows|
  {
    if rows == [] then reports
    else
      var last := rows[|rows| - 1];
      assert forall id :: id in rows[..|rows| - 1] ==> id in rows;
      var before := ReviewRows(reports, rows[..|rows| - 1], reviewer, now);
      before[last := Reviewed(before[last], reviewer, now)]
  }

  /**
   * What the loop leaves: each report among `rows` reviewed once (a row met
   * twice gives the same result), every other report as it was.
   */
  lemma {:induction false} ReviewRowsSpec(reports: map<ReportId, MonthlyReport>, rows: seq<ReportId>,
                                          reviewer: UserId, now: DateTime)
    requires forall id :: id in rows ==> id in reports
    ensures forall id :: id in reports ==>
      ReviewRows(reports, rows, reviewer, now)[id]
        == (if id in rows then Reviewed(reports[id], reviewer, now) else reports[id])
    decreases |rows|
  {
    if rows != [] {
      var init := rows[..|rows| - 1];
      var last := rows[|rows| - 1];
      assert rows == init + [last];
      assert forall id :: id in init ==> id in rows;
      ReviewRowsSpec(reports, init, reviewer, now);
      forall id | id in reports
        ensures ReviewRows(reports, rows, reviewer, now)[id]
          == (if id in rows then Reviewed(reports[id], reviewer, now) else reports[id])
      {
        if id != last {
          assert id in rows <==> id in init;
        }
      }
    }
  }

  /**
   * `mark_reviewed`: the SUBMITTED reports of the selection are fetched once
   * and each is saved REVIEWED by the admin at `now`; the count is the
   * number of reports handled.
   */
  method MarkReviewed(db: Database, selection: seq<ReportId>, reviewer: UserId, now: DateTime) returns (updated: nat)
    requires db.Valid() && forall id :: id in selection ==> id in db.t.reports
    requires Distinct(selection)
    modifies db
    ensures db.Valid()
    ensures updated == |Filter(selection, SubmittedIn(old(db.t).reports))|
    ensures db.t == old(db.t).(reports := ReviewRows(old(db.t).reports, Filter(selection, SubmittedIn(old(db.t).reports)),
                                                      reviewer, now))
  {
    var rows := Filter(selection, SubmittedIn(db.t.reports));
    updated := ReviewAll(db, rows, reviewer, now);
  }

  /** The `for` loop over the fetched reports, counting them. */
  method ReviewAll(db: Database, rows: seq<ReportId>, reviewer: UserId, now: DateTime) returns (updated: nat)
    requires db.Valid() && forall id :: id in rows ==> id in db.t.reports
    modifies db
    ensures db.Valid()
    ensures updated == |rows|
    ensures db.t == old(db.t).(reports := ReviewRows(old(db.t).reports, rows, reviewer, now))
  {
    ghost var t0 := db.t;
    updated := 0;
    var i := 0;
    while i < |rows|
      invariant 0 <= i <= |rows| && updated == i
      invariant db.Valid()
      invariant db.t == t0.(reports := ReviewRows(t0.reports, rows[..i], reviewer, now))
    {
      assert rows[..i + 1][..i] == rows[..i];
      var id := rows[i];
      db.UpdateReport(id, Reviewed(db.t.reports[id], reviewer, now));
      updated := updated + 1;
      i := i + 1;
    }
    assert rows[..i] == rows;
  }

  /**
   * In terms of the selection: exactly its SUBMITTED reports become
   * REVIEWED with the reviewer fields set; every other report is untouched.
   */
  lemma MarkReviewedEffect(reports: map<ReportId, MonthlyReport>, selection: seq<ReportId>, reviewer: UserId, now: DateTime)
    requires forall id :: id in selection ==> id in reports
    ensures forall id :: id in reports ==>
      ReviewRows(reports, Filter(selection, SubmittedIn(reports)), reviewer, now)[id]
        == (if id in selection && reports[id].status == Submitted then Reviewed(reports[id], reviewer, now) else reports[id])
  {
    var rows := Filter(selection, SubmittedIn(reports));
    ReviewRowsSpec(reports, rows, reviewer, now);
    forall id | id in reports
      ensures id in rows <==> id in selection && reports[id].status == Submitted
    {
      assert SubmittedIn(reports)(id) <==> reports[id].status == Submitted;
    }
  }

  // ---- request_revision --------------------------------------------------------------

  /** The reports after `queryset.filter(status='SUBMITTED').update(status='REVISION_REQUESTED')`. */
  function RevisionRequested(reports: map<ReportId, MonthlyReport>, selection: seq<ReportId>): map<ReportId, MonthlyReport> {
    map id | id in reports ::
      if id in selection && reports[id].status == Submitted then reports[id].(status := ReportStatus.RevisionRequested)
      else reports[id]
  }

  /**
   * Only the selected SUBMITTED reports change, and only their status: the
   * reviewer fields, the submission time and the late flag are kept.
   */
  lemma RevisionRequestedSpec(reports: map<ReportId, MonthlyReport>, selection: seq<ReportId>)
    ensures RevisionRequested(reports, selection).Keys == reports.Keys
    ensures forall id :: id in reports && id in selection && reports[id].status == Submitted ==>
      RevisionRequested(reports, selection)[id] == reports[id].(status := ReportStatus.RevisionRequested)
    ensures forall id :: id in reports && !(id in selection && reports[id].status == Submitted) ==>
      RevisionRequested(reports, selection)[id] == reports[id]
  {
  }

  /**
   * `request_revision`: one bulk update; the count is the number of selected
   * SUBMITTED reports, the same count `mark_reviewed` would report.
   */
  method RequestRevision(db: Database, selection: seq<ReportId>) returns (updated: nat)
    requires db.Valid() && forall id :: id in selection ==> id in db.t.reports
    requires Distinct(selection)
    modifies db
    ensures db.Valid()
    ensures updated == |Filter(selection, SubmittedIn(old(db.t).reports))|
    ensures db.t == old(db.t).(reports := RevisionRequested(old(db.t).reports, selection))
  {
    updated := |Filter(selection, SubmittedIn(db.t.reports))|;
    db.ReplaceReports(RevisionRequested(db.t.reports, selection));
  }

  /**
   * A report sent back for revision is editable again by its student, while
   * a reviewed one is locked: the two actions lead to different states from
   * the same SUBMITTED report.
   */
  lemma ActionsDiverge(reports: map<ReportId, MonthlyReport>, selection: seq<ReportId>, id: ReportId,
                       reviewer: UserId, now: DateTime)
    requires forall x :: x in selection ==> x in reports
    requires id in selection && reports[id].status == Submitted
    ensures RevisionRequested(reports, selection)[id].status == ReportStatus.RevisionRequested
    ensures ReviewRows(reports, Filter(selection, SubmittedIn(reports)), reviewer, now)[id].status == ReportStatus.Reviewed
  {
    MarkReviewedEffect(reports, selection, reviewer, now);
  }
}

=== FILE: reports_forms.dfy ===
/**
 * The monthly report form (reports/forms.py, with the field validators of
 * reports/models.py): every text field is stripped and checked on its own,
 * `clean` adds up the words of the seven sections and refuses fewer than
 * 500, and the model's minimum lengths are checked last.
 */
module ReportsForms {
  import opened Wrappers
  import opened Text
  import opened ReportsModels

  /** The `MinLengthValidator` of each section, in form order. */
  const SECTION_MIN_LENGTHS: seq<nat> := [500, 100, 100, 100, 100, 100, 100]

  /** `cleaned_data.get(field, '')`: a field that failed its own checks reads as empty. */
  function OrEmpty(values: seq<Option<string>>): seq<string> {
    seq(|values|, i requires 0 <= i < |values| => values[i].GetOr([]))
  }

  /**
   * The loop of `clean`: the words of the counted fields; a missing or empty
   * field adds nothing.
   */
  method TotalWords(values: seq<Option<string>>) returns (total: nat)
    ensures total == SumWordCounts(OrEmpty(values))
  {
    total := 0;
    var i := 0;
    while i < |values|
      invariant 0 <= i <= |values|
      invariant total == SumWordCounts(OrEmpty(values[..i]))
    {
      var value := values[i].GetOr([]);
      if value != [] {
        total := total + |Split(value)|;
      }
      assert OrEmpty(values[..i + 1]) == OrEmpty(values[..i]) + [value];
      SumWordCountsAppend(OrEmpty(values[..i]), value);
      i := i + 1;
    }
    assert values[..|values|] == values;
  }

  /** For fields that all passed their own checks, `clean`'s total is `get_word_count` of the saved report. */
  lemma FormTotalIsWordCount(c: ReportContent)
    ensures SumWordCounts(OrEmpty(seq(7, k requires 0 <= k < 7 => Some(Sections(c)[k])))) == GetWordCount(c)
  {
    assert OrEmpty(seq(7, k requires 0 <= k < 7 => Some(Sections(c)[k]))) == Sections(c);
  }

  /**
   * A form `CharField` for a model text field strips the value, refuses an
   * empty result when the field is required and refuses a NUL character;
   * the model's `MinLengthValidator` then measures the stripped value.
   */
  predicate TextAccepted(raw: string, required: bool, minLength: nat) {
    var s := Strip(raw);
    !(required && s == []) && '\0' !in s && |s| >= minLength
  }

  /**
   * The form's field cleaning over the seven sections: each value is
   * stripped and checked against its own minimum length; `None` when one is
   * refused (Django goes on to collect every error, which does not change
   * whether the form is valid).
   */
  function CleanSections(sections: seq<string>, minLengths: seq<nat>): (cleaned: Option<seq<string>>)
    requires |sections| == |minLengths|
    ensures cleaned.Some? ==> |cleaned.value| == |sections|
  {
    if sections == [] then Some([])
    else if !TextAccepted(sections[0], true, minLengths[0]) then None
    else match CleanSections(sections[1..], minLengths[1..])
      case None => None
      case Some(rest) => Some([Strip(sections[0])] + rest)
  }

  /** The sections are cleaned exactly when each passes its own checks, and then they are all stripped. */
  lemma {:induction false} CleanSectionsSpec(sections: seq<string>, minLengths: seq<nat>)
    requires |sections| == |minLengths|
    ensures CleanSections(sections, minLengths).Some? <==>
      forall k :: 0 <= k < |sections| ==> TextAccepted(sections[k], true, minLengths[k])
    ensures CleanSections(sections, minLengths).Some? ==> CleanSections(sections, minLengths).value == StripAll(sections)
  {
    if sections != [] {
      CleanSectionsSpec(sections[1..], minLengths[1..]);
      assert forall k :: 1 <= k < |sections| ==> sections[1..][k - 1] == sections[k] && minLengths[1..][k - 1] == minLengths[k];
    }
  }

  /** The content built from cleaned values, in form order. */
  function FromSections(companyProfile: string, sections: seq<string>): (c: ReportContent)
    requires |sections| == 7
    ensures Sections(c) == sections && c.companyProfile == companyProfile
  {
    ReportContent(companyProfile, sections[0], sections[1], sections[2], sections[3],
                  sections[4], sections[5], sections[6])
  }

  /**
   * `form.is_valid()` on the posted fields: the cleaned content, or `None`
   * when some field, the 500-word total or a minimum length is refused (the
   * outcome does not depend on the order Django runs these checks in). The
   * word total is the same whether counted before or after stripping.
   */
  function ValidateReportForm(raw: ReportContent): Option<ReportContent> {
    match CleanSections(Sections(raw), SECTION_MIN_LENGTHS)
    case None => None
    case Some(sections) =>
      if !TextAccepted(raw.companyProfile, false, 0) then None
      else if SumWordCounts(sections) < MIN_WORDS then None
      else Some(FromSections(Strip(raw.companyProfile), sections))
  }

  /**
   * What `form.is_valid()` decides: the form is accepted exactly when every
   * section passes its own checks, the company profile passes its own, and
   * the sections hold at least 500 words (counted before or after stripping,
   * which is the same); the saved content is the stripped text.
   */
  lemma ValidateReportFormSpec(raw: ReportContent)
    ensures ValidateReportForm(raw).Some? <==>
      (forall k :: 0 <= k < 7 ==> TextAccepted(Sections(raw)[k], true, SECTION_MIN_LENGTHS[k]))
      && TextAccepted(raw.companyProfile, false, 0)
      && SumWordCounts(Sections(raw)) >= MIN_WORDS
    ensures ValidateReportForm(raw).Some? ==>
      Sections(ValidateReportForm(raw).value) == StripAll(Sections(raw))
      && ValidateReportForm(raw).value.companyProfile == Strip(raw.companyProfile)
      && GetWordCount(ValidateReportForm(raw).value) == SumWordCounts(Sections(raw)) >= MIN_WORDS
  {
    SumWordCountsStripped(Sections(raw));
    CleanSectionsSpec(Sections(raw), SECTION_MIN_LENGTHS);
  }

  /** An accepted value, once stripped, is accepted again and strips to itself. */
  lemma StrippedStaysAccepted(raw: string, required: bool, minLength: nat)
    requires TextAccepted(raw, required, minLength)
    ensures Strip(Strip(raw)) == Strip(raw)
    ensures TextAccepted(Strip(raw), required, minLength)
  {
    StripResult(raw);
    StripResult(Strip(raw));
  }

  /** Accepted sections, once stripped, are accepted again and strip to themselves. */
  lemma StrippedSectionsAccepted(sections: seq<string>)
    requires |sections| == 7
    requires forall k :: 0 <= k < 7 ==> TextAccepted(sections[k], true, SECTION_MIN_LENGTHS[k])
    ensures |StripAll(sections)| == 7
    ensures forall k :: 0 <= k < 7 ==> TextAccepted(StripAll(sections)[k], true, SECTION_MIN_LENGTHS[k])
    ensures StripAll(StripAll(sections)) == StripAll(sections)
  {
    StripAllFields(sections);
    StripAllFields(StripAll(sections));
    forall k | 0 <= k < 7
      ensures TextAccepted(StripAll(sections)[k], true, SECTION_MIN_LENGTHS[k])
      ensures Strip(StripAll(sections)[k]) == StripAll(sections)[k]
    {
      StrippedStaysAccepted(sections[k], true, SECTION_MIN_LENGTHS[k]);
    }
  }

  /** Posting a report's saved content again validates, and leaves it as it is. */
  lemma CleanedReportRevalidates(raw: ReportContent)
    requires ValidateReportForm(raw).Some?
    ensures ValidateReportForm(ValidateReportForm(raw).value) == ValidateReportForm(raw)
  {
    var c := ValidateReportForm(raw).value;
    ValidateReportFormSpec(raw);
    ValidateReportFormSpec(c);
    StrippedSectionsAccepted(Sections(raw));
    StrippedStaysAccepted(raw.companyProfile, false, 0);
    assert FromSections(Strip(c.companyProfile), StripAll(Sections(c))) == c;
  }
}

=== FILE: reports_models.dfy ===
/**
 * Monthly reports (reports/models.py): the report record, its deadline
 * (day 30 of the report's month), the lateness latch and the word count.
 */
module ReportsModels {
  import opened Wrappers
  import opened Calendar
  import opened Text
  import opened AccountsModels
  import opened InternshipsModels

  type ReportId = nat

  datatype ReportStatus = Draft | Submitted | Reviewed | RevisionRequested

  /** The report's free-text fields: the company profile and the seven report sections. */
  datatype ReportContent = ReportContent(
    companyProfile: string,
    jobDescription: string,
    workEnvironment: string,
    usefulSkills: string,
    neededSkills: string,
    achievements: string,
    challenges: string,
    nextMonthPlan: string)

  /** One report per (placement, month, year): an invariant of the store. */
  datatype MonthlyReport = MonthlyReport(
    placement: PlacementId,
    month: int,
    year: int,
    content: ReportContent,
    status: ReportStatus,
    submittedAt: Option<DateTime>,
    isLate: bool,
    reviewedBy: Option<UserId>,
    reviewedAt: Option<DateTime>)

  /** The fields of the unique constraint on reports. */
  function ReportKey(r: MonthlyReport): (PlacementId, int, int) {
    (r.placement, r.month, r.year)
  }

  /** The seven sections that count towards the report's length, in form order. */
  function Sections(c: ReportContent): seq<string> {
    [c.jobDescription, c.workEnvironment, c.usefulSkills, c.neededSkills,
     c.achievements, c.challenges, c.nextMonthPlan]
  }

  const DEADLINE_DAY: int := 30
  const MIN_WORDS: nat := 500

  /**
   * `get_deadline`: `date(year, month, 30)`. Python refuses to build that date
   * for February (and for a year or month out of range): `None`.
   */
  function GetDeadline(year: int, month: int): (deadline: Option<Date>)
    ensures deadline.Some? <==> 1 <= year <= 9999 && 1 <= month <= 12 && month != 2
    ensures deadline.Some? ==> deadline.value == Date(year, month, 30) && ValidDate(deadline.value)
  {
    var d := Date(year, month, DEADLINE_DAY);
    if ValidDate(d) then Some(d) else None
  }

  /**
   * `check_late_submission`: the report with `is_late` possibly raised, and
   * whether this check found it late. `None` when computing the deadline raises.
   */
  function CheckLateSubmission(r: MonthlyReport): (res: Option<(MonthlyReport, bool)>)
    ensures r.submittedAt.None? ==> res == Some((r, false))
    ensures res.None? <==> r.submittedAt.Some? && GetDeadline(r.year, r.month).None?
    ensures res.Some? ==>
      (res.value.1 <==> r.submittedAt.Some? && Before(Date(r.year, r.month, 30), r.submittedAt.value.date))
    ensures res.Some? ==> res.value.0 == r.(isLate := r.isLate || res.value.1)
  {
    if r.submittedAt.None? then Some((r, false))
    else
      match GetDeadline(r.year, r.month)
      case None => None
      case Some(deadline) =>
        if Before(deadline, r.submittedAt.value.date) then Some((r.(isLate := true), true))
        else Some((r, false))
  }

  /**
   * Late means submitted on a later calendar day than the 30th: a submission
   * dated the 30th is on time, one dated the 31st is late, and a flag already
   * raised stays raised whatever the new submission date.
   */
  lemma LateExactlyAfterDayThirty(r: MonthlyReport, t: DateTime)
    requires ValidDateTime(t) && r.month != 2 && t.date.year == r.year && t.date.month == r.month
    requires r.submittedAt == Some(t)
    ensures CheckLateSubmission(r).Some?
    ensures CheckLateSubmission(r).value.1 <==> t.date.day > 30
    ensures r.isLate ==> CheckLateSubmission(r).value.0.isLate
  {
  }

  /** On real dates, late means a positive number of days past the deadline. */
  lemma LateMeansDaysPastDeadline(r: MonthlyReport, t: DateTime)
    requires ValidDateTime(t) && r.submittedAt == Some(t)
    requires 1 <= r.year <= 9999 && 1 <= r.month <= 12 && r.month != 2
    ensures CheckLateSubmission(r).Some?
    ensures CheckLateSubmission(r).value.1 <==> DaysBetween(Date(r.year, r.month, 30), t.date) > 0
  {
    OrdinalOrdersDates(Date(r.year, r.month, 30), t.date);
  }

  /**
   * `get_word_count`: the number of whitespace-separated words of the seven
   * sections joined by single spaces, which is the sum of their own word counts.
   */
  function GetWordCount(c: ReportContent): (words: nat)
    ensures words == SumWordCounts(Sections(c))
  {
    WordCountOfJoin(Sections(c));
    WordCount(Join(Sections(c), " "))
  }
}

=== FILE: reports_views.dfy ===
/**
 * The student report views (reports/views.py): creating the report of the
 * current month, editing it until it is reviewed, and who may read it.
 */
module ReportsViews {
  import opened Wrappers
  import opened Calendar
  import opened AccountsModels
  import opened InternshipsModels
  import opened ReportsModels
  import opened ReportsForms
  import opened Portal
  import opened Http

  /** A report post: the `action` field (absent when not sent) and the report's text fields. */
  datatype ReportPost = ReportPost(action: Option<string>, content: ReportContent)

  const SUBMIT_ACTION: string := "submit"

  // ---- the student's current placement ---------------------------------------------

  /**
   * `.first()` of the student's ACTIVE placements under the default ordering
   * (newest first): the one with the greatest id.
   */
  predicate IsLatestActivePlacement(t: Tables, student: UserId, id: PlacementId) {
    id in t.placements && t.placements[id].student == student && t.placements[id].status == PlacementStatus.Active
    && forall j :: (j in t.placements && t.placements[j].student == student
                    && t.placements[j].status == PlacementStatus.Active) ==> j <= id
  }

  /** A non-empty set of ids has a greatest element. */
  lemma {:induction false} GreatestId(s: set<nat>) returns (m: nat)
    requires s != {}
    ensures m in s && forall x :: x in s ==> x <= m
    decreases |s|
  {
    var x :| x in s;
    if s == {x} {
      m := x;
    } else {
      var rest := s - {x};
      var r := GreatestId(rest);
      m := if x > r then x else r;
      forall y | y in s
        ensures y <= m
      {
        if y != x {
          assert y in rest;
        }
      }
    }
  }

  /** A student with an ACTIVE placement has a newest one. */
  lemma LatestActivePlacementExists(t: Tables, student: UserId)
    requires HasActivePlacement(t, student)
    ensures exists id :: IsLatestActivePlacement(t, student, id)
  {
    var ids := set id | id in t.placements && t.placements[id].student == student
                        && t.placements[id].status == PlacementStatus.Active;
    var some :| some in t.placements && t.placements[some].student == student
                && t.placements[some].status == PlacementStatus.Active;
    assert some in ids;
    var m := GreatestId(ids);
    forall j | j in t.placements && t.placements[j].student == student
               && t.placements[j].status == PlacementStatus.Active
      ensures j <= m
    {
      assert j in ids;
    }
    assert IsLatestActivePlacement(t, student, m);
  }

  /** There is only one newest ACTIVE placement. */
  lemma LatestActivePlacementUnique(t: Tables, student: UserId, a: PlacementId, b: PlacementId)
    requires IsLatestActivePlacement(t, student, a) && IsLatestActivePlacement(t, student, b)
    ensures a == b
  {
  }

  // ---- the report a post makes ---------------------------------------------------

  /**
   * The report after a valid post: the cleaned content, then either SUBMITTED
   * at `now` followed by the lateness check, or DRAFT (with the submission
   * time and the late flag left as they were). `None` when the lateness
   * check raises (a report of February).
   */
  function Posted(r: MonthlyReport, content: ReportContent, action: Option<string>, now: DateTime): (posted: Option<MonthlyReport>)
    ensures posted.Some? ==> ReportKey(posted.value) == ReportKey(r)
    ensures posted.Some? ==> posted.value.submittedAt == r.submittedAt || posted.value.submittedAt == Some(now)
  {
    if action == Some(SUBMIT_ACTION) then
      match CheckLateSubmission(r.(content := content, status := Submitted, submittedAt := Some(now)))
      case None => None
      case Some((checked, _)) => Some(checked)
    else Some(r.(content := content, status := ReportStatus.Draft))
  }

  /**
   * Saving as a draft keeps the submission time and the late flag; submitting
   * stamps `now` and raises the flag when `now` falls after the 30th of the
   * report's month, and fails only when that deadline cannot be built.
   */
  lemma PostedSpec(r: MonthlyReport, content: ReportContent, action: Option<string>, now: DateTime)
    ensures action != Some(SUBMIT_ACTION) ==>
      Posted(r, content, action, now) == Some(r.(content := content, status := ReportStatus.Draft))
    ensures action == Some(SUBMIT_ACTION) ==>
      (Posted(r, content, action, now).None? <==> GetDeadline(r.year, r.month).None?)
    ensures action == Some(SUBMIT_ACTION) && Posted(r, content, action, now).Some? ==>
      Posted(r, content, action, now).value
        == r.(content := content, status := Submitted, submittedAt := Some(now),
              isLate := r.isLate || Before(Date(r.year, r.month, 30), now.date))
  {
  }

  /** The report `create_report` starts from: this placement, the current month and year, nothing submitted yet. */
  function FreshReport(placement: PlacementId, today: Date): MonthlyReport {
    MonthlyReport(placement, today.month, today.year,
                  ReportContent([], [], [], [], [], [], [], []), ReportStatus.Draft, None, false, None, None)
  }

  /**
   * A report submitted through `create_report` in the month it is for is late
   * only when it is submitted on the 31st.
   */
  lemma CreatedReportLateOnlyOnThe31st(placement: PlacementId, today: Date, content: ReportContent, now: DateTime)
    requires ValidDateTime(now) && today.year == now.date.year && today.month == now.date.month && today.month != 2
    ensures Posted(FreshReport(placement, today), content, Some(SUBMIT_ACTION), now).Some?
    ensures Posted(FreshReport(placement, today), content, Some(SUBMIT_ACTION), now).value.isLate <==> now.date.day == 31
  {
    PostedSpec(FreshReport(placement, today), content, Some(SUBMIT_ACTION), now);
  }

  /**
   * Saving as a draft never clears the submission time or the late flag, and
   * a flag once raised survives any later submission.
   */
  lemma LateFlagSurvivesEdits(r: MonthlyReport, content: ReportContent, action: Option<string>, now: DateTime)
    requires Posted(r, content, action, now).Some?
    ensures r.isLate ==> Posted(r, content, action, now).value.isLate
    ensures action != Some(SUBMIT_ACTION) ==>
      Posted(r, content, action, now).value.submittedAt == r.submittedAt
      && Posted(r, content, action, now).value.isLate == r.isLate
  {
    PostedSpec(r, content, action, now);
  }

  /**
   * The report a post to `create_report` saves: the cleaned content on a
   * fresh report, submitted or kept as a draft. `None` when the form is
   * refused or the lateness check raises.
   */
  function NewReport(placement: PlacementId, today: Date, post: ReportPost, now: DateTime): (report: Option<MonthlyReport>)
    ensures report.Some? ==> ReportKey(report.value) == (placement, today.month, today.year)
    ensures report.Some? ==> report.value.submittedAt == None || report.value.submittedAt == Some(now)
  {
    match ValidateReportForm(post.content)
    case None => None
    case Some(content) => Posted(FreshReport(placement, today), content, post.action, now)
  }

  // ---- create_report -----------------------------------------------------------------

  /** Where `create_report`'s checks lead before the form is looked at. */
  datatype CreateRoute =
    | Stop(response: Response)         // refused before any form handling
    | OpenExisting(report: ReportId)   // this month's report exists: edit it instead
    | SaveFor(placement: PlacementId)  // the form is handled for this placement

  /**
   * The checks of `create_report`, in order: a non-student is sent home, a
   * user without a profile makes the view raise, a student without an ACTIVE
   * placement is sent to the dashboard, and an existing report of the newest
   * ACTIVE placement for this month is opened for editing.
   */
  function CreateReportRoute(t: Tables, actor: UserId, today: Date): (route: CreateRoute)
    requires TablesOk(t) && actor in t.users
  {
    if t.users[actor].role != Student then Stop(Redirect(Home))
    else if actor !in t.students then Stop(ServerError)
    else if !HasActivePlacement(t, actor) then Stop(Redirect(StudentDashboard))
    else
      LatestActivePlacementExists(t, actor);
      var placement: PlacementId :| IsLatestActivePlacement(t, actor, placement);
      if ReportExists(t, placement, today.month, today.year) then
        var existing: ReportId :| existing in t.reports
                                  && ReportKey(t.reports[existing]) == (placement, today.month, today.year);
        OpenExisting(existing)
      else SaveFor(placement)
  }

  /**
   * Each check of `create_report` and where it leads; month and year come
   * from `today`, and a new report is only made for the student's newest
   * ACTIVE placement when it has none for this month.
   */
  lemma CreateReportRouteSpec(t: Tables, actor: UserId, today: Date)
    requires TablesOk(t) && actor in t.users
    ensures t.users[actor].role != Student <==> CreateReportRoute(t, actor, today) == Stop(Redirect(Home))
    ensures t.users[actor].role == Student && actor !in t.students <==>
      CreateReportRoute(t, actor, today) == Stop(ServerError)
    ensures t.users[actor].role == Student && actor in t.students && !HasActivePlacement(t, actor) <==>
      CreateReportRoute(t, actor, today) == Stop(Redirect(StudentDashboard))
    ensures CreateReportRoute(t, actor, today).OpenExisting? ==>
      var id := CreateReportRoute(t, actor, today).report;
      id in t.reports && IsLatestActivePlacement(t, actor, t.reports[id].placement)
      && t.reports[id].month == today.month && t.reports[id].year == today.year
    ensures CreateReportRoute(t, actor, today).SaveFor? ==>
      var p := CreateReportRoute(t, actor, today).placement;
      t.users[actor].role == Student && actor in t.students
      && IsLatestActivePlacement(t, actor, p) && !ReportExists(t, p, today.month, today.year)
  {
  }

  /**
   * `create_report`: the checks of `CreateReportRoute` decide whether the
   * view stops, opens the existing report, or handles the form for the
   * placement; only the last can insert a report. There a GET or a refused
   * form renders, and a February submission raises.
   */
  method CreateReport(db: Database, actor: UserId, request: Request<ReportPost>, today: Date, now: DateTime)
    returns (response: Response)
    requires db.Valid() && actor in db.t.users && ValidDate(today) && ValidDateTime(now)
    modifies db
    ensures db.Valid()
    ensures CreateReportRoute(old(db.t), actor, today).Stop? ==>
      response == CreateReportRoute(old(db.t), actor, today).response && unchanged(db)
    ensures CreateReportRoute(old(db.t), actor, today).OpenExisting? ==>
      response == Redirect(EditReport(CreateReportRoute(old(db.t), actor, today).report)) && unchanged(db)
    ensures CreateReportRoute(old(db.t), actor, today).SaveFor? && request.PostRequest? ==>
      var report := NewReport(CreateReportRoute(old(db.t), actor, today).placement, today, request.data, now);
      (response == Redirect(StudentReports) <==> report.Some?)
      && (response == Redirect(StudentReports) ==>
            db.t == old(db.t).(reports := old(db.t).reports[old(db.t).nextReportId := report.value],
                               nextReportId := old(db.t).nextReportId + 1))
    ensures CreateReportRoute(old(db.t), actor, today).SaveFor? ==>
      (response == Render <==> request.GetRequest? || ValidateReportForm(request.data.content).None?)
      && (response == ServerError <==>
            request.PostRequest? && ValidateReportForm(request.data.content).Some?
            && NewReport(CreateReportRoute(old(db.t), actor, today).placement, today, request.data, now).None?)
    ensures response == Redirect(StudentReports) ==> CreateReportRoute(old(db.t), actor, today).SaveFor? && request.PostRequest?
    ensures response != Redirect(StudentReports) ==> unchanged(db)
  {
    var route := CreateReportRoute(db.t, actor, today);
    match route
    case Stop(r) =>
      response := r;
    case OpenExisting(id) =>
      response := Redirect(EditReport(id));
    case SaveFor(placement) =>
      CreateReportRouteSpec(db.t, actor, today);
      response := SaveNewReport(db, placement, request, today, now);
  }

  /**
   * The rest of `create_report` once the placement is known and has no
   * report for this month: a GET or a refused form shows the form again, a
   * February submission raises, and otherwise the new report is inserted.
   */
  method SaveNewReport(db: Database, placement: PlacementId, request: Request<ReportPost>, today: Date, now: DateTime)
    returns (response: Response)
    requires db.Valid() && placement in db.t.placements && 1 <= today.month <= 12 && ValidDateTime(now)
    requires !ReportExists(db.t, placement, today.month, today.year)
    modifies db
    ensures db.Valid()
    ensures response == Redirect(StudentReports) <==>
      request.PostRequest? && NewReport(placement, today, request.data, now).Some?
    ensures response == Redirect(StudentReports) ==>
      db.t == old(db.t).(reports := old(db.t).reports[old(db.t).nextReportId := NewReport(placement, today, request.data, now).value],
                         nextReportId := old(db.t).nextReportId + 1)
    ensures response != Redirect(StudentReports) ==> unchanged(db) && (response == Render || response == ServerError)
    ensures response == Render <==> request.GetRequest? || ValidateReportForm(request.data.content).None?
    ensures response == ServerError <==>
      request.PostRequest? && ValidateReportForm(request.data.content).Some?
      && NewReport(placement, today, request.data, now).None?
  {
    if request.GetRequest? {
      return Render;
    }
    if ValidateReportForm(request.data.content).None? {
      return Render;
    }
    var posted := NewReport(placement, today, request.data, now);
    if posted.None? {
      return ServerError;
    }
    var id := db.InsertReport(posted.value);
    response := Redirect(StudentReports);
  }

  // ---- edit_report -------------------------------------------------------------------

  /**
   * `edit_report`: a non-student is sent home, an unknown report is a 404,
   * a user without a profile makes the view raise, a report of another
   * student's placement is refused, and a REVIEWED report is locked. DRAFT,
   * SUBMITTED and REVISION_REQUESTED reports take a valid post: the content
   * is replaced and the report is submitted or saved as a draft.
   */
  method EditReportView(db: Database, actor: UserId, id: ReportId, request: Request<ReportPost>, now: DateTime)
    returns (response: Response)
    requires db.Valid() && actor in db.t.users && ValidDateTime(now)
    modifies db
    ensures db.Valid()
    ensures old(db.t).users[actor].role != Student ==> response == Redirect(Home)
    ensures old(db.t).users[actor].role == Student && id !in old(db.t).reports ==> response == NotFound
    ensures old(db.t).users[actor].role == Student && id in old(db.t).reports ==>
      var r := old(db.t).reports[id];
      (actor !in old(db.t).students ==> response == ServerError)
      && (actor in old(db.t).students && old(db.t).placements[r.placement].student != actor ==>
            response == Redirect(StudentDashboard))
      && (actor in old(db.t).students && old(db.t).placements[r.placement].student == actor && r.status == Reviewed ==>
            response == Redirect(StudentReports) && unchanged(db))
    ensures old(db.t).users[actor].role == Student && id in old(db.t).reports && actor in old(db.t).students
            && old(db.t).placements[old(db.t).reports[id].placement].student == actor
            && old(db.t).reports[id].status != Reviewed ==>
      var r := old(db.t).reports[id];
      (response == Render <==> request.GetRequest? || ValidateReportForm(request.data.content).None?)
      && (response == ServerError <==>
            request.PostRequest? && ValidateReportForm(request.data.content).Some?
            && Posted(r, ValidateReportForm(request.data.content).value, request.data.action, now).None?)
      && (response == Redirect(StudentReports) <==>
            request.PostRequest? && ValidateReportForm(request.data.content).Some?
            && Posted(r, ValidateReportForm(request.data.content).value, request.data.action, now).Some?)
    ensures response == Redirect(StudentReports) && old(db.t).reports[id].status != Reviewed ==>
      id in db.t.reports && request.PostRequest? && ValidateReportForm(request.data.content).Some?
      && old(db.t).placements[old(db.t).reports[id].placement].student == actor
      && Posted(old(db.t).reports[id], ValidateReportForm(request.data.content).value, request.data.action, now)
           == Some(db.t.reports[id])
      && db.t == old(db.t).(reports := old(db.t).reports[id := db.t.reports[id]])
    ensures response != Redirect(StudentReports) ==> unchanged(db)
  {
    if db.t.users[actor].role != Student {
      return Redirect(Home);
    }
    if id !in db.t.reports {
      return NotFound;
    }
    if actor !in db.t.students {
      return ServerError;
    }
    var report := db.t.reports[id];
    if db.t.placements[report.placement].student != actor {
      return Redirect(StudentDashboard);
    }
    if report.status == Reviewed {
      return Redirect(StudentReports);
    }
    if request.GetRequest? {
      return Render;
    }
    var content := ValidateReportForm(request.data.content);
    if content.None? {
      return Render;
    }
    var posted := Posted(report, content.value, request.data.action, now);
    if posted.None? {
      return ServerError;
    }
    db.UpdateReport(id, posted.value);
    response := Redirect(StudentReports);
  }

  // ---- view_report -------------------------------------------------------------------

  /** Who may read a report: the placement's student, the placement's supervisor, or an admin. */
  predicate MayViewReport(t: Tables, actor: UserId, r: MonthlyReport)
    requires actor in t.users && r.placement in t.placements
  {
    match t.users[actor].role
    case Student => t.placements[r.placement].student == actor
    case Supervisor => t.placements[r.placement].supervisor == Some(actor)
    case Admin => true
  }

  /**
   * `view_report`: an unknown report is a 404; a student or supervisor
   * without a profile makes the view raise; otherwise the report is shown
   * exactly to those who may read it, and anyone else is sent to their
   * dashboard. Nothing is changed.
   */
  function ViewReport(t: Tables, actor: UserId, id: ReportId): (response: Response)
    requires TablesOk(t) && actor in t.users
    ensures id !in t.reports <==> response == NotFound
    ensures id in t.reports ==>
      (response == Render <==>
        MayViewReport(t, actor, t.reports[id])
        && (t.users[actor].role == Student ==> actor in t.students)
        && (t.users[actor].role == Supervisor ==> actor in t.supervisors))
    ensures response == ServerError ==>
      (t.users[actor].role == Student && actor !in t.students)
      || (t.users[actor].role == Supervisor && actor !in t.supervisors)
  {
    if id !in t.reports then NotFound
    else
      var placement := t.placements[t.reports[id].placement];
      match t.users[actor].role
      case Student =>
        if actor !in t.students then ServerError
        else if placement.student != actor then Redirect(StudentDashboard)
        else Render
      case Supervisor =>
        if actor !in t.supervisors then ServerError
        else if placement.supervisor != Some(actor) then Redirect(SupervisorDashboard)
        else Render
      case Admin => Render
  }
}

=== FILE: selections.dfy ===
/**
 * The rows an admin action works on: a queryset, as the sequence of the
 * selected ids in iteration order, and `queryset.filter(...)` over it.
 */
module Selections {
  /** A queryset lists each row once (every primary key here is a `nat`). */
  predicate Distinct(s: seq<nat>) {
    forall i, j :: 0 <= i < j < |s| ==> s[i] != s[j]
  }

  /** `queryset.filter(...)`: the selected ids that satisfy the condition, in their order. */
  function Filter(s: seq<nat>, p: nat -> bool): (kept: seq<nat>)
    ensures |kept| <= |s|
    ensures forall x :: x in kept <==> x in s && p(x)
  {
    if s == [] then [] else (if p(s[0]) then [s[0]] else []) + Filter(s[1..], p)
  }

  /** Filtering a queryset keeps every row at most once. */
  lemma {:induction false} FilterDistinct(s: seq<nat>, p: nat -> bool)
    requires Distinct(s)
    ensures Distinct(Filter(s, p))
  {
    if s != [] {
      assert Distinct(s[1..]) by {
        forall i, j | 0 <= i < j < |s[1..]|
          ensures s[1..][i] != s[1..][j]
        {
          assert s[1..][i] == s[i + 1] && s[1..][j] == s[j + 1];
        }
      }
      FilterDistinct(s[1..], p);
      var rest := Filter(s[1..], p);
      assert s[0] !in s[1..] by {
        forall k | 0 <= k < |s[1..]|
          ensures s[1..][k] != s[0]
        {
          assert s[1..][k] == s[k + 1];
        }
      }
      var kept := Filter(s, p);
      forall i, j | 0 <= i < j < |kept|
        ensures kept[i] != kept[j]
      {
        if p(s[0]) {
          assert kept == [s[0]] + rest;
          if i == 0 {
            assert kept[j] == rest[j - 1];
            assert rest[j - 1] in rest;
          } else {
            assert kept[i] == rest[i - 1] && kept[j] == rest[j - 1];
          }
        } else {
          assert kept == rest;
        }
      }
    }
  }
}

=== FILE: text.dfy ===
/**
 * The few Python string operations the portal relies on, over `seq<char>`:
 * `str.split()` (no separator), `str.strip()`, `str.split(sep)`, `sep.join(...)`
 * and `str.endswith(...)`. "Whitespace" is the set Python's `str.isspace`
 * uses, which is what `split()` and `strip()` break and trim on.
 */
module Text {

  /** Python's whitespace code points (`Py_UNICODE_ISSPACE`). */
  predicate IsSpace(c: char) {
    var n := c as int;
    (0x09 <= n <= 0x0D) || (0x1C <= n <= 0x20) || n == 0x85 || n == 0xA0 || n == 0x1680
    || (0x2000 <= n <= 0x200A) || n == 0x2028 || n == 0x2029 || n == 0x202F || n == 0x205F
    || n == 0x3000
  }

  predicate NoSpace(s: string) {
    forall i :: 0 <= i < |s| ==> !IsSpace(s[i])
  }

  /** Length of the leading run of non-whitespace characters. */
  function TokenLength(s: string): (n: nat)
    ensures n <= |s|
    ensures NoSpace(s[..n])
    ensures n < |s| ==> IsSpace(s[n])
  {
    if s == [] || IsSpace(s[0]) then 0 else 1 + TokenLength(s[1..])
  }

  /** `s.split()`: the maximal whitespace-free runs of `s`, in order. */
  function Split(s: string): (words: seq<string>)
    ensures forall k :: 0 <= k < |words| ==> words[k] != [] && NoSpace(words[k])
    decreases |s|
  {
    if s == [] then []
    else if IsSpace(s[0]) then Split(s[1..])
    else
      var n := TokenLength(s);
      [s[..n]] + Split(s[n..])
  }

  /** `len(s.split())`. */
  function WordCount(s: string): nat {
    |Split(s)|
  }

  /** `sep.join(parts)`. */
  function Join(parts: seq<string>, sep: string): string {
    if parts == [] then []
    else if |parts| == 1 then parts[0]
    else parts[0] + sep + Join(parts[1..], sep)
  }

  lemma {:induction false} TokenLengthStopsAtSpace(a: string, c: char, b: string)
    requires IsSpace(c)
    ensures TokenLength(a + [c] + b) == TokenLength(a)
  {
    if a != [] && !IsSpace(a[0]) {
      assert (a + [c] + b)[1..] == a[1..] + [c] + b;
      TokenLengthStopsAtSpace(a[1..], c, b);
    }
  }

  /**
   * Splitting at a whitespace character splits the word list:
   * `(a + c + b).split() == a.split() + b.split()`.
   */
  lemma {:induction false} SplitAtSpace(a: string, c: char, b: string)
    requires IsSpace(c)
    ensures Split(a + [c] + b) == Split(a) + Split(b)
    decreases |a|
  {
    var s := a + [c] + b;
    if a == [] {
      assert s[1..] == b;
    } else if IsSpace(a[0]) {
      assert s[1..] == a[1..] + [c] + b;
      SplitAtSpace(a[1..], c, b);
    } else {
      var n := TokenLength(a);
      TokenLengthStopsAtSpace(a, c, b);
      assert s[..n] == a[..n];
      assert s[n..] == a[n..] + [c] + b;
      SplitAtSpace(a[n..], c, b);
    }
  }

  /** A single word splits to itself. */
  lemma {:induction false} SplitOfWord(w: string)
    requires w != [] && NoSpace(w)
    ensures Split(w) == [w]
  {
    WholeWordIsToken(w);
    assert w[..|w|] == w;
    assert w[|w|..] == [];
  }

  lemma {:induction false} WholeWordIsToken(w: string)
    requires NoSpace(w)
    ensures TokenLength(w) == |w|
  {
    if w != [] {
      WholeWordIsToken(w[1..]);
    }
  }

  /** Joining words with single spaces and splitting again gives the same words. */
  lemma {:induction false} SplitJoinOfWords(words: seq<string>)
    requires forall k :: 0 <= k < |words| ==> words[k] != [] && NoSpace(words[k])
    ensures Split(Join(words, " ")) == words
  {
    if |words| == 1 {
      SplitOfWord(words[0]);
    } else if |words| > 1 {
      var rest := words[1..];
      assert Join(words, " ") == words[0] + [' '] + Join(rest, " ");
      SplitAtSpace(words[0], ' ', Join(rest, " "));
      SplitOfWord(words[0]);
      SplitJoinOfWords(rest);
    }
  }

  /** Sum of the word counts of each field. */
  function SumWordCounts(fields: seq<string>): nat {
    if fields == [] then 0 else WordCount(fields[0]) + SumWordCounts(fields[1..])
  }

  /**
   * `len(" ".join(fields).split())` is the sum of the fields' own word counts:
   * joining with one space never merges two words and never creates one.
   */
  lemma {:induction false} WordCountOfJoin(fields: seq<string>)
    ensures WordCount(Join(fields, " ")) == SumWordCounts(fields)
  {
    if |fields| == 0 {
    } else if |fields| == 1 {
      assert fields[1..] == [];
    } else {
      var rest := fields[1..];
      assert Join(fields, " ") == fields[0] + [' '] + Join(rest, " ");
      SplitAtSpace(fields[0], ' ', Join(rest, " "));
      WordCountOfJoin(rest);
    }
  }

  lemma {:induction false} SumWordCountsAppend(fields: seq<string>, s: string)
    ensures SumWordCounts(fields + [s]) == SumWordCounts(fields) + WordCount(s)
  {
    if fields == [] {
      assert [] + [s] == [s];
    } else {
      assert (fields + [s])[1..] == fields[1..] + [s];
      SumWordCountsAppend(fields[1..], s);
    }
  }

  // ---- strip -------------------------------------------------------------

  function StripLeft(s: string): string {
    if s != [] && IsSpace(s[0]) then StripLeft(s[1..]) else s
  }

  /** `lstrip()` removes exactly the leading whitespace: what is left is a suffix starting with a non-space. */
  lemma {:induction false} StripLeftSpec(s: string)
    ensures |StripLeft(s)| <= |s| && StripLeft(s) == s[|s| - |StripLeft(s)|..]
    ensures StripLeft(s) == [] || !IsSpace(StripLeft(s)[0])
    ensures forall i :: 0 <= i < |s| - |StripLeft(s)| ==> IsSpace(s[i])
  {
    if s != [] && IsSpace(s[0]) {
      var rest := s[1..];
      StripLeftSpec(rest);
      assert StripLeft(s) == StripLeft(rest);
      forall i | 0 <= i < |s| - |StripLeft(s)|
        ensures IsSpace(s[i])
      {
        if i > 0 {
          assert s[i] == rest[i - 1];
        }
      }
    }
  }

  function StripRight(s: string): string {
    if s != [] && IsSpace(s[|s| - 1]) then StripRight(s[..|s| - 1]) else s
  }

  /** `rstrip()` removes exactly the trailing whitespace: what is left is a prefix ending in a non-space. */
  lemma {:induction false} StripRightSpec(s: string)
    ensures |StripRight(s)| <= |s| && StripRight(s) == s[..|StripRight(s)|]
    ensures StripRight(s) == [] || !IsSpace(StripRight(s)[|StripRight(s)| - 1])
    ensures forall i :: |StripRight(s)| <= i < |s| ==> IsSpace(s[i])
  {
    if s != [] && IsSpace(s[|s| - 1]) {
      var rest := s[..|s| - 1];
      StripRightSpec(rest);
      assert StripRight(s) == StripRight(rest);
      forall i | |StripRight(s)| <= i < |s|
        ensures IsSpace(s[i])
      {
        if i < |s| - 1 {
          assert s[i] == rest[i];
        }
      }
    }
  }

  /** `s.strip()`. */
  function Strip(s: string): string {
    StripRight(StripLeft(s))
  }

  /** A string `strip()` leaves alone: empty, or neither end is whitespace. */
  predicate IsStripped(s: string) {
    s == [] || (!IsSpace(s[0]) && !IsSpace(s[|s| - 1]))
  }

  lemma StripResult(s: string)
    ensures IsStripped(Strip(s))
    ensures IsStripped(s) ==> Strip(s) == s
  {
    StripLeftSpec(s);
    StripRightSpec(StripLeft(s));
  }

  /** Stripping removes only whitespace: a character that is not whitespace is in `s.strip()` iff it is in `s`. */
  lemma StripKeepsNonSpace(s: string, c: char)
    requires !IsSpace(c)
    ensures c in Strip(s) <==> c in s
  {
    var l := StripLeft(s);
    StripLeftSpec(s);
    StripRightSpec(l);
    if c in s {
      var i :| 0 <= i < |s| && s[i] == c;
      var j := i - (|s| - |l|);
      assert l[j] == c;
      assert Strip(s)[j] == c;
    }
  }

  lemma {:induction false} SplitIgnoresTrailingSpace(s: string)
    requires s != [] && IsSpace(s[|s| - 1])
    ensures Split(s) == Split(s[..|s| - 1])
  {
    var a := s[..|s| - 1];
    assert s == a + [s[|s| - 1]] + [];
    SplitAtSpace(a, s[|s| - 1], []);
  }

  lemma {:induction false} SplitStripRight(s: string)
    ensures Split(StripRight(s)) == Split(s)
    decreases |s|
  {
    if s != [] && IsSpace(s[|s| - 1]) {
      SplitIgnoresTrailingSpace(s);
      SplitStripRight(s[..|s| - 1]);
    }
  }

  lemma {:induction false} SplitStripLeft(s: string)
    ensures Split(StripLeft(s)) == Split(s)
    decreases |s|
  {
    if s != [] && IsSpace(s[0]) {
      SplitStripLeft(s[1..]);
    }
  }

  /** Stripping never changes the words of a string: `s.strip().split() == s.split()`. */
  lemma SplitOfStrip(s: string)
    ensures Split(Strip(s)) == Split(s)
  {
    SplitStripRight(StripLeft(s));
    SplitStripLeft(s);
  }

  // ---- split on a separator ------------------------------------------------

  /** `s.split(sep)` for a one-character separator: every occurrence splits. */
  function SplitOn(s: string, sep: char): (parts: seq<string>)
    ensures |parts| >= 1
    ensures forall k :: 0 <= k < |parts| ==> sep !in parts[k]
    decreases |s|
  {
    if s == [] then [[]]
    else if s[0] == sep then [[]] + SplitOn(s[1..], sep)
    else
      var rest := SplitOn(s[1..], sep);
      [[s[0]] + rest[0]] + rest[1..]
  }

  /** Re-joining the pieces with the separator gives back the string. */
  lemma {:induction false} JoinSplitOn(s: string, sep: char)
    ensures Join(SplitOn(s, sep), [sep]) == s
    decreases |s|
  {
    if s == [] {
    } else if s[0] == sep {
      JoinSplitOn(s[1..], sep);
      var rest := SplitOn(s[1..], sep);
      assert ([[]] + rest)[1..] == rest;
    } else {
      JoinSplitOn(s[1..], sep);
      var rest := SplitOn(s[1..], sep);
      var parts := [[s[0]] + rest[0]] + rest[1..];
      if |rest| == 1 {
      } else {
        assert Join(rest, [sep]) == rest[0] + [sep] + Join(rest[1..], [sep]);
        assert parts[1..] == rest[1..];
      }
    }
  }

  /** Splitting a join of separator-free pieces gives the pieces back. */
  lemma {:induction false} SplitOnJoin(parts: seq<string>, sep: char)
    requires |parts| >= 1
    requires forall k :: 0 <= k < |parts| ==> sep !in parts[k]
    ensures SplitOn(Join(parts, [sep]), sep) == parts
    decreases |parts|, |parts[0]|
  {
    var p := parts[0];
    if p == [] {
      if |parts| == 1 {
      } else {
        var rest := parts[1..];
        assert Join(parts, [sep]) == [sep] + Join(rest, [sep]);
        SplitOnJoin(rest, sep);
        assert [sep] + Join(rest, [sep]) != [];
        assert ([sep] + Join(rest, [sep]))[1..] == Join(rest, [sep]);
      }
    } else {
      var tail := [p[1..]] + parts[1..];
      assert forall k :: 0 <= k < |tail| ==> sep !in tail[k] by {
        forall k | 0 <= k < |tail| ensures sep !in tail[k] {
          if k == 0 {
            assert forall x :: x in p[1..] ==> x in p;
          } else {
            assert tail[k] == parts[k];
          }
        }
      }
      assert p[0] != sep by { assert p[0] in p; }
      assert Join(parts, [sep]) == [p[0]] + Join(tail, [sep]) by {
        if |parts| == 1 {
          assert tail == [p[1..]];
        } else {
          assert tail[1..] == parts[1..];
        }
      }
      SplitOnJoin(tail, sep);
      var s := Join(parts, [sep]);
      assert s[1..] == Join(tail, [sep]);
      assert [p[0]] + p[1..] == p;
    }
  }

  /** Every field stripped. */
  function StripAll(fields: seq<string>): seq<string> {
    if fields == [] then [] else [Strip(fields[0])] + StripAll(fields[1..])
  }

  /** `StripAll` strips each field in place. */
  lemma {:induction false} StripAllFields(fields: seq<string>)
    ensures |StripAll(fields)| == |fields|
    ensures forall k :: 0 <= k < |fields| ==> StripAll(fields)[k] == Strip(fields[k])
  {
    if fields != [] {
      StripAllFields(fields[1..]);
    }
  }

  /** Stripping the fields never changes their total word count. */
  lemma {:induction false} SumWordCountsStripped(fields: seq<string>)
    ensures SumWordCounts(StripAll(fields)) == SumWordCounts(fields)
  {
    if fields != [] {
      assert StripAll(fields)[1..] == StripAll(fields[1..]);
      SplitOfStrip(fields[0]);
      SumWordCountsStripped(fields[1..]);
    }
  }

  // ---- suffixes and digits -------------------------------------------------

  /** `s.endswith(suffix)`. */
  predicate EndsWith(s: string, suffix: string) {
    |suffix| <= |s| && s[|s| - |suffix|..] == suffix
  }

  predicate IsAsciiDigit(c: char) {
    '0' <= c <= '9'
  }

  // ---- decimal numerals --------------------------------------------------

  /** The digit character of d, for d in 0..9. */
  function DigitChar(d: nat): (c: char)
    requires d < 10
    ensures IsAsciiDigit(c) && c as int - '0' as int == d
  {
    ('0' as int + d) as char
  }

  predicate AllDigits(s: string) {
    forall i :: 0 <= i < |s| ==> IsAsciiDigit(s[i])
  }

  /** `str(n)` for a non-negative integer: its decimal digits, without leading zeros. */
  function DecimalString(n: nat): (s: string)
    ensures s != [] && AllDigits(s)
    ensures |s| > 1 ==> s[0] != '0'
    decreases n
  {
    if n < 10 then [DigitChar(n)] else DecimalString(n / 10) + [DigitChar(n % 10)]
  }

  /** `int(s)` on a string of ASCII digits. */
  function DecimalValue(s: string): nat
    requires AllDigits(s)
  {
    if s == [] then 0
    else
      assert AllDigits(s[..|s| - 1]);
      DecimalValue(s[..|s| - 1]) * 10 + (s[|s| - 1] as int - '0' as int)
  }

  /** Reading back the numeral of n gives n. */
  lemma {:induction false} DecimalRoundTrip(n: nat)
    ensures DecimalValue(DecimalString(n)) == n
    decreases n
  {
    if n >= 10 {
      var s := DecimalString(n);
      assert s[..|s| - 1] == DecimalString(n / 10);
      DecimalRoundTrip(n / 10);
    }
  }

  /** Different numbers have different numerals. */
  lemma DecimalInjective(m: nat, n: nat)
    requires DecimalString(m) == DecimalString(n)
    ensures m == n
  {
    DecimalRoundTrip(m);
    DecimalRoundTrip(n);
  }
}

=== FILE: wrappers.dfy ===
/** The optional value used for every nullable column and every "may be absent" result. */
module Wrappers {

  datatype Option<+T> = None | Some(value: T) {

    /** The value, or `default` when absent. */
    function GetOr(default: T): T {
      match this
      case Some(v) => v
      case None => default
    }
  }
}
